=== FILE: README.md ===
# unwanted-wayback-tools, modelled in Dafny

This project models the deterministic core of *unwanted-wayback-tools*. It
is an Electron desktop application that searches the Internet Archive's
Wayback Machine for captured files and downloads them. It also searches two
audio sites and the Soulseek network, and downloads videos.

The model covers the following parts.

- **The main process (`electron/main.js`).**
  - `parseWaybackInput` splits a Wayback link into the original URL and its
    capture stamp.
  - The `fetch-resources` handler asks the CDX index for the captures of up
    to fifty links and gathers them without repeating a `timestamp::original`
    key.
  - The two audio search handlers pick links out of a page and collect them
    without repeating a URL. The lostmyspace handler retries with back-off.
  - The `download-resource` handler names the file it writes.
- **The extraction script (`scripts/test-wayback-extract.js`).**
  - Its own reading of a Wayback link.
  - The anchor and `background-image` tests that yield candidate links.
  - The ordered candidate set.
  - `normalizeToArchived`, which rewrites a candidate into a replay address.
  - Probing of at most 150 candidates in batches of six.
  - The final media filter.
- **The renderer views.**
  - The simple search: request, type filter, grouping of results, card
    selection and bulk download.
  - The deep search: the pasted-links parser and single and bulk downloads.
  - The application shell: type filter, pagination, page clamping and the
    download jobs.
  - The Soulseek view: file name, destination path, size and speed columns,
    and availability.
  - The statistics page: `formatTime`, `formatBytes`, loading and clearing.
  - The download status bar.
  - The video downloader's 500-line log and progress merge.

Things the program gets from outside become parameters of the model. These
are `new URL` (a function that gives the hostname and pathname, or nothing
where the constructor throws), relative URL resolution, CDX answers, probe
results, attempt outcomes, the clock, and the matches of the progress
patterns. JavaScript's `null`, `undefined` and `""` text fields are all `""`
where the code only tests them for truthiness. A number field that may be
missing is an `Option`.

The modules follow the program's structure:

| module | file | what it holds |
|---|---|---|
| `Opt`, `Strs`, `Seqs`, `Numerals` | `opt.dfy`, `strs.dfy`, `seqs.dfy`, `numerals.dfy` | JavaScript's string, array and number primitives used below |
| `WaybackInput` | `wayback_input.dfy` | the two `parseWaybackInput` functions |
| `Items` | `items.dfy` | the result record and the selection-to-download step |
| `CdxSearch` | `cdx_search.dfy` | `fetch-resources` |
| `AudioSearch` | `audio_search.dfy` | `search-mp3`, `search-lostmyspace` |
| `DownloadName` | `download_name.dfy` | file naming in `download-resource` |
| `Extraction` | `extraction.dfy` | the extraction script |
| `Selection`, `Grouping` | `selection.dfy`, `grouping.dfy` | the card selection set and the group-by pass |
| `SimpleSearch`, `AdvancedSearch`, `AppView` | `simple_search.dfy`, `advanced_search.dfy`, `app_view.dfy` | the three Wayback views |
| `ByteUnits`, `SoulseekView`, `Statistics` | `byte_units.dfy`, `soulseek_view.dfy`, `statistics.dfy` | unit choice, the Soulseek view, the statistics page |
| `StatusBar`, `VideoLog` | `status_bar.dfy`, `video_log.dfy` | the status bar and the video log |

## Model

| member | source | states |
|---|---|---|
| WaybackInput.Segments | electron/main.js:83 | the path's segments are non-empty and hold no `/` |
| WaybackInput.WithScheme | electron/main.js:88 | the result starts with `http`; a rest already starting with it is kept, any other rest gets `http://` in front |
| WaybackInput.ParseElectron | electron/main.js:79-96 | the input comes back unchanged with no stamp off the archive host or without a `web` segment; otherwise a stamp is a non-empty segment and an original starts with `http` |
| WaybackInput.ElectronOnWebPath | electron/main.js:82-89 | for `/web/<stamp>/<rest>` the stamp is that segment and the original is the rest's non-empty segments joined by `/`, given a scheme, or none when nothing remains |
| WaybackInput.ElectronFindsWebLater | electron/main.js:84 | a `web` segment after another segment is still found |
| WaybackInput.CollapseNoDoubleSlash | electron/main.js:83-87 | the rebuilt original never holds `//` |
| WaybackInput.MatchWebPath | scripts/test-wayback-extract.js:14 | a match splits the path into a non-empty slash-free stamp and a non-empty rest without line terminators |
| WaybackInput.MatchWebPathComplete | scripts/test-wayback-extract.js:14 | every path of that shape matches, with exactly those captures |
| WaybackInput.ParseScript | scripts/test-wayback-extract.js:10-26 | an original always comes back; inputs off the archive or without a match pass through; a stamp is never empty or `*` |
| WaybackInput.ScriptOnWebPath | scripts/test-wayback-extract.js:13-19 | the original is the whole rest with a scheme, and the stamp is dropped when it is `*` |
| WaybackInput.ScriptNeedsWebFirst | scripts/test-wayback-extract.js:14 | a path not starting with `/web/` passes through |
| WaybackInput.WildcardStampDiffers | scripts/test-wayback-extract.js:16 | for a `*` stamp the main process keeps `*` and the script gives none |
| WaybackInput.ParsersAgreeOffArchive | electron/main.js:92-94 | off the archive host both readings pass the input through |
| WaybackInput.ParsersAgreeOnWebPath | scripts/test-wayback-extract.js:14-19 | on `/web/<stamp>/<rest>` the two readings agree exactly when the stamp is not `*` and the rest has no empty segment |
| WaybackInput.ReplayUrlRoundTrip | scripts/test-wayback-extract.js:12-19 | when the stamp and the original are kept verbatim in the pathname `new URL` reports (printable ASCII without `?`, `#`, `\`, `%` or characters the path escapes, and no `.` or `..` segment), the script's parser reads the replay address back as that original and stamp |
| CdxSearch.Links | electron/main.js:106 | a single link is a list of one; an array is cut to its first fifty |
| CdxSearch.QueryFor | electron/main.js:115-124 | the query keeps the original URL; each date bound is sent exactly when its filter is set, and then with its dashes removed |
| CdxSearch.QueryForDate | electron/main.js:116-119 | a `from` date picked as `YYYY-MM-DD` is sent as `YYYYMMDD` |
| CdxSearch.RemoveDashes | electron/main.js:118 | the date bound holds no `-` |
| CdxSearch.RemoveDashesKeeps | electron/main.js:117-124 | removing dashes works piecewise, and a bound without dashes is sent unchanged |
| CdxSearch.ItemOf | electron/main.js:133-138 | an item keeps its row's stamp, original and MIME type, its archived address is the replay address of the two, and its length is the row's length text read by `parseInt(…) \|\| 0` |
| CdxSearch.ItemLength | electron/main.js:138 | a length that is the decimal text of a size gives an item of that size; a length with no leading digit or sign gives 0 |
| CdxSearch.FetchResources | electron/main.js:104-146 | the handler's loop returns the items of all links, in order, with only the first item of each key kept |
| CdxSearch.GatheredSnoc | electron/main.js:110-143 | each link adds its own items after those of the links before it |
| CdxSearch.FetchResourcesSpec | electron/main.js:108-139 | the items have distinct keys, each comes from some link, every key found is present, and the first item of each key is kept |
| CdxSearch.FailureIsolated | electron/main.js:111-142 | a link with no original, a non-OK answer or a thrown fetch adds nothing and does not disturb the others |
| CdxSearch.GatheredArchived | electron/main.js:137-138 | every gathered item's archived address is the replay address of its stamp and original |
| CdxSearch.KeyDeterminesCapture | electron/main.js:134 | for stamps without `:`, equal keys mean equal stamps and originals |
| Numerals.ParseIntRoundTrip | electron/main.js:138 | `parseInt` of a length's decimal text gives the length back |
| AudioSearch.Mp3ExtensionAnchor | electron/main.js:189-191 | `search-mp3` takes an anchor whose lower-cased href ends in `.mp3`, `.ogg`, `.m4a`, `.flac` or `.wav` |
| AudioSearch.Mp3KeywordAnchor | electron/main.js:200-202 | `search-mp3` takes an anchor whose trimmed, lower-cased text holds `download`, `play`, `listen` or `stream`, or whose lower-cased href holds `download` or `files` |
| AudioSearch.LostMySpaceExtension | electron/main.js:309 | the first lostmyspace test: the lower-cased href ends in `.mp3`, `.ogg`, `.m4a` or `.flac` |
| AudioSearch.LostMySpaceAnchor | electron/main.js:303-317 | lostmyspace takes an anchor when any of its three chained tests holds, each branch pushing the same way |
| AudioSearch.TrackRowAnchor | electron/main.js:342-349 | inside a track-like row, an anchor is taken when its lower-cased href holds `.mp3`, `music` or `download` |
| AudioSearch.ExtensionTestIgnoresCase | electron/main.js:189-191 | the extension test reads the link lower-cased |
| AudioSearch.ExtensionTestsCompared | electron/main.js:309 | the mp3 extension test takes exactly the links the lostmyspace extension test takes plus those ending in `.wav`, which the lostmyspace extension test never takes; so every non-`.wav` link the mp3 extension test takes, lostmyspace takes too, and a bare `x.wav` link lostmyspace does not take at all |
| AudioSearch.TitleFor | electron/main.js:168 | the given title wins; without one, the last `/`-part of the address when that is non-empty, and otherwise the fallback |
| AudioSearch.CandidateTrack | electron/main.js:164-166 | a blank link or one that does not resolve gives nothing; any other link gives the track at its resolved address, titled by `TitleFor` |
| AudioSearch.PushIfNew | electron/main.js:163-174 | the list grows by at most one track at the end and not at all for a blank link or a URL already present; a resolvable link with a new URL appends exactly its track |
| AudioSearch.PushAllIsDedup | electron/main.js:289-300 | pushing links one by one de-duplicates the resolvable links by URL, the first title winning |
| AudioSearch.PushAllUnique | electron/main.js:163-174 | no URL appears twice in the results |
| AudioSearch.Retry | electron/main.js:253-282 | at most six attempts, stopping at the first OK response; the waits are the back-off list's first entries; the error is that of the last attempt |
| DownloadName.Basename | electron/main.js:380 | the base name holds no `/` |
| DownloadName.BaseName | electron/main.js:380 | the requested name wins; without one, the basename of the URL path, or `resource_<now>` when that is empty, and no name when the URL does not parse; a chosen name is never empty |
| DownloadName.SanitizeFacts | electron/main.js:381 | the safe name holds no unsafe character, is no longer than the name, and is non-empty when the name is |
| DownloadName.SanitizeSafe | electron/main.js:381 | a name without unsafe characters is kept as it is |
| DownloadName.SanitizeUnsafeRun | electron/main.js:381 | a run of unsafe characters becomes one `_` |
| DownloadName.SanitizeRun | electron/main.js:381 | a run between safe characters becomes one `_`, with both sides sanitised alone |
| DownloadName.SanitizeIdempotent | electron/main.js:381 | sanitising twice is sanitising once |
| DownloadName.Extname | electron/main.js:382 | an extension starts with `.`, ends the name, has no other `.`, and is shorter than the name |
| DownloadName.ExtnameOfAppended | electron/main.js:382-398 | after an extension is appended, it is the name's extension |
| DownloadName.MediaType | electron/main.js:397 | the media type holds no `;` |
| DownloadName.MediaTypeIgnoresParameters | electron/main.js:397 | parameters after `;` do not change the media type |
| DownloadName.MimeExtensionsWellFormed | electron/main.js:386-396 | every extension in the table is a `.` followed by a dot-free suffix |
| DownloadName.ResolveFileName | electron/main.js:380-407 | a name is produced unless there is no requested name and the URL does not parse |
| DownloadName.UrlPathExtension | electron/main.js:397-405 | a sanitised name without an extension and a content type outside the table get the extension of the URL path, or nothing when the URL does not parse |
| DownloadName.ResolvedNameShape | electron/main.js:380-384 | the file name starts with the sanitised base name, which is safe and non-empty, and equals it when it already has an extension |
| DownloadName.ContentTypeExtension | electron/main.js:384-398 | a name without an extension gets the content type's extension, which then is its extension |
| Extraction.AnchorIgnoresCase | scripts/test-wayback-extract.js:69-70 | the anchor test reads the link lower-cased |
| Extraction.AnchorTakesMediaFile | scripts/test-wayback-extract.js:70 | a link ending in a media extension is taken |
| Extraction.AnchorTakesMediaQuery | scripts/test-wayback-extract.js:70 | a media extension followed by a query is taken |
| Extraction.BackgroundUrl | scripts/test-wayback-extract.js:77 | a captured URL is non-empty and holds no quote or `)` |
| Extraction.BackgroundDeclaration | scripts/test-wayback-extract.js:75-78 | `background-image: url(...)`, with any spacing and optional quotes, yields the URL inside |
| Extraction.CandidatesSpec | scripts/test-wayback-extract.js:61-81 | the candidates are distinct, each is a link's resolution, and every resolvable link's resolution is among them |
| Extraction.EmbeddedAddress | scripts/test-wayback-extract.js:94 | a match yields a stamp of digits and an address starting with `http` that ends the candidate |
| Extraction.NormalizeToArchived | scripts/test-wayback-extract.js:89-107 | the result is always on the archive host, and a candidate already on it is kept |
| Extraction.NormalizeIdempotent | scripts/test-wayback-extract.js:89-92 | normalising twice is normalising once, whatever the stamps |
| Extraction.NormalizeEmbedded | scripts/test-wayback-extract.js:94-97 | an embedded `/web/<digits>/<address>` becomes that capture's replay address |
| Extraction.NormalizeRoundTrip | scripts/test-wayback-extract.js:99-101 | a plain candidate gets the page's stamp; when candidate and stamp are kept verbatim in the pathname `new URL` reports, the address reads back as that candidate and stamp |
| Extraction.ProbeAll | scripts/test-wayback-extract.js:113-121 | the batches are six-wide chunks of the first 150 candidates, and together they are those candidates; the results are their probes, in order |
| Extraction.Keep | scripts/test-wayback-extract.js:127 | exactly the results with an image, audio or video content type are kept |
| Extraction.KeepAppend | scripts/test-wayback-extract.js:127 | the media filter works piecewise and keeps probe order |
| Items.CaptureFileName | src/components/WaybackSimpleSearch.jsx:81 | the file name is the stamp, `_`, then the original's last path part, which holds no `/` |
| Items.PickedSpec | src/components/WaybackSimpleSearch.jsx:79 | the captures taken are exactly the results at selected indices in range |
| Items.PickedInRange | src/components/WaybackSimpleSearch.jsx:79 | with every index in range, one capture is taken per index, in selection order |
| Items.EnqueueOf | src/components/WaybackSimpleSearch.jsx:81-83 | the event carries the capture's address and the folder, and a file name of the stamp and a slash-free part |
| Items.BulkDownload | src/components/WaybackSimpleSearch.jsx:75-84 | an empty selection or a cancelled folder dialog queues nothing; otherwise at most one event per selected index, all for the folder |
| Items.BulkDownloadSpec | src/components/WaybackSimpleSearch.jsx:79-84 | an event is queued exactly when it is the event of a selected capture |
| Items.BulkSound | src/components/WaybackSimpleSearch.jsx:79-83 | every queued event comes from a selected capture |
| Items.BulkComplete | src/components/WaybackSimpleSearch.jsx:79-83 | every selected capture in range is queued |
| Items.StaleSelectionEnqueuesNothing | src/components/WaybackSimpleSearch.jsx:79 | a selection that outlived its results queues nothing |
| Selection.Remove | src/components/ResultsGrid.jsx:15 | the members are those of the set other than the index |
| Selection.Toggle | src/components/ResultsGrid.jsx:13-19 | an index is a member afterwards exactly when it was a member before or is the clicked one, but not both |
| Selection.ToggleShape | src/components/ResultsGrid.jsx:13-19 | members stay distinct; a present index is cut out in place, and an absent one is added at the end |
| Selection.ToggleTwice | src/components/ResultsGrid.jsx:13-19 | toggling twice gives back the same set, and the same order when the index was absent |
| Grouping.FindKey | src/components/WaybackSimpleSearch.jsx:164 | the lookup finds the group of the key, or reports that none has it |
| Grouping.GroupStep | src/components/WaybackSimpleSearch.jsx:160-166 | one step of the pass keeps the groups exact, covering, distinct and ordered by first occurrence |
| Grouping.GroupEntriesSpec | src/components/WaybackSimpleSearch.jsx:159-167 | the pass builds one group per key, ordered by first occurrence, each with all positions of its key ascending and the first entry's info |
| Grouping.GroupsPartition | src/components/WaybackSimpleSearch.jsx:160-165 | every position is in exactly the group of its key |
| SimpleSearch.SimpleRequest | src/components/WaybackSimpleSearch.jsx:15-28 | a blank URL sends nothing; the URL is sent as typed, and without filters exactly when it is a Wayback link |
| SimpleSearch.RequestBounds | src/components/WaybackSimpleSearch.jsx:20-28 | a Wayback link sends no date bounds; otherwise each bound is sent exactly when it is set; the capture limit changes nothing |
| SimpleSearch.TypeFilter | src/components/WaybackSimpleSearch.jsx:42-61 | a capture is kept exactly when its lower-cased type fits the choice; "all" keeps the list as it is |
| SimpleSearch.TypeFilterAppend | src/components/WaybackSimpleSearch.jsx:42-61 | the filter works piecewise and keeps order |
| SimpleSearch.SimpleKeepsIgnoresCase | src/components/WaybackSimpleSearch.jsx:45 | the test ignores the case of the type |
| SimpleSearch.SimpleKeepsFamilies | src/components/WaybackSimpleSearch.jsx:43-59 | each choice keeps its type family, any type naming `pdf` is a document, and a text type is not an image |
| SimpleSearch.GroupKey | src/components/WaybackSimpleSearch.jsx:161 | with a group title or a stamp the key is the heading itself; with neither, it is the host of the original, or `misc` when the original does not parse |
| SimpleSearch.GroupYear | src/components/WaybackSimpleSearch.jsx:163 | the group year when set; otherwise the stamp's first four characters, or the whole stamp when it is shorter |
| SimpleSearch.GroupTitle | src/components/WaybackSimpleSearch.jsx:162 | the group title, else the stamp, else `Misc` for an empty URL, else the text whose `/`-parts are the URL's first three: the whole URL, or the URL cut just before its third `/` |
| SimpleSearch.GroupTitleIsOrigin | src/components/WaybackSimpleSearch.jsx:162 | with no group title and no stamp, a URL `scheme//host` followed by nothing or by a path starting with `/` is grouped under `scheme//host` |
| SimpleSearch.OriginCut | src/components/WaybackSimpleSearch.jsx:162 | joining the first three `/`-parts of a URL gives a prefix of it that is either all of it or followed by a `/` |
| SimpleSearch.TitleIsOrigin | src/components/WaybackSimpleSearch.jsx:162 | a title taken from the URL is its `scheme//host` |
| SimpleSearch.Entries | src/components/WaybackSimpleSearch.jsx:160-163 | each result gives its key and its title and year |
| SimpleSearch.ResultGroupsPartition | src/components/WaybackSimpleSearch.jsx:159-166 | every result's key has a group, and the result is in exactly that group |
| SimpleSearch.ResultGroupsShape | src/components/WaybackSimpleSearch.jsx:159-167 | the group keys are distinct; each group is non-empty and ascending, holds results of its key, and shows the first one's title and year |
| SimpleSearch.SameTitleSameGroup | src/components/WaybackSimpleSearch.jsx:161 | results sharing a group title, or without titles sharing a stamp, or with neither sharing the original's host, are grouped together |
| SimpleSearch.ApplyReply | src/components/WaybackSimpleSearch.jsx:34-71 | an error empties the results and keeps the selection; a list is filtered and clears the selection; a thrown call changes nothing |
| SimpleSearch.ReplyThenDownload | src/components/WaybackSimpleSearch.jsx:35-37 | after an error, downloading the kept selection queues nothing |
| SimpleSearch.ClickCard | src/components/WaybackSimpleSearch.jsx:191-196 | a click toggles only that card's index |
| AdvancedSearch.ParseLinks | src/components/WaybackAdvanced.jsx:11 | at most fifty links, each non-empty with no white space at either end |
| AdvancedSearch.ParseLinksIgnoresCR | src/components/WaybackAdvanced.jsx:11 | the links are those of the text split at `\n` alone |
| AdvancedSearch.BlankLinesDropped | src/components/WaybackAdvanced.jsx:11 | a line of white space gives no link |
| AdvancedSearch.AdvancedRequest | src/components/WaybackAdvanced.jsx:11-15 | nothing is sent without links; otherwise the handler's link list equals the parsed links |
| AdvancedSearch.ApplyReply | src/components/WaybackAdvanced.jsx:16-22 | an error empties the results; a list replaces them and clears the selection; a thrown call changes nothing |
| AdvancedSearch.SingleDownload | src/components/WaybackAdvanced.jsx:29-34 | nothing without a folder; otherwise the event for the card |
| AdvancedSearch.SingleIsBulkOfOne | src/components/WaybackAdvanced.jsx:29-45 | a single download queues what a bulk download of that one card queues |
| AppView.AppFilter | src/App.jsx:92-99 | a capture is kept exactly when its type, as sent, starts with the choice's prefix |
| AppView.AppKeepsIsNarrower | src/App.jsx:93-98 | whatever the shell's filter keeps, the simple search's filter keeps too |
| AppView.AppFilterWithinSimple | src/App.jsx:92-99 | the shell's results are among the simple search's results for the same reply |
| AppView.FiltersDisagree | src/App.jsx:94-98 | `IMAGE/PNG` and `application/x-pdf` are kept by the simple search only |
| AppView.TotalPages | src/App.jsx:101 | the page count is the least number of twenty-item pages that hold the items |
| AppView.PageItems | src/App.jsx:129 | a page is the twenty items from `(page - 1) * 20`, fewer at the end, none past it |
| AppView.PagesConcat | src/App.jsx:129 | the pages, put together, are the items; each page is non-empty and all but the last are full |
| AppView.PageInRangeNotEmpty | src/App.jsx:129 | a page number within the count shows that page, and it is not empty |
| AppView.Prev | src/App.jsx:149 | the previous page is one less, never below 1 |
| AppView.Next | src/App.jsx:153 | the next page is one more, never above the count |
| AppView.WalkInRange | src/App.jsx:149-153 | any run of clicks keeps the page between 1 and the count |
| AppView.Search | src/App.jsx:83-108 | a search returns to page 1; a failure empties the items and keeps the count; a list is filtered and sets the count from it |
| AppView.SearchThenClicks | src/App.jsx:85-101 | after a search the first page shows the first twenty items, and clicking never leaves the page range |
| AppView.BaseName | src/App.jsx:117 | the base is the path's last part when that is non-empty, else `resource_<stamp>`; never empty |
| AppView.JobOf | src/App.jsx:114-124 | a job carries the capture's address and the folder; its id starts with the stamp; its file name is the stamp (or `na` without one), `_`, then the base |
| AppView.JobIdTellsIndex | src/App.jsx:119 | the jobs of one capture at two indices have different ids |
| AppView.JobsFor | src/App.jsx:114-124 | when the jobs are built there is one per selected index |
| AppView.JobsForSome | src/App.jsx:114-124 | the jobs are built exactly when every index is in range and its URL parses |
| AppView.JobsForAt | src/App.jsx:114-124 | the k-th job is the job of the k-th index |
| AppView.Download | src/App.jsx:110-127 | nothing changes without a folder or when a job cannot be built; otherwise the jobs go after the queue |
| AppView.DownloadReadsWrongPage | src/App.jsx:114-115 | on page 2 of 21 items, the card shown at index 0 is `items[20]`, but its job is for `items[0]` |
| AppView.OnPage | src/App.jsx:129 | a page-relative index is moved to its position in the full list |
| AppView.DownloadOnPage | src/App.jsx:110-127 | the corrected download keeps the items, page and selection, and only appends to the queue |
| AppView.DownloadOnPageTakesShownCards | src/App.jsx:114-129 | the corrected download queues one job per index, each for the card shown at that index |
| AppView.FirstPageAgrees | src/App.jsx:114-129 | on page 1 the code as written and the corrected download agree |
| ByteUnits.Divisions | src/components/Statistics.jsx:9-12 | the number of divisions is the one `k` within the cap with `1024^k <= b` (unless `k` is 0) and `b < 1024^(k+1)` (unless the cap stopped it) |
| ByteUnits.DivisionsUnique | src/components/Statistics.jsx:9-12 | only one count fits that description |
| ByteUnits.ScaleDown | src/components/Statistics.jsx:7-12 | the loop stops after that many divisions, with the value `b / 1024^k` |
| ByteUnits.ScaledRange | src/components/SoulseekSearch.jsx:10-13 | after one division or more, the value is at least 1, and below 1024 unless the largest unit was reached |
| SoulseekView.StripAt | src/components/SoulseekSearch.jsx:151 | two leading `@` are removed, else one, and text not starting with `@` is left as it is |
| SoulseekView.RenderFilename | src/components/SoulseekSearch.jsx:147-152 | the name shown holds no `/` or `\`, and is empty for no result |
| SoulseekView.RenderFilenameChoice | src/components/SoulseekSearch.jsx:149 | the name is read from the first of `file`, `path`, `name` that is set, whatever the others hold |
| SoulseekView.RenderFilenamePlain | src/components/SoulseekSearch.jsx:149-151 | a name without separators is shown as it is, without one or two leading `@` |
| SoulseekView.RenderFilenameOfPath | src/components/SoulseekSearch.jsx:149-151 | for a Unix or Windows path the name shown is the part after the last separator |
| SoulseekView.TrimSeps | src/components/SoulseekSearch.jsx:132 | the folder loses exactly its trailing run of separators |
| SoulseekView.SepFor | src/components/SoulseekSearch.jsx:131 | the separator is `\` exactly when the folder holds one |
| SoulseekView.Destination | src/components/SoulseekSearch.jsx:123-132 | there is a destination exactly when a folder was chosen |
| SoulseekView.DestinationShape | src/components/SoulseekSearch.jsx:130-132 | the file is saved under the name shown, or `slsk_<now>`, directly inside the folder, with one separator of the folder's kind |
| SoulseekView.FallbackNameHasNoSep | src/components/SoulseekSearch.jsx:130 | the fallback name holds no separator |
| SoulseekView.HumanSize | src/components/SoulseekSearch.jsx:3-15 | a missing size is blank; below 1024 plain bytes; otherwise the value after one to three divisions, in KB, MB or GB |
| SoulseekView.SpeedCell | src/components/SoulseekSearch.jsx:193 | the speed cell shows the speed, the upload rate or nothing |
| SoulseekView.SpeedCellChoice | src/components/SoulseekSearch.jsx:193 | a non-zero speed wins; otherwise a non-zero upload rate; a zero speed with no non-zero upload rate shows a blank cell |
| SoulseekView.HumanSpeed | src/components/SoulseekSearch.jsx:17-23 | a missing speed is blank; from 1024 on it is KiB/s and at least 1; below it is bytes a second |
| SoulseekView.Badge | src/components/SoulseekSearch.jsx:201-210 | the badge reads "Available" or "Unavailable", and "Unavailable" exactly when the Download button is disabled; with neither flag set, it reads "Available" exactly when the slot count is non-zero |
| Statistics.Breakdown | src/components/Statistics.jsx:16-26 | days and hours from one day on, hours and minutes from one hour, minutes and seconds from one minute, else seconds; each is a single floor of the milliseconds |
| Statistics.FloorTwice | src/components/Statistics.jsx:18-21 | flooring by 1000, then 60, 60 and 24 in steps equals flooring once by their product |
| Statistics.BreakdownTruncates | src/components/Statistics.jsx:16-26 | the leading unit is non-zero, the second is below its modulus, and the time shown is the time cut down to its smallest unit |
| Statistics.FormatTime | src/components/Statistics.jsx:17 | no time reads `0s` |
| Statistics.FormatBytes | src/components/Statistics.jsx:3-13 | 0 is `0 B`; otherwise the value and unit come from the loop, capped at TB; plain bytes get no decimals, any other unit two |
| Statistics.DivisionsAgreeBelowCap | src/components/Statistics.jsx:9 | below 1 TiB the statistics page and the Soulseek size column choose the same unit; from 1 TiB they stop at TB and GB |
| Statistics.LoadStats | src/components/Statistics.jsx:34-50 | the saved totals when they parse; zeros when nothing is saved or the text does not parse |
| Statistics.ClearStats | src/components/Statistics.jsx:55-59 | once confirmed, zeros are shown and only the stats key leaves storage; otherwise nothing changes |
| StatusBar.Width | src/components/DownloadStatusBar.jsx:71 | the bar is never wider than 100, empty for no progress, as wide as the progress up to 100, and 100 above it |
| StatusBar.RowOf | src/components/DownloadStatusBar.jsx:39-75 | a row shows its entry's id, name and status, and has a bar exactly when the status is `downloading`, of the width its progress gives |
| StatusBar.StatusBarView | src/components/DownloadStatusBar.jsx:6-14 | nothing for a missing or empty object; otherwise the three counts never exceed the total, the failed count is shown exactly when some download failed, the active count is positive exactly when some download is running, and each entry gets a row, in order, with a progress bar exactly when it is running |
| StatusBar.CountsPartition | src/components/DownloadStatusBar.jsx:11-14 | the three counts and the uncounted entries add up to the total |
| StatusBar.SummaryWithinTotal | src/components/DownloadStatusBar.jsx:11-14 | the counts never exceed the total, and reach it exactly when no entry has another status |
| VideoLog.AppendLog | src/components/VideoDownloader.jsx:60-63 | the new line is last, at most 500 lines stay, and the buffer is a suffix of the old buffer and the line |
| VideoLog.ReplayKeepsLast | src/components/VideoDownloader.jsx:58-63 | after any run of lines, the buffer is the last 500 non-empty lines received, in order |
| VideoLog.MergeProgress | src/components/VideoDownloader.jsx:71-76 | each field is replaced only where its pattern matched; a matched percentage is taken as is up to 100 and becomes 100 above it |
| VideoLog.OnLine | src/components/VideoDownloader.jsx:57-78 | an empty line changes nothing; any other line becomes the last line of the log, which keeps the earlier lines in order up to 500 in all, and a line no pattern matched leaves the progress as it was |
| VideoLog.MergeFieldwise | src/components/VideoDownloader.jsx:71-76 | a line without matches leaves the progress unchanged, merging the same matches twice is merging them once, and a percentage at most 100 stays so |
| VideoLog.MergeLaterWins | src/components/VideoDownloader.jsx:71-76 | a line matching all four patterns overrides whatever earlier lines set |
| VideoLog.ListenKeepsLast | src/components/VideoDownloader.jsx:57-63 | after the listener receives any run of lines from an empty log, the log is the last 500 non-empty lines received, in order |
| VideoLog.ListenWithoutMatches | src/components/VideoDownloader.jsx:67-76 | lines no pattern matches never move the progress line |
| VideoLog.ListenPercentCapped | src/components/VideoDownloader.jsx:71-76 | the percentage shown never exceeds 100 once it starts at or below it |
| VideoLog.StartDownload | src/components/VideoDownloader.jsx:16-21 | a blank address changes nothing; otherwise the log and progress start over |

## Left out

- Network and process I/O are not modelled. This covers every `fetch`, timeout and HEAD/GET probe, streamed writes with progress events, `fs`, dialogs, `shell`, and the window lifecycle. Their results are inputs.
- The two capture-link parsers read only the pathname `new URL` reports, so a query or fragment of the embedded URL is dropped, and so are dot segments the URL standard resolves. The URL standard's parsing is not modelled: `WaybackInput.ReplayUrlRoundTrip` and `Extraction.NormalizeRoundTrip` hold only under `WaybackInput.VerbatimInPath`, the condition under which that pathname is `/web/<stamp>/<original>`.
- `new URL` parsing and relative resolution are parameters. So are the cheerio HTML parser and its selectors, and the JSON parsing of embedded scripts. Only the string tests applied to attribute values are modelled.
- The regular expressions that read percentage, speed, ETA and size from a video-tool line are left out. `VideoLog.MergeProgress` takes what they matched as input, and the percentage as a real.
- `toFixed`, `parseFloat` and floating-point text are left out. Sizes and speeds are modelled up to the value and unit; division by 1024 is exact.
- `Statistics.Breakdown` takes whole milliseconds. Fractional and NaN times are not modelled.
- `Statistics.FormatTime` states only the `0s` case. The rest of the text is the breakdown joined with unit letters.
- `Statistics.LoadStats` does not model saved text that parses to something other than an object, such as `null`. The page would keep showing its loading text.
- The statistics page's per-type list is not modelled, because it is only a rendering of `byType`.
- The application's download queue worker is not modelled, because it runs with `MAX_CONCURRENT` and is concurrent. Neither are the `download-progress` listener or `DownloadStatus.jsx`'s percentage.
- The `Promise.all` timing inside a probe batch is left out: the batches are modelled as sequential chunked mapping.
- `electron/preload.js`, `electron/soulseek.js`, the player and the other context components are not part of this model.
- Ids built from `Date.now()` and `Math.random()` are left out. The enqueue events carry no id, and `now` is a parameter where a time is part of a name.
- `Strs.ToLower` folds the ASCII letters only, where JavaScript's `toLowerCase` applies the full Unicode case mapping. The lower-cased text is only ever compared with ASCII keywords, extensions and media types. A test therefore differs only on a non-ASCII letter that JavaScript lower-cases to an ASCII one, such as the Kelvin sign: the source may take such text where the model does not.
- `DownloadName.ResolveFileName` treats the extension table as a plain map. The source looks the media type up in an object literal, so a media type such as `constructor` or `toString` finds an inherited value and appends it; the model falls through to the URL-path extension instead.
- `Grouping.GroupEntriesSpec` orders groups by first occurrence of their key. The key objects that `Object.values` lists first are not modelled: integer-like keys come in ascending numeric order. Keys such as `__proto__` are not modelled either.
- `AppView.BaseName` writes `resource_` for a missing stamp. The source writes `resource_undefined`.
- `AppView.JobOf` gives the id `_<idx>` for a missing stamp. The source interpolates the stamp into the id and writes `undefined_<idx>`.
- `SoulseekView.HumanSize` does not model the `units[i] || 'GB'` fallback, because it cannot be reached.
- The slots cell (`Yes`/`No`) is not modelled.
- A speed of 0 with no non-zero upload shows a blank cell, not `0 B/s`. The model follows the code: `SoulseekView.SpeedCellChoice` states it.
- Alerts, loading flags, collapsed groups, log scrolling and console output are not modelled.

## Findings

| source | as written | input that shows it | evidently intended | confidence | as-written member | corrected member |
|---|---|---|---|---|---|---|
| src/App.jsx:114-115 | `handleDownload` reads `items[idx]`. The grid passes `idx` from `paginatedItems`, so it is an index into the current page | 21 items on page 2, and the one card shown (index 0) is selected. The job is for `items[0]`, a card on page 1, not `items[20]` | the job for the card shown, `items[(currentPage - 1) * 20 + idx]` | high; not executed | AppView.DownloadReadsWrongPage | AppView.DownloadOnPageTakesShownCards |

=== FILE: advanced_search.dfy ===
/** The deep search view: a pasted list of up to fifty links, one per line,
    sent together to the `fetch-resources` handler, with single and bulk
    downloads of the captures it returns. */
module AdvancedSearch {
  import opened Opt
  import opened Strs
  import opened Seqs
  import opened Items
  import CdxSearch
  import SimpleSearch

  const MaxPasted := 50

  /** One piece of `text.split(/\r?\n/)` with the `\r` that belongs to the
      line break taken off: every line but the last ended at a `\n`. */
  function DropCR(line: string): string {
    if |line| > 0 && line[|line| - 1] == '\r' then line[..|line| - 1] else line
  }

  /** `text.split(/\r?\n/)`: the pieces between `\n`s, each without the `\r`
      of a `\r\n` break. */
  function Lines(text: string): (r: seq<string>)
    ensures |r| == |Split(text, '\n')|
  {
    var ps := Split(text, '\n');
    seq(|ps|, k requires 0 <= k < |ps| => if k < |ps| - 1 then DropCR(ps[k]) else ps[k])
  }

  predicate NonEmpty(s: string) {
    s != ""
  }

  /** `.map(s => s.trim()).filter(Boolean).slice(0, 50)` */
  function ParseLinks(text: string): (r: seq<string>)
    ensures |r| <= MaxPasted
    ensures forall k :: 0 <= k < |r| ==> TrimmedLink(r[k])
  {
    var kept := Filter(Map(Lines(text), Trim), NonEmpty);
    TrimmedKept(Lines(text));
    Take(kept, MaxPasted)
  }

  /** A link as it leaves the box: non-empty, with no white space at
      either end. */
  predicate TrimmedLink(s: string) {
    s != "" && !IsSpace(s[0]) && !IsSpace(s[|s| - 1])
  }

  /** The non-empty trimmed lines neither start nor end with white space. */
  lemma TrimmedKept(lines: seq<string>)
    ensures forall k :: 0 <= k < |Filter(Map(lines, Trim), NonEmpty)| ==> TrimmedLink(Filter(Map(lines, Trim), NonEmpty)[k])
  {
    var trimmed := Map(lines, Trim);
    assert forall x :: x in trimmed && NonEmpty(x) ==> TrimmedLink(x);
  }

  /** The links of `text` read as if it were split at `\n` alone. */
  function PlainLinks(text: string): seq<string> {
    Take(Filter(Map(Split(text, '\n'), Trim), NonEmpty), MaxPasted)
  }

  /** The `\r` of a Windows line break never reaches a link: the links are
      those of the text split at `\n` alone. */
  lemma ParseLinksIgnoresCR(text: string)
    ensures ParseLinks(text) == PlainLinks(text)
  {
    var ps := Split(text, '\n');
    var ls := Lines(text);
    forall k | 0 <= k < |ps|
      ensures Trim(ls[k]) == Trim(ps[k])
    {
      TrimLine(ps[k]);
    }
    assert Map(ls, Trim) == Map(ps, Trim);
  }

  lemma TrimLine(p: string)
    ensures Trim(DropCR(p)) == Trim(p)
  {
    if |p| > 0 && p[|p| - 1] == '\r' {
      assert p == p[..|p| - 1] + ['\r'];
      TrimSnoc(p[..|p| - 1], '\r');
    }
  }

  /** A line of white space gives no link, whatever its line break. */
  lemma BlankLinesDropped(a: string, blank: string, b: string)
    requires AllSpace(blank) && Avoids(blank, {'\n'}) && Avoids(a, {'\n'})
    ensures ParseLinks(a + "\n" + blank + "\n" + b) == ParseLinks(a + "\n" + b)
  {
    var s1 := a + "\n" + blank + "\n" + b;
    var s2 := a + "\n" + b;
    SplitAroundBlank(a, blank, b);
    ParseLinksIgnoresCR(s1);
    ParseLinksIgnoresCR(s2);
    assert Trim(blank) == "";
    KeptWithoutBlank(Trim, a, blank, Split(b, '\n'));
  }

  lemma SplitAroundBlank(a: string, blank: string, b: string)
    requires Avoids(blank, {'\n'}) && Avoids(a, {'\n'})
    ensures Split(a + "\n" + blank + "\n" + b, '\n') == [a, blank] + Split(b, '\n')
    ensures Split(a + "\n" + b, '\n') == [a] + Split(b, '\n')
  {
    assert a + "\n" + blank + "\n" + b == a + "\n" + (blank + "\n" + b);
    SplitOnce(a, blank + "\n" + b);
    SplitOnce(blank, b);
    SplitOnce(a, b);
    assert [a] + ([blank] + Split(b, '\n')) == [a, blank] + Split(b, '\n');
  }

  /** A line without a line break comes off the front of a split whole. */
  lemma SplitOnce(a: string, b: string)
    requires Avoids(a, {'\n'})
    ensures Split(a + "\n" + b, '\n') == [a] + Split(b, '\n')
  {
    assert a + "\n" + b == a + ['\n'] + b;
    SplitConcat(a, '\n', b, {'\n'});
    SplitNoSep(a, {'\n'});
  }

  lemma KeptWithoutBlank<T>(f: T -> string, a: T, blank: T, rb: seq<T>)
    requires f(blank) == ""
    ensures Filter(Map([a, blank] + rb, f), NonEmpty) == Filter(Map([a] + rb, f), NonEmpty)
  {
    var ta, tb := [f(a)], Map(rb, f);
    calc {
      Filter(Map([a, blank] + rb, f), NonEmpty);
      { MapAppend([a, blank], rb, f); assert Map([a, blank], f) == ta + [""]; }
      Filter(ta + [""] + tb, NonEmpty);
      { assert ta + [""] + tb == ta + ([""] + tb); FilterAppend(ta, [""] + tb, NonEmpty); }
      Filter(ta, NonEmpty) + Filter([""] + tb, NonEmpty);
      { FilterAppend([""], tb, NonEmpty); assert [""][1..] == []; assert Filter([""], NonEmpty) == []; }
      Filter(ta, NonEmpty) + Filter(tb, NonEmpty);
      { FilterAppend(ta, tb, NonEmpty); MapAppend([a], rb, f); }
      Filter(Map([a] + rb, f), NonEmpty);
    }
  }

  /** `handleSearch` up to the call: nothing is sent for a text with no
      links; otherwise the links go as an array with no filters, and the
      handler's own cut to fifty leaves them as they are. */
  function AdvancedRequest(text: string): (r: Option<CdxSearch.LinkInput>)
    ensures r.None? <==> ParseLinks(text) == []
    ensures r.Some? ==> CdxSearch.Links(r.value) == ParseLinks(text)
  {
    var links := ParseLinks(text);
    if |links| == 0 then None else Some(CdxSearch.Many(links))
  }

  /** The filters sent with the links: none at all. */
  const NoDates := CdxSearch.Filters("", "")

  /** No date bound reaches any lookup of the deep search. */
  lemma AdvancedSendsNoDates(original: string)
    ensures CdxSearch.QueryFor(original, NoDates).from.None? && CdxSearch.QueryFor(original, NoDates).to.None?
  {
  }

  /** What a reply does: an error empties the results and keeps the
      selection; a list replaces the results and clears the selection; a
      rejected call changes nothing. */
  function ApplyReply(st: SimpleSearch.SimpleState, reply: Reply): (r: SimpleSearch.SimpleState)
    ensures reply.ErrorReply? ==> r.results == [] && r.selected == st.selected
    ensures reply.ItemsReply? ==> r.results == reply.items && r.selected == []
    ensures reply.Rejected? ==> r == st
  {
    match reply
    case ErrorReply => st.(results := [])
    case ItemsReply(items) => SimpleSearch.SimpleState(items, [])
    case Rejected => st
  }

  /** The deep search answers a reply as the simple search does with the
      type selector on "all". */
  lemma ApplyReplyAsSimple(st: SimpleSearch.SimpleState, reply: Reply)
    ensures ApplyReply(st, reply) == SimpleSearch.ApplyReply(st, AllTypes, reply)
  {
  }

  /** `handleDownload(item)`: no event when the folder dialog is cancelled. */
  function SingleDownload(item: ResourceItem, folder: string): (r: Option<Enqueued>)
    ensures r.None? <==> folder == ""
    ensures r.Some? ==> r.value.archived == item.archived && r.value.folder == folder
  {
    if folder == "" then None else Some(EnqueueOf(item, folder))
  }

  /** Downloading one card gives the same event as a bulk download of a
      selection holding only that card. */
  lemma SingleIsBulkOfOne(results: seq<ResourceItem>, i: nat, folder: string)
    requires i < |results| && folder != ""
    ensures BulkDownload(results, [i], folder) == [SingleDownload(results[i], folder).value]
  {
    PickedInRange(results, [i]);
  }
}

=== FILE: app_view.dfy ===
/** The main window: its own copy of the type filter, pagination of the
    results twenty to a page, and the download jobs built from the selected
    cards. The download queue's worker is left out; only what is appended
    to the queue is modelled. */
module AppView {
  import opened Opt
  import opened Strs
  import opened Seqs
  import opened Numerals
  import opened Items
  import opened WaybackInput
  import SimpleSearch

  // ---------------------------------------------------------------- type filter

  /** The main window's test: exact prefixes, with case, and documents are
      `application/pdf...` or `text/...` only; a missing type is kept by
      nothing but "all". */
  predicate AppKeeps(kind: MediaKind, mimetype: string) {
    match kind
    case AllTypes => true
    case Images => StartsWith(mimetype, "image/")
    case Media => StartsWith(mimetype, "audio/") || StartsWith(mimetype, "video/")
    case Documents => StartsWith(mimetype, "application/pdf") || StartsWith(mimetype, "text/")
  }

  predicate AppKeptBy(kind: MediaKind, it: ResourceItem) {
    AppKeeps(kind, it.mimetype)
  }

  function AppFilter(kind: MediaKind, items: seq<ResourceItem>): (r: seq<ResourceItem>)
    ensures |r| <= |items|
    ensures forall it :: it in r <==> it in items && AppKeeps(kind, it.mimetype)
    ensures kind == AllTypes ==> r == items
  {
    if kind == AllTypes then items
    else Filter(items, it => AppKeptBy(kind, it))
  }

  /** A lower-case literal prefix survives lower-casing. */
  lemma PrefixSurvivesLowering(s: string, p: string)
    requires IsLower(p) && StartsWith(s, p)
    ensures StartsWith(ToLower(s), p)
  {
    assert s == p + s[|p|..];
    LowerKeepsPrefix(p, s[|p|..]);
  }

  /** Whatever the main window keeps, the simple search keeps too. */
  lemma AppKeepsIsNarrower(kind: MediaKind, mimetype: string)
    ensures AppKeeps(kind, mimetype) ==> SimpleSearch.SimpleKeeps(kind, mimetype)
  {
    if AppKeeps(kind, mimetype) {
      match kind
      case AllTypes =>
      case Images =>
        PrefixSurvivesLowering(mimetype, "image/");
      case Media =>
        if StartsWith(mimetype, "audio/") {
          PrefixSurvivesLowering(mimetype, "audio/");
        } else {
          PrefixSurvivesLowering(mimetype, "video/");
        }
      case Documents =>
        if StartsWith(mimetype, "text/") {
          PrefixSurvivesLowering(mimetype, "text/");
        } else {
          assert mimetype == "application/" + "pdf" + mimetype[15..];
          LowerKeepsInfix("application/", "pdf", mimetype[15..]);
        }
    }
  }

  /** So the main window's list is part of the simple search's. */
  lemma AppFilterWithinSimple(kind: MediaKind, items: seq<ResourceItem>)
    ensures forall it :: it in AppFilter(kind, items) ==> it in SimpleSearch.TypeFilter(kind, items)
  {
    forall it | it in AppFilter(kind, items)
      ensures it in SimpleSearch.TypeFilter(kind, items)
    {
      AppKeepsIsNarrower(kind, it.mimetype);
    }
  }

  /** The two copies disagree: an upper-case image type and a PDF type not
      spelled `application/pdf` are kept only by the simple search. */
  lemma FiltersDisagree()
    ensures !AppKeeps(Images, "IMAGE/PNG") && SimpleSearch.SimpleKeeps(Images, "IMAGE/PNG")
    ensures !AppKeeps(Documents, "application/x-pdf") && SimpleSearch.SimpleKeeps(Documents, "application/x-pdf")
  {
    UpperImageDisagrees();
    OtherPdfDisagrees();
  }

  lemma UpperImageDisagrees()
    ensures !AppKeeps(Images, "IMAGE/PNG") && SimpleSearch.SimpleKeeps(Images, "IMAGE/PNG")
  {
    assert "IMAGE/PNG"[0] != 'i';
    assert ToLower("IMAGE/PNG") == "image/png";
  }

  lemma OtherPdfDisagrees()
    ensures !AppKeeps(Documents, "application/x-pdf") && SimpleSearch.SimpleKeeps(Documents, "application/x-pdf")
  {
    OtherPdfNotApp();
    OtherPdfSimple();
  }

  lemma OtherPdfNotApp()
    ensures !AppKeeps(Documents, "application/x-pdf")
  {
    assert "application/x-pdf"[12] != 'p';
    assert "application/x-pdf"[0] == 'a';
  }

  lemma OtherPdfSimple()
    ensures SimpleSearch.SimpleKeeps(Documents, "application/x-pdf")
  {
    assert "application/x-pdf" == "application/x-" + "pdf" + "";
    LowerKeepsInfix("application/x-", "pdf", "");
  }

  // ---------------------------------------------------------------- pages

  const PageSize := 20

  /** `Math.ceil(n / 20)` */
  function TotalPages(n: nat): (r: nat)
    ensures r * PageSize >= n
    ensures r > 0 ==> (r - 1) * PageSize < n
    ensures r == 0 <==> n == 0
  {
    (n + PageSize - 1) / PageSize
  }

  function Min(a: int, b: int): int {
    if a <= b then a else b
  }

  /** `items.slice((page - 1) * 20, page * 20)`: for a page from 1 on, the
      twenty items from position `(page - 1) * 20`, fewer at the end. */
  function PageItems<T>(items: seq<T>, page: int): (r: seq<T>)
    ensures |r| <= PageSize
    ensures page >= 1 && (page - 1) * PageSize <= |items| ==>
      r == items[(page - 1) * PageSize..Min(page * PageSize, |items|)]
    ensures page >= 1 && (page - 1) * PageSize >= |items| ==> r == []
  {
    JsSlice(items, (page - 1) * PageSize, page * PageSize)
  }

  /** Pages 1 to the last, in order. */
  function Pages<T>(items: seq<T>): (ps: seq<seq<T>>)
    ensures |ps| == TotalPages(|items|)
  {
    seq(TotalPages(|items|), k requires 0 <= k => PageItems(items, k + 1))
  }

  /** The first `m` pages hold the first `20 * m` items. */
  lemma {:induction false} PagesPrefix<T>(items: seq<T>, m: nat)
    requires m <= TotalPages(|items|)
    ensures Flatten(Pages(items)[..m]) == items[..Min(m * PageSize, |items|)]
    decreases m
  {
    if m > 0 {
      PagesPrefix(items, m - 1);
      var ps := Pages(items);
      var lo := (m - 1) * PageSize;
      var hi := Min(m * PageSize, |items|);
      assert ps[..m] == ps[..m - 1] + [ps[m - 1]];
      FlattenAppend(ps[..m - 1], [ps[m - 1]]);
      assert [ps[m - 1]][1..] == [];
      assert Flatten([ps[m - 1]]) == ps[m - 1];
      assert ps[m - 1] == items[lo..hi];
      assert items[..hi] == items[..lo] + items[lo..hi];
    }
  }

  /** Every page is full but the last, none is empty, and read in order
      they give back the item list. */
  lemma PagesConcat<T>(items: seq<T>)
    ensures Flatten(Pages(items)) == items
    ensures forall k :: 0 <= k < |Pages(items)| ==> 0 < |Pages(items)[k]| <= PageSize
    ensures forall k :: 0 <= k < |Pages(items)| - 1 ==> |Pages(items)[k]| == PageSize
  {
    var ps := Pages(items);
    PagesPrefix(items, |ps|);
    assert ps[..|ps|] == ps;
    assert items[..|items|] == items;
  }

  // ---------------------------------------------------------------- page clamping

  datatype Click = PrevClick | NextClick

  /** `Math.max(1, p - 1)` */
  function Prev(p: int): (r: int)
    ensures r >= 1
    ensures p >= 1 ==> r <= p
    ensures p > 1 ==> r == p - 1
  {
    if p - 1 > 1 then p - 1 else 1
  }

  /** `Math.min(totalPages, p + 1)` */
  function Next(p: int, total: int): (r: int)
    ensures r <= total
    ensures p < total ==> r == p + 1
    ensures p >= total ==> r == total
  {
    if total < p + 1 then total else p + 1
  }

  function Walk(p: int, total: int, clicks: seq<Click>): int
    decreases |clicks|
  {
    if |clicks| == 0 then p
    else
      var q := if clicks[0] == PrevClick then Prev(p) else Next(p, total);
      Walk(q, total, clicks[1..])
  }

  /** From any page in range, prev and next clicks never leave `1..total`. */
  lemma {:induction false} WalkInRange(p: int, total: int, clicks: seq<Click>)
    requires 1 <= p <= total
    ensures 1 <= Walk(p, total, clicks) <= total
    decreases |clicks|
  {
    if |clicks| > 0 {
      var q := if clicks[0] == PrevClick then Prev(p) else Next(p, total);
      WalkInRange(q, total, clicks[1..]);
    }
  }

  /** A page in range always shows something. */
  lemma PageInRangeNotEmpty<T>(items: seq<T>, page: int)
    requires 1 <= page <= TotalPages(|items|)
    ensures 0 < |PageItems(items, page)| <= PageSize
    ensures PageItems(items, page) == Pages(items)[page - 1]
  {
  }

  // ---------------------------------------------------------------- state

  /** The main window's state: results, page, page count, selected card
      indices, and the download queue. */
  datatype AppState = AppState(items: seq<ResourceItem>, page: int, total: nat,
                               selected: seq<nat>, queue: seq<Job>)

  /** A search: the page goes back to 1; an error reply or a rejected call
      empties the results; a list of captures is filtered by type and sets
      the page count. The selection is left as it was. */
  function Search(st: AppState, kind: MediaKind, reply: Reply): (r: AppState)
    ensures r.page == 1 && r.selected == st.selected && r.queue == st.queue
    ensures !reply.ItemsReply? ==> r.items == [] && r.total == st.total
    ensures reply.ItemsReply? ==> r.total == TotalPages(|r.items|)
    ensures reply.ItemsReply? ==> forall it :: it in r.items <==> it in reply.items && AppKeeps(kind, it.mimetype)
  {
    match reply
    case ItemsReply(items) =>
      var filtered := AppFilter(kind, items);
      st.(items := filtered, page := 1, total := TotalPages(|filtered|))
    case _ => st.(items := [], page := 1)
  }

  /** After a successful search the view shows page 1 of a page count that
      fits the results, and any clicks keep the page in range. */
  lemma SearchThenClicks(st: AppState, kind: MediaKind, reply: Reply, clicks: seq<Click>)
    requires reply.ItemsReply?
    requires |Search(st, kind, reply).items| > 0
    ensures var r := Search(st, kind, reply);
      && PageItems(r.items, 1) == Take(r.items, PageSize)
      && 1 <= Walk(r.page, r.total, clicks) <= r.total
  {
    var r := Search(st, kind, reply);
    WalkInRange(1, r.total, clicks);
  }

  // ---------------------------------------------------------------- jobs

  /** One entry of the download queue. */
  datatype Job = Job(id: string, archived: string, folder: string, filename: string)

  /** The file part of the name: the last segment of the URL's path, or
      `resource_<timestamp>` when that is empty. */
  function BaseName(it: ResourceItem, pathname: string): (r: string)
    ensures r != ""
    ensures LastPart(pathname, {'/'}) != "" ==> r == LastPart(pathname, {'/'}) && Avoids(r, {'/'})
    ensures LastPart(pathname, {'/'}) == "" ==> r == "resource_" + it.timestamp
  {
    var last := LastPart(pathname, {'/'});
    if last != "" then last else "resource_" + it.timestamp
  }

  /** The job for the capture at `idx`, whose original URL has path
      `pathname`: id `<timestamp>_<idx>`, file `<timestamp or na>_<base>`. */
  function JobOf(it: ResourceItem, idx: nat, pathname: string, folder: string): (j: Job)
    ensures j.archived == it.archived && j.folder == folder
    ensures StartsWith(j.id, it.timestamp + "_")
    ensures EndsWith(j.filename, "_" + BaseName(it, pathname))
    ensures it.timestamp == "" ==> StartsWith(j.filename, "na_")
    ensures it.timestamp != "" ==> StartsWith(j.filename, it.timestamp + "_")
    ensures |j.filename| == (if it.timestamp != "" then |it.timestamp| else 2) + 1 + |BaseName(it, pathname)|
  {
    var stamp := if it.timestamp != "" then it.timestamp else "na";
    var name := stamp + "_" + BaseName(it, pathname);
    assert name[|name| - |BaseName(it, pathname)| - 1..] == "_" + BaseName(it, pathname);
    Job(it.timestamp + "_" + NatToString(idx), it.archived, folder, name)
  }

  /** Two jobs for the same timestamp have the same id only for the same
      index. */
  lemma JobIdTellsIndex(ts: string, i: nat, j: nat)
    requires ts + "_" + NatToString(i) == ts + "_" + NatToString(j)
    ensures i == j
  {
    var a, b := ts + "_" + NatToString(i), ts + "_" + NatToString(j);
    assert NatToString(i) == a[|ts| + 1..];
    assert NatToString(j) == b[|ts| + 1..];
    RunValueOfNatToString(i);
    RunValueOfNatToString(j);
  }

  /** The jobs for `indices` read against `items`, or `None` when the
      mapping throws: an index past the end (`items[idx]` is undefined) or an
      original URL that does not parse. */
  function JobsFor(items: seq<ResourceItem>, indices: seq<nat>, folder: string,
                   parse: string -> Option<UrlParts>): (r: Option<seq<Job>>)
    ensures r.Some? ==> |r.value| == |indices|
    decreases |indices|
  {
    if |indices| == 0 then Some([])
    else
      var last := indices[|indices| - 1];
      var init := JobsFor(items, indices[..|indices| - 1], folder, parse);
      if Resolves(items, last, parse) && init.Some? then
        Some(init.value + [JobOf(items[last], last, parse(items[last].original).value.pathname, folder)])
      else
        None
  }

  /** Building the jobs succeeds exactly when every index resolves. */
  lemma {:induction false} JobsForSome(items: seq<ResourceItem>, indices: seq<nat>, folder: string,
                                       parse: string -> Option<UrlParts>)
    ensures JobsFor(items, indices, folder, parse).Some? <==> AllResolve(items, indices, parse)
    decreases |indices|
  {
    if |indices| > 0 {
      var n := |indices| - 1;
      var init := indices[..n];
      JobsForSome(items, init, folder, parse);
      assert JobsFor(items, indices, folder, parse).Some? <==>
        JobsFor(items, init, folder, parse).Some? && Resolves(items, indices[n], parse);
      ResolvesSnoc(items, indices, parse);
    }
  }

  lemma ResolvesSnoc(items: seq<ResourceItem>, indices: seq<nat>, parse: string -> Option<UrlParts>)
    requires |indices| > 0
    ensures AllResolve(items, indices, parse) <==>
      AllResolve(items, indices[..|indices| - 1], parse) && Resolves(items, indices[|indices| - 1], parse)
  {
    var n := |indices| - 1;
    var init := indices[..n];
    assert forall k :: 0 <= k < n ==> init[k] == indices[k];
  }

  /** The k-th job is the one for the capture at the k-th index. */
  lemma {:induction false} JobsForAt(items: seq<ResourceItem>, indices: seq<nat>, folder: string,
                                     parse: string -> Option<UrlParts>, k: nat)
    requires k < |indices| && JobsFor(items, indices, folder, parse).Some?
    ensures Resolves(items, indices[k], parse)
    ensures JobsFor(items, indices, folder, parse).value[k]
      == JobOf(items[indices[k]], indices[k], parse(items[indices[k]].original).value.pathname, folder)
    decreases |indices|
  {
    var init := indices[..|indices| - 1];
    if k < |indices| - 1 {
      JobsForAt(items, init, folder, parse, k);
      assert init[k] == indices[k];
    }
  }

  predicate AllResolve(items: seq<ResourceItem>, indices: seq<nat>, parse: string -> Option<UrlParts>) {
    forall k :: 0 <= k < |indices| ==> Resolves(items, indices[k], parse)
  }

  /** `items[idx]` exists and its original URL parses. */
  predicate Resolves(items: seq<ResourceItem>, idx: nat, parse: string -> Option<UrlParts>) {
    idx < |items| && parse(items[idx].original).Some?
  }

  /** `handleDownload` as written: nothing without a folder or when
      building the jobs throws; otherwise the jobs go after the queue. */
  function Download(st: AppState, indices: seq<nat>, folder: string,
                    parse: string -> Option<UrlParts>): (r: AppState)
    ensures r.items == st.items && r.page == st.page && r.selected == st.selected
    ensures |st.queue| <= |r.queue| && r.queue[..|st.queue|] == st.queue
    ensures folder == "" ==> r == st
    ensures folder != "" && JobsFor(st.items, indices, folder, parse).Some? ==>
      r.queue[|st.queue|..] == JobsFor(st.items, indices, folder, parse).value
  {
    if folder == "" then st
    else match JobsFor(st.items, indices, folder, parse)
      case None => st
      case Some(jobs) =>
        assert (st.queue + jobs)[..|st.queue|] == st.queue;
        st.(queue := st.queue + jobs)
  }

  /** The selected card indices as the grid hands them out are positions on
      the current page; the absolute positions are `(page - 1) * 20` further
      on. */
  function OnPage(page: int, indices: seq<nat>): (r: seq<nat>)
    requires page >= 1
    ensures |r| == |indices|
    ensures forall k :: 0 <= k < |indices| ==> r[k] == (page - 1) * PageSize + indices[k]
  {
    Map(indices, idx => (page - 1) * PageSize + idx)
  }

  /** `handleDownload` reading the selection as the grid means it. */
  function DownloadOnPage(st: AppState, indices: seq<nat>, folder: string,
                          parse: string -> Option<UrlParts>): (r: AppState)
    requires st.page >= 1
    ensures r.items == st.items && r.page == st.page && r.selected == st.selected
    ensures |st.queue| <= |r.queue| && r.queue[..|st.queue|] == st.queue
  {
    Download(st, OnPage(st.page, indices), folder, parse)
  }

  /** With the page taken into account, each job is for the card that was
      selected on the page on show. */
  lemma DownloadOnPageTakesShownCards(st: AppState, indices: seq<nat>, folder: string,
                                      parse: string -> Option<UrlParts>)
    requires st.page >= 1 && folder != ""
    requires forall k :: 0 <= k < |indices| ==> indices[k] < |PageItems(st.items, st.page)|
    requires forall k :: 0 <= k < |indices| ==> parse(PageItems(st.items, st.page)[indices[k]].original).Some?
    ensures |DownloadOnPage(st, indices, folder, parse).queue| == |st.queue| + |indices|
    ensures forall k :: 0 <= k < |indices| ==>
      DownloadOnPage(st, indices, folder, parse).queue[|st.queue| + k].archived
        == PageItems(st.items, st.page)[indices[k]].archived
  {
    var abs := OnPage(st.page, indices);
    var page := PageItems(st.items, st.page);
    forall k | 0 <= k < |indices|
      ensures Resolves(st.items, abs[k], parse) && st.items[abs[k]] == page[indices[k]]
    {
      assert (st.page - 1) * PageSize < |st.items|;
    }
    JobsForSome(st.items, abs, folder, parse);
    var jobs := JobsFor(st.items, abs, folder, parse).value;
    var r := DownloadOnPage(st, indices, folder, parse);
    forall k | 0 <= k < |indices|
      ensures r.queue[|st.queue| + k].archived == page[indices[k]].archived
    {
      JobsForAt(st.items, abs, folder, parse, k);
      assert r.queue[|st.queue|..][k] == jobs[k];
    }
  }

  /** On the first page the two readings agree. */
  lemma FirstPageAgrees(st: AppState, indices: seq<nat>, folder: string,
                        parse: string -> Option<UrlParts>)
    requires st.page == 1
    ensures DownloadOnPage(st, indices, folder, parse) == Download(st, indices, folder, parse)
  {
    assert OnPage(1, indices) == indices;
  }

  /** As written, selecting the first card of page 2 of 21 results queues the
      first result, which is on page 1, instead of the 21st, which was on
      show. */
  lemma DownloadReadsWrongPage(st: AppState, folder: string, parse: string -> Option<UrlParts>)
    requires |st.items| == 21 && st.page == 2 && folder != ""
    requires parse(st.items[0].original).Some? && parse(st.items[20].original).Some?
    requires st.items[0].archived != st.items[20].archived
    ensures PageItems(st.items, 2) == [st.items[20]]
    ensures Download(st, [0], folder, parse).queue[|st.queue|].archived == st.items[0].archived
    ensures Download(st, [0], folder, parse).queue[|st.queue|].archived != PageItems(st.items, st.page)[0].archived
  {
    JobsForSome(st.items, [0], folder, parse);
    var jobs := JobsFor(st.items, [0], folder, parse).value;
    JobsForAt(st.items, [0], folder, parse, 0);
    var r := Download(st, [0], folder, parse);
    assert r.queue[|st.queue|..][0] == jobs[0];
  }
}

=== FILE: audio_search.dfy ===
/** The two audio-search handlers of the main process (`search-mp3` and
    `search-lostmyspace`): the anchor tests that pick links out of a results
    page, the `pushIfNew` helper that collects them without repeating a URL,
    and the retry schedule that guards the lostmyspace request. The HTML
    parser and the selectors that feed links in are not part of this model;
    links arrive as a list of `(link, title)` pairs. */
module AudioSearch {
  import opened Opt
  import opened Strs
  import opened Seqs
  import opened Numerals

  // ------------------------------------------------------------ anchors

  /** `search-mp3`: an anchor whose lower-cased href ends in an audio
      extension. */
  predicate Mp3ExtensionAnchor(href: string) {
    var lower := ToLower(href);
    || EndsWith(lower, ".mp3") || EndsWith(lower, ".ogg") || EndsWith(lower, ".m4a")
    || EndsWith(lower, ".flac") || EndsWith(lower, ".wav")
  }

  /** `search-mp3`: an anchor that looks like it leads to audio, by its
      trimmed, lower-cased text or its lower-cased href. */
  predicate Mp3KeywordAnchor(href: string, text: string) {
    var lower := ToLower(href);
    var t := ToLower(Trim(text));
    || Contains(t, "download") || Contains(t, "play") || Contains(t, "listen") || Contains(t, "stream")
    || Contains(lower, "download") || Contains(lower, "files")
  }

  /** `search-lostmyspace`: the first of its chained tests, the extension
      test without `.wav`. */
  predicate LostMySpaceExtension(href: string) {
    var lower := ToLower(href);
    EndsWith(lower, ".mp3") || EndsWith(lower, ".ogg") || EndsWith(lower, ".m4a") || EndsWith(lower, ".flac")
  }

  /** `search-lostmyspace`: the three chained tests on an anchor; every
      branch pushes the same way, so the anchor is taken when any holds. */
  predicate LostMySpaceAnchor(href: string, text: string) {
    var lower := ToLower(href);
    var t := ToLower(Trim(text));
    || LostMySpaceExtension(href)
    || Contains(lower, "myspace") || Contains(lower, "music") || Contains(lower, "artist")
    || Contains(lower, "band") || Contains(t, "play") || Contains(t, "listen")
    || Contains(lower, "download") || Contains(lower, "archive") || Contains(lower, "files")
  }

  /** `search-lostmyspace`: an anchor inside a track-like row or block. */
  predicate TrackRowAnchor(href: string) {
    var lower := ToLower(href);
    Contains(lower, ".mp3") || Contains(lower, "music") || Contains(lower, "download")
  }

  lemma LowerIdempotent(s: string)
    ensures ToLower(ToLower(s)) == ToLower(s)
  {
  }

  /** The extension test ignores case. */
  lemma ExtensionTestIgnoresCase(href: string)
    ensures Mp3ExtensionAnchor(href) == Mp3ExtensionAnchor(ToLower(href))
  {
    LowerIdempotent(href);
  }

  /** The two extension tests differ exactly by `.wav`: the mp3 test takes
      every link the lostmyspace extension test takes, and besides those
      only links ending in `.wav`, which the lostmyspace extension test
      never takes. So every anchor the mp3 extension test takes that does
      not end in `.wav`, lostmyspace takes too; a bare `x.wav` link, with
      no keyword to catch it either, lostmyspace does not take at all. */
  lemma ExtensionTestsCompared(href: string, text: string)
    ensures LostMySpaceExtension(href) ==> Mp3ExtensionAnchor(href)
    ensures Mp3ExtensionAnchor(href) <==> LostMySpaceExtension(href) || EndsWith(ToLower(href), ".wav")
    ensures EndsWith(ToLower(href), ".wav") ==> !LostMySpaceExtension(href)
    ensures Mp3ExtensionAnchor(href) && !EndsWith(ToLower(href), ".wav") ==> LostMySpaceAnchor(href, text)
    ensures Mp3ExtensionAnchor("x.wav") && !LostMySpaceAnchor("x.wav", "")
  {
    if EndsWith(ToLower(href), ".wav") {
      WavExcludesOthers(ToLower(href));
    }
    WavExtensionOnly();
    WavNoKeyword();
  }

  /** A text ending in `.wav` ends in none of the other four extensions. */
  lemma WavExcludesOthers(lower: string)
    requires EndsWith(lower, ".wav")
    ensures !EndsWith(lower, ".mp3") && !EndsWith(lower, ".ogg")
    ensures !EndsWith(lower, ".m4a") && !EndsWith(lower, ".flac")
  {
    var tail := lower[|lower| - 4..];
    assert tail == ".wav";
    assert tail[0] == '.' && tail[1] == 'w';
  }

  /** `x.wav` ends in `.wav` and in none of the other four extensions. */
  lemma WavExtensionOnly()
    ensures ToLower("x.wav") == "x.wav"
    ensures EndsWith("x.wav", ".wav")
    ensures !EndsWith("x.wav", ".mp3") && !EndsWith("x.wav", ".ogg")
    ensures !EndsWith("x.wav", ".m4a") && !EndsWith("x.wav", ".flac")
  {
    WavLower();
    WavSuffixes();
  }

  lemma WavLower()
    ensures ToLower("x.wav") == "x.wav"
  {
    assert ToLower("x.wav") == "x.wav";
  }

  lemma WavSuffixes()
    ensures EndsWith("x.wav", ".wav")
    ensures !EndsWith("x.wav", ".mp3") && !EndsWith("x.wav", ".ogg")
    ensures !EndsWith("x.wav", ".m4a") && !EndsWith("x.wav", ".flac")
  {
    var h := "x.wav";
    assert h[1..] == ".wav";
    assert h[1..][1] == 'w';
    assert h[0..][0] == 'x';
  }

  /** `x.wav` with no text names none of the lostmyspace keywords. */
  lemma WavNoKeyword()
    ensures ToLower(Trim("")) == ""
    ensures !Contains("", "play") && !Contains("", "listen")
    ensures !Contains("x.wav", "myspace") && !Contains("x.wav", "music") && !Contains("x.wav", "artist")
    ensures !Contains("x.wav", "band") && !Contains("x.wav", "download") && !Contains("x.wav", "archive")
    ensures !Contains("x.wav", "files")
  {
    NoText();
    WavTooShort();
    WavNoInitial();
  }

  lemma NoText()
    ensures ToLower(Trim("")) == ""
    ensures !Contains("", "play") && !Contains("", "listen")
  {
    assert Trim("") == "";
  }

  lemma WavTooShort()
    ensures !Contains("x.wav", "myspace") && !Contains("x.wav", "artist")
    ensures !Contains("x.wav", "download") && !Contains("x.wav", "archive")
  {
    NotContainsShort("x.wav", "myspace");
    NotContainsShort("x.wav", "artist");
    NotContainsShort("x.wav", "download");
    NotContainsShort("x.wav", "archive");
  }

  lemma WavNoInitial()
    ensures !Contains("x.wav", "music") && !Contains("x.wav", "files") && !Contains("x.wav", "band")
  {
    NotContainsFirst("x.wav", "music");
    NotContainsFirst("x.wav", "files");
    NotContainsFirst("x.wav", "band");
  }

  lemma NotContainsShort(s: string, sub: string)
    requires |s| < |sub|
    ensures !Contains(s, sub)
  {
    if Contains(s, sub) {
      var i := ContainsIndex(s, sub);
    }
  }

  /** A string none of whose characters starts `sub` does not contain it. */
  lemma NotContainsFirst(s: string, sub: string)
    requires |sub| > 0 && forall i :: 0 <= i < |s| ==> s[i] != sub[0]
    ensures !Contains(s, sub)
  {
    if Contains(s, sub) {
      var i := ContainsIndex(s, sub);
      assert false;
    }
  }

  // ------------------------------------------------------------ pushIfNew

  /** A collected audio link. */
  datatype Track = Track(title: string, url: string)

  function Url(t: Track): string {
    t.url
  }

  /** `title || absolute.split('/').pop() || fallback`, where `fallback` is
      `'audio'` for the mp3 handler and `'track'` for lostmyspace. */
  function TitleFor(title: string, absolute: string, fallback: string): (r: string)
    ensures title != "" ==> r == title
    ensures title == "" && LastPart(absolute, {'/'}) != "" ==> r == LastPart(absolute, {'/'})
    ensures title == "" && LastPart(absolute, {'/'}) == "" ==> r == fallback
    ensures fallback != "" ==> r != ""
    ensures title == "" && r != fallback ==> Avoids(r, {'/'}) && EndsWith(absolute, r)
  {
    if title != "" then title
    else
      var last := LastPart(absolute, {'/'});
      if last != "" then last else fallback
  }

  /** The track a link would add: none when the link is missing or blank, or
      when `new URL(link, base)` throws (`resolve` gives `None`). */
  function CandidateTrack(link: string, title: string, resolve: string -> Option<string>, fallback: string): (r: Option<Track>)
    ensures AllSpace(link) ==> r.None?
    ensures r.Some? ==> Some(r.value.url) == resolve(link)
    ensures resolve(link).None? ==> r.None?
    ensures !AllSpace(link) && resolve(link).Some? ==>
      r == Some(Track(TitleFor(title, resolve(link).value, fallback), resolve(link).value))
  {
    if link == "" || Trim(link) == "" then None
    else
      match resolve(link)
      case None => None
      case Some(absolute) => Some(Track(TitleFor(title, absolute, fallback), absolute))
  }

  /** `pushIfNew(link, title)` on the current list. */
  function PushIfNew(items: seq<Track>, link: string, title: string,
                     resolve: string -> Option<string>, fallback: string): (r: seq<Track>)
    ensures AllSpace(link) ==> r == items
    ensures |items| <= |r| <= |items| + 1 && r[..|items|] == items
    ensures |r| == |items| + 1 ==> r[|items|].url !in KeysOf(items, Url)
    ensures resolve(link).Some? && resolve(link).value in KeysOf(items, Url) ==> r == items
    ensures !AllSpace(link) && resolve(link).Some? && resolve(link).value !in KeysOf(items, Url) ==>
      r == items + [Track(TitleFor(title, resolve(link).value, fallback), resolve(link).value)]
  {
    match CandidateTrack(link, title, resolve, fallback)
    case None => items
    case Some(t) => if t.url in KeysOf(items, Url) then items else items + [t]
  }

  /** A link as found on the page: its href and its title, `""` for `null`. */
  datatype Found = Found(link: string, title: string)

  /** `pushIfNew` applied to every found link in turn. */
  function PushAll(found: seq<Found>, resolve: string -> Option<string>, fallback: string): seq<Track>
    decreases |found|
  {
    if |found| == 0 then []
    else
      var last := found[|found| - 1];
      PushIfNew(PushAll(found[..|found| - 1], resolve, fallback), last.link, last.title, resolve, fallback)
  }

  function Candidates(found: seq<Found>, resolve: string -> Option<string>, fallback: string): seq<Option<Track>> {
    Map(found, (f: Found) => CandidateTrack(f.link, f.title, resolve, fallback))
  }

  /** Pushing one link at a time is de-duplicating the resolvable links by
      URL, the first title for a URL winning. */
  lemma {:induction false} PushAllIsDedup(found: seq<Found>, resolve: string -> Option<string>, fallback: string)
    ensures PushAll(found, resolve, fallback) == DedupBy(Somes(Candidates(found, resolve, fallback)), Url)
    decreases |found|
  {
    if |found| > 0 {
      var init := found[..|found| - 1];
      var f := found[|found| - 1];
      PushAllIsDedup(init, resolve, fallback);
      var cs := Candidates(found, resolve, fallback);
      assert cs[..|cs| - 1] == Candidates(init, resolve, fallback);
      var c := CandidateTrack(f.link, f.title, resolve, fallback);
      assert cs[|cs| - 1] == c;
      var prev := Somes(Candidates(init, resolve, fallback));
      if c.Some? {
        assert Somes(cs) == prev + [c.value];
        DedupSnoc(prev, c.value, Url);
      } else {
        assert Somes(cs) == prev;
      }
    }
  }

  /** The collected tracks never repeat a URL. */
  lemma PushAllUnique(found: seq<Found>, resolve: string -> Option<string>, fallback: string)
    ensures UniqueKeys(PushAll(found, resolve, fallback), Url)
  {
    PushAllIsDedup(found, resolve, fallback);
    DedupSpec(Somes(Candidates(found, resolve, fallback)), Url);
  }

  // ------------------------------------------------------------ retry

  /** What one request attempt gives: a response, or an exception with its
      `String(e)` text. */
  datatype Attempt = Response(ok: bool, status: int) | Thrown(text: string)

  predicate IsOk(a: Attempt) {
    a.Response? && a.ok
  }

  /** `String(lastErr)` for a failed attempt. */
  function ErrorText(a: Attempt): string {
    match a
    case Response(_, status) => "Error: HTTP " + IntToString(status)
    case Thrown(text) => text
  }

  const Attempts := 6
  const BackoffDelays: seq<nat> := [1000, 2000, 4000, 8000, 16000, 30000]

  datatype RetryOutcome = Fetched(status: int) | Failed(error: string)

  /** The lostmyspace request loop. `respond(k)` is what attempt `k` gives;
      `waits` lists the pauses taken, in milliseconds. */
  method Retry(respond: nat -> Attempt) returns (made: nat, waits: seq<nat>, outcome: RetryOutcome)
    ensures 1 <= made <= Attempts
    ensures forall k :: 1 <= k < made ==> !IsOk(respond(k))
    ensures outcome.Fetched? <==> IsOk(respond(made))
    ensures outcome.Fetched? ==> outcome.status == respond(made).status
    ensures outcome.Failed? ==> made == Attempts && outcome.error == ErrorText(respond(Attempts))
    ensures waits == BackoffDelays[..made - 1]
  {
    var attempt := 1;
    waits := [];
    var last := respond(1);
    while true
      invariant 1 <= attempt <= Attempts
      invariant forall k :: 1 <= k < attempt ==> !IsOk(respond(k))
      invariant waits == BackoffDelays[..attempt - 1]
      invariant last == respond(attempt)
      decreases Attempts - attempt
    {
      if IsOk(last) {
        made, outcome := attempt, Fetched(last.status);
        return;
      }
      if attempt == Attempts {
        made, outcome := attempt, Failed(ErrorText(last));
        return;
      }
      waits := waits + [BackoffDelays[attempt - 1]];
      attempt := attempt + 1;
      last := respond(attempt);
    }
  }
}

=== FILE: byte_units.dfy ===
/** Binary byte units and the "divide by 1024 while it stays at least 1024"
    loop that both the Soulseek size column and the statistics page use to
    choose one. Division by 1024 is exact in binary floating point, so the
    reals here are the values the views go on to format. */
module ByteUnits {
  /** The units in order: the unit at index `k` is `1024^k` bytes. */
  datatype Unit = B | KB | MB | GB | TB

  function UnitAt(k: nat): (u: Unit)
    requires k <= 4
    ensures u == B <==> k == 0
  {
    if k == 0 then B else if k == 1 then KB else if k == 2 then MB else if k == 3 then GB else TB
  }

  function Pow1024(k: nat): (r: nat)
    ensures r >= 1
  {
    if k == 0 then 1 else 1024 * Pow1024(k - 1)
  }

  lemma {:induction false} Pow1024Mono(a: nat, c: nat)
    requires a <= c
    ensures Pow1024(a) <= Pow1024(c)
    decreases c
  {
    if a < c {
      Pow1024Mono(a, c - 1);
    }
  }

  /** `k` is the number of divisions for `b` with at most `cap` of them:
      `1024^k <= b` unless no division happens, and `b < 1024^(k+1)` unless
      the cap stopped the loop. */
  predicate IsDivisions(b: int, cap: nat, k: nat) {
    k <= cap && (k == 0 || Pow1024(k) <= b) && (k == cap || b < Pow1024(k + 1))
  }

  /** Only one count fits that description. */
  lemma DivisionsUnique(b: int, cap: nat, k1: nat, k2: nat)
    requires IsDivisions(b, cap, k1) && IsDivisions(b, cap, k2)
    ensures k1 == k2
  {
    if k1 < k2 {
      Pow1024Mono(k1 + 1, k2);
    } else if k2 < k1 {
      Pow1024Mono(k2 + 1, k1);
    }
  }

  function DivisionsFrom(b: int, cap: nat, k: nat): (r: nat)
    requires k <= cap && (k == 0 || Pow1024(k) <= b)
    ensures k <= r && IsDivisions(b, cap, r)
    decreases cap - k
  {
    if k < cap && Pow1024(k + 1) <= b then DivisionsFrom(b, cap, k + 1) else k
  }

  /** The number of divisions the loop makes on `b` when it may make at
      most `cap`. */
  function Divisions(b: int, cap: nat): (k: nat)
    ensures IsDivisions(b, cap, k)
  {
    DivisionsFrom(b, cap, 0)
  }

  /** Below 1024 nothing is divided; from 1024 on, with room for one,
      something is. */
  lemma DivisionsStart(b: int, cap: nat)
    ensures b < 1024 ==> Divisions(b, cap) == 0
    ensures b >= 1024 && cap > 0 ==> Divisions(b, cap) >= 1
  {
  }

  /** The loop `while (value >= 1024 && k < cap) { value /= 1024; k++ }`
      started from `value = b`, `k = 0`. */
  method ScaleDown(b: int, cap: nat) returns (value: real, k: nat)
    ensures k == Divisions(b, cap)
    ensures value == b as real / Pow1024(k) as real
  {
    k := 0;
    value := b as real;
    while value >= 1024.0 && k < cap
      invariant k <= cap
      invariant value == b as real / Pow1024(k) as real
      invariant k == 0 || Pow1024(k) <= b
      decreases cap - k
    {
      DivisionStep(b, k);
      value := value / 1024.0;
      k := k + 1;
    }
    DivisionsStop(b, cap, k, value);
  }

  /** One turn of the loop: the value divided by 1024 is `b / 1024^(k+1)`,
      and `b` was at least `1024^(k+1)`. */
  lemma DivisionStep(b: int, k: nat)
    requires b as real / Pow1024(k) as real >= 1024.0
    ensures Pow1024(k + 1) <= b
    ensures (b as real / Pow1024(k) as real) / 1024.0 == b as real / Pow1024(k + 1) as real
  {
    var p := Pow1024(k);
    assert Pow1024(k + 1) == 1024 * p;
    RealAtLeast(b as real, p as real, b as real / p as real);
    CastAtLeast(b, 1024 * p, b as real, (1024 * p) as real);
    DivideAgain(b as real, p as real, (1024 * p) as real);
  }

  lemma RealAtLeast(x: real, pr: real, v: real)
    requires pr >= 1.0 && v == x / pr && v >= 1024.0
    ensures x >= 1024.0 * pr
  {
    assert x == v * pr;
  }

  lemma CastAtLeast(b: int, q: int, x: real, y: real)
    requires x == b as real && y == q as real && x >= y
    ensures b >= q
  {
  }

  lemma DivideAgain(x: real, pr: real, qr: real)
    requires pr >= 1.0 && qr == 1024.0 * pr
    ensures (x / pr) / 1024.0 == x / qr
  {
  }

  /** Where the loop stops is the number of divisions. */
  lemma DivisionsStop(b: int, cap: nat, k: nat, value: real)
    requires k <= cap && (k == 0 || Pow1024(k) <= b)
    requires value == b as real / Pow1024(k) as real
    requires value < 1024.0 || k == cap
    ensures k == Divisions(b, cap)
  {
    if k < cap {
      QuotientBelow(b, Pow1024(k), value);
      assert Pow1024(k + 1) == 1024 * Pow1024(k);
    }
    DivisionsUnique(b, cap, k, Divisions(b, cap));
  }

  lemma QuotientBelow(b: int, p: nat, value: real)
    requires p >= 1 && value == b as real / p as real && value < 1024.0
    ensures b < 1024 * p
  {
    var pr := p as real;
    RealBelow(b as real, pr, value);
    var q := 1024 * p;
    assert q as real == 1024.0 * pr;
    CastBelow(b, q, b as real, q as real);
  }

  lemma RealBelow(x: real, pr: real, v: real)
    requires pr >= 1.0 && v == x / pr && v < 1024.0
    ensures x < 1024.0 * pr
  {
    assert x == v * pr;
  }

  lemma CastBelow(b: int, q: int, x: real, y: real)
    requires x == b as real && y == q as real && x < y
    ensures b < q
  {
  }

  /** Once at least one division happens the value shown is at least 1, and
      below 1024 unless the largest unit was reached. */
  lemma ScaledRange(b: int, cap: nat)
    requires b >= 1024 && cap > 0
    ensures var k := Divisions(b, cap);
      && 1.0 <= b as real / Pow1024(k) as real
      && (k < cap ==> b as real / Pow1024(k) as real < 1024.0)
  {
    var k := Divisions(b, cap);
    DivisionsStart(b, cap);
    var p := Pow1024(k) as real;
    assert p <= b as real;
    if k < cap {
      assert Pow1024(k + 1) == 1024 * Pow1024(k);
      assert b as real < 1024.0 * p;
    }
  }
}

=== FILE: cdx_search.dfy ===
/** The `fetch-resources` handler: for each input link, ask the Wayback CDX
    index for its captures and gather one result item per capture, never
    twice for the same `timestamp::original` key. The index query itself is a
    parameter; only what is done with its answer is modelled. */
module CdxSearch {
  import opened Opt
  import opened Strs
  import opened Seqs
  import opened Numerals
  import opened Items
  import opened WaybackInput

  /** The handler's first argument: one link, or an array of links. */
  datatype LinkInput = Single(link: string) | Many(links: seq<string>)

  /** The optional date filters; "" is an absent filter. */
  datatype Filters = Filters(from: string, to: string)

  /** The parts of the CDX request that vary: the looked-up URL and the date
      bounds as sent. */
  datatype CdxQuery = CdxQuery(url: string, from: Option<string>, to: Option<string>)

  /** One CDX row, `[timestamp, original, mimetype, length]`. */
  datatype CdxRow = CdxRow(timestamp: string, original: string, mimetype: string, length: string)

  /** What a request yields: a non-ok status, an exception (network error,
      timeout, unparsable body), or the JSON rows, header row first. */
  datatype CdxResponse = NotOk | Threw | Json(rows: seq<CdxRow>)

  const MaxLinks := 50

  /** The links processed: an array is cut to its first 50, a single link
      becomes a list of one. */
  function Links(input: LinkInput): (r: seq<string>)
    ensures |r| <= MaxLinks || input.Single?
    ensures input.Single? ==> r == [input.link]
    ensures input.Many? ==> |r| <= |input.links| && r == input.links[..|r|] && (|input.links| <= MaxLinks ==> r == input.links)
  {
    match input
    case Single(l) => [l]
    case Many(ls) => Take(ls, MaxLinks)
  }

  predicate NotDash(c: char) {
    c != '-'
  }

  /** `s.replace(/-/g, '')` */
  function RemoveDashes(s: string): (r: string)
    ensures Avoids(r, {'-'})
  {
    Filter(s, NotDash)
  }

  /** The query sent for one link's original URL: each date filter that is
      set is sent with its dashes removed. */
  function QueryFor(original: string, filters: Filters): (q: CdxQuery)
    ensures q.url == original
    ensures q.from.Some? <==> filters.from != ""
    ensures q.to.Some? <==> filters.to != ""
    ensures q.from.Some? ==> q.from.value == RemoveDashes(filters.from) && Avoids(q.from.value, {'-'})
    ensures q.to.Some? ==> q.to.value == RemoveDashes(filters.to) && Avoids(q.to.value, {'-'})
  {
    CdxQuery(original,
      if filters.from != "" then Some(RemoveDashes(filters.from)) else None,
      if filters.to != "" then Some(RemoveDashes(filters.to)) else None)
  }

  /** The item built from one row. */
  function ItemOf(row: CdxRow): (item: ResourceItem)
    ensures item.timestamp == row.timestamp && item.original == row.original
    ensures item.mimetype == row.mimetype
    ensures item.archived == ReplayUrl(row.timestamp, row.original)
    ensures item.groupTitle == "" && item.groupYear == ""
    ensures item.length == ParseIntOrZero(row.length)
  {
    ResourceItem(row.timestamp, row.original, row.mimetype,
      ReplayUrl(row.timestamp, row.original), ParseIntOrZero(row.length), "", "")
  }

  /** A row whose `length` is the decimal text of a size gives an item of
      that size; a `length` with no leading digit (`"-"`, empty) gives 0. */
  lemma ItemLength(row: CdxRow, n: nat)
    ensures row.length == NatToString(n) ==> ItemOf(row).length == n
    ensures (|row.length| > 0 && !IsDigit(row.length[0]) && !IsSpace(row.length[0])
             && row.length[0] != '-' && row.length[0] != '+') ==> ItemOf(row).length == 0
  {
    if row.length == NatToString(n) {
      ParseIntRoundTrip(n);
    }
    if |row.length| > 0 && !IsDigit(row.length[0]) && !IsSpace(row.length[0])
       && row.length[0] != '-' && row.length[0] != '+' {
      ParseIntNoDigits(row.length);
    }
  }

  /** The de-duplication key `${timestamp}::${orig}`. */
  function ItemKey(item: ResourceItem): string {
    item.timestamp + "::" + item.original
  }

  /** What one link contributes before de-duplication: nothing when the link
      has no original URL or the request fails, else an item for every row
      after the header. */
  function LinkItems(link: string, filters: Filters, parse: string -> Option<UrlParts>,
                     fetch: CdxQuery -> CdxResponse): seq<ResourceItem>
  {
    var original := ParseElectron(link, parse(link)).original;
    if original.None? || original.value == "" then []
    else
      match fetch(QueryFor(original.value, filters))
      case NotOk => []
      case Threw => []
      case Json(rows) => if |rows| == 0 then [] else Map(rows[1..], ItemOf)
  }

  /** Every link's items, in link order, before de-duplication. */
  function Gathered(links: seq<string>, filters: Filters, parse: string -> Option<UrlParts>,
                    fetch: CdxQuery -> CdxResponse): seq<ResourceItem>
  {
    FlatMap(links, l => LinkItems(l, filters, parse, fetch))
  }

  /** A link whose request fails, or which has no original URL, changes
      nothing for the links around it. */
  lemma FailureIsolated(a: seq<string>, l: string, b: seq<string>, filters: Filters,
                        parse: string -> Option<UrlParts>, fetch: CdxQuery -> CdxResponse)
    requires var original := ParseElectron(l, parse(l)).original;
      || original.None? || original.value == ""
      || fetch(QueryFor(original.value, filters)).NotOk?
      || fetch(QueryFor(original.value, filters)).Threw?
    ensures Gathered(a + [l] + b, filters, parse, fetch) == Gathered(a + b, filters, parse, fetch)
  {
    var f := l => LinkItems(l, filters, parse, fetch);
    assert f(l) == [];
    assert FlatMap([l], f) == [] by {
      assert [l][..0] == [];
    }
    calc {
      FlatMap(a + [l] + b, f);
      { FlatMapAppend(a + [l], b, f); }
      FlatMap(a + [l], f) + FlatMap(b, f);
      { FlatMapAppend(a, [l], f); }
      FlatMap(a, f) + FlatMap(b, f);
      { FlatMapAppend(a, b, f); }
      FlatMap(a + b, f);
    }
  }

  /** The `fetch-resources` handler, as the loop it is: one shared `seen`
      set, checked before every push. */
  method FetchResources(input: LinkInput, filters: Filters, parse: string -> Option<UrlParts>,
                        fetch: CdxQuery -> CdxResponse)
    returns (items: seq<ResourceItem>)
    ensures items == DedupBy(Gathered(Links(input), filters, parse, fetch), ItemKey)
  {
    var links := Links(input);
    items := [];
    var seen: set<string> := {};
    var i := 0;
    while i < |links|
      invariant 0 <= i <= |links|
      invariant items == DedupBy(Gathered(links[..i], filters, parse, fetch), ItemKey)
      invariant seen == KeysOf(items, ItemKey)
    {
      var l := links[i];
      var before := Gathered(links[..i], filters, parse, fetch);
      GatheredSnoc(links, i, filters, parse, fetch);
      var original := ParseElectron(l, parse(l)).original;
      if original.Some? && original.value != "" {
        var res := fetch(QueryFor(original.value, filters));
        if res.Json? && |res.rows| > 0 {
          items, seen := PushNew(before, Map(res.rows[1..], ItemOf), ItemKey, items, seen);
        }
      }
      i := i + 1;
    }
    assert links[..i] == links;
  }

  /** Gathering one more link appends that link's items. */
  lemma GatheredSnoc(links: seq<string>, i: nat, filters: Filters, parse: string -> Option<UrlParts>,
                     fetch: CdxQuery -> CdxResponse)
    requires i < |links|
    ensures Gathered(links[..i + 1], filters, parse, fetch) ==
      Gathered(links[..i], filters, parse, fetch) + LinkItems(links[i], filters, parse, fetch)
    ensures LinkItems(links[i], filters, parse, fetch) == [] ==>
      Gathered(links[..i + 1], filters, parse, fetch) == Gathered(links[..i], filters, parse, fetch)
  {
    assert links[..i + 1][..i] == links[..i];
  }

  /** The result of the handler has no repeated key, holds only items built
      from rows, keeps every key, and keeps the first item of each key. */
  lemma FetchResourcesSpec(input: LinkInput, filters: Filters, parse: string -> Option<UrlParts>,
                           fetch: CdxQuery -> CdxResponse)
    ensures var all := Gathered(Links(input), filters, parse, fetch);
      var items := DedupBy(all, ItemKey);
      && UniqueKeys(items, ItemKey)
      && (forall y :: y in items ==> y in all)
      && KeysOf(items, ItemKey) == KeysOf(all, ItemKey)
      && (forall i :: FirstOfKey(all, ItemKey, i) ==> all[i] in items)
  {
    DedupSpec(Gathered(Links(input), filters, parse, fetch), ItemKey);
  }

  /** Every gathered item is the image of a row: its replay address is built
      from its own timestamp and original. */
  lemma {:induction false} GatheredArchived(links: seq<string>, filters: Filters,
                                            parse: string -> Option<UrlParts>, fetch: CdxQuery -> CdxResponse)
    ensures forall y :: y in Gathered(links, filters, parse, fetch) ==>
      y.archived == ReplayUrl(y.timestamp, y.original) && y.groupTitle == "" && y.groupYear == ""
    decreases |links|
  {
    if |links| > 0 {
      var f := l => LinkItems(l, filters, parse, fetch);
      GatheredArchived(links[..|links| - 1], filters, parse, fetch);
      assert Gathered(links, filters, parse, fetch) ==
        Gathered(links[..|links| - 1], filters, parse, fetch) + f(links[|links| - 1]);
    }
  }

  /** With a timestamp free of `:` (CDX timestamps are digits), the key
      determines timestamp and original, so distinct keys mean distinct
      captures. */
  lemma KeyDeterminesCapture(a: ResourceItem, b: ResourceItem)
    requires Avoids(a.timestamp, {':'}) && Avoids(b.timestamp, {':'})
    requires ItemKey(a) == ItemKey(b)
    ensures a.timestamp == b.timestamp && a.original == b.original
  {
    KeyLayout(a.timestamp, a.original);
    KeyLayout(b.timestamp, b.original);
    var ka := ItemKey(a);
    if |a.timestamp| == |b.timestamp| {
      assert a.timestamp == ka[..|a.timestamp|];
      assert a.original == ka[|a.timestamp| + 2..];
    } else {
      assert false;
    }
  }

  lemma KeyLayout(ts: string, o: string)
    ensures (ts + "::" + o)[|ts|] == ':'
    ensures forall k :: 0 <= k < |ts| ==> (ts + "::" + o)[k] == ts[k]
  {
  }

  /** Dash removal keeps every other character, in order. */
  lemma RemoveDashesKeeps(a: string, b: string)
    ensures RemoveDashes(a + "-" + b) == RemoveDashes(a) + RemoveDashes(b)
    ensures Avoids(a, {'-'}) ==> RemoveDashes(a) == a
  {
    DashDropped(a, b);
    if Avoids(a, {'-'}) {
      FilterAll(a, NotDash);
    }
  }

  /** A date picked as `YYYY-MM-DD` is sent as `YYYYMMDD`. */
  lemma QueryForDate(original: string, y: string, m: string, d: string, to: string)
    requires Avoids(y, {'-'}) && Avoids(m, {'-'}) && Avoids(d, {'-'})
    ensures QueryFor(original, Filters(y + "-" + m + "-" + d, to)).from == Some(y + m + d)
  {
    RemoveDashesKeeps(y + "-" + m, d);
    RemoveDashesKeeps(y, m);
    RemoveDashesKeeps(m, "");
    RemoveDashesKeeps(d, "");
    assert y + "-" + m + "-" + d != "" by { assert |y + "-" + m + "-" + d| >= 2; }
  }

  lemma DashDropped(a: string, b: string)
    ensures RemoveDashes(a + "-" + b) == RemoveDashes(a) + RemoveDashes(b)
  {
    FilterAppend(a + "-", b, NotDash);
    FilterAppend(a, "-", NotDash);
    assert Filter("-", NotDash) == [];
    assert RemoveDashes(a) + [] == RemoveDashes(a);
  }
}

=== FILE: download_name.dfy ===
/** How the `download-resource` handler names the file it writes: the
    requested name, else the last segment of the URL path, else
    `resource_<now>`; every run of characters that are unsafe in file names
    becomes one `_`; and a name without an extension gets one from the
    response's content type or, failing that, from the URL path. The request,
    the directory creation and the streamed write are not part of this
    model. */
module DownloadName {
  import opened Opt
  import opened Strs
  import opened Numerals

  // ------------------------------------------------------------ sanitising

  const UnsafeChars: set<char> := {'<', '>', ':', '"', '/', '\\', '|', '?', '*'}

  predicate Unsafe(c: char) {
    c in UnsafeChars
  }

  /** The regex replacement as a left-to-right scan: an unsafe character
      writes `_` unless the character before it was unsafe too (`inRun`). */
  function SanitizeFrom(s: string, inRun: bool): string
    decreases |s|
  {
    if |s| == 0 then ""
    else if Unsafe(s[0]) then (if inRun then "" else "_") + SanitizeFrom(s[1..], true)
    else [s[0]] + SanitizeFrom(s[1..], false)
  }

  /** `s.replace(/[<>:"/\\|?*]+/g, '_')` */
  function Sanitize(s: string): string {
    SanitizeFrom(s, false)
  }

  /** Whether a scan is inside a run of unsafe characters after reading `a`. */
  function RunAfter(a: string, inRun: bool): bool {
    if |a| == 0 then inRun else Unsafe(a[|a| - 1])
  }

  /** The scan over a concatenation is the scan over each part, the second
      starting in the state the first ends in. */
  lemma {:induction false} SanitizeAppend(a: string, t: string, inRun: bool)
    ensures SanitizeFrom(a + t, inRun) == SanitizeFrom(a, inRun) + SanitizeFrom(t, RunAfter(a, inRun))
    decreases |a|
  {
    if |a| == 0 {
      assert a + t == t;
    } else {
      var x, rest := a[0], a[1..];
      assert a == [x] + rest;
      assert a + t == [x] + (rest + t);
      SanitizeAppend(rest, t, Unsafe(x));
      SanitizeCons(x, rest + t, inRun);
      SanitizeCons(x, rest, inRun);
      assert RunAfter(rest, Unsafe(x)) == RunAfter(a, inRun);
      ConcatAssoc(Written(x, inRun), SanitizeFrom(rest, Unsafe(x)), SanitizeFrom(t, RunAfter(a, inRun)));
    }
  }

  /** What the scan writes for one character. */
  function Written(x: char, inRun: bool): string {
    if Unsafe(x) then (if inRun then "" else "_") else [x]
  }

  lemma SanitizeCons(x: char, s: string, inRun: bool)
    ensures SanitizeFrom([x] + s, inRun) == Written(x, inRun) + SanitizeFrom(s, Unsafe(x))
  {
    assert ([x] + s)[0] == x;
    assert ([x] + s)[1..] == s;
  }

  lemma ConcatAssoc(p: string, q: string, r: string)
    ensures p + (q + r) == (p + q) + r
  {
  }

  /** A run of unsafe characters writes one `_`, or nothing if a run was
      already open. */
  lemma {:induction false} SanitizeUnsafeRun(run: string, inRun: bool)
    requires |run| > 0 && forall i :: 0 <= i < |run| ==> Unsafe(run[i])
    ensures SanitizeFrom(run, inRun) == if inRun then "" else "_"
    decreases |run|
  {
    if |run| > 1 {
      SanitizeUnsafeRun(run[1..], true);
    }
  }

  /** The scan's output has no unsafe character, is no longer than its input,
      and is empty only when the input is. */
  lemma {:induction false} SanitizeFacts(s: string, inRun: bool)
    ensures Avoids(SanitizeFrom(s, inRun), UnsafeChars)
    ensures |SanitizeFrom(s, inRun)| <= |s|
    ensures !inRun && |s| > 0 ==> |SanitizeFrom(s, inRun)| > 0
    decreases |s|
  {
    if |s| > 0 {
      SanitizeFacts(s[1..], Unsafe(s[0]));
    }
  }

  /** A name with nothing unsafe in it is left alone. */
  lemma {:induction false} SanitizeSafe(s: string, inRun: bool)
    requires Avoids(s, UnsafeChars)
    ensures SanitizeFrom(s, inRun) == s
    decreases |s|
  {
    if |s| > 0 {
      SanitizeSafe(s[1..], false);
    }
  }

  /** Sanitising twice is sanitising once. */
  lemma SanitizeIdempotent(s: string)
    ensures Sanitize(Sanitize(s)) == Sanitize(s)
  {
    SanitizeFacts(s, false);
    SanitizeSafe(Sanitize(s), false);
  }

  /** Each maximal run of unsafe characters becomes exactly one `_`, and the
      text on either side is sanitised independently. */
  lemma SanitizeRun(a: string, run: string, b: string)
    requires a == "" || !Unsafe(a[|a| - 1])
    requires |run| > 0 && forall i :: 0 <= i < |run| ==> Unsafe(run[i])
    requires b == "" || !Unsafe(b[0])
    ensures Sanitize(a + run + b) == Sanitize(a) + "_" + Sanitize(b)
  {
    assert a + run + b == a + (run + b);
    SanitizeAppend(a, run + b, false);
    assert RunAfter(a, false) == false;
    assert SanitizeFrom(run + b, false) == "_" + Sanitize(b) by {
      SanitizeRunThen(run, b);
    }
  }

  /** A leading run of unsafe characters followed by a safe one. */
  lemma SanitizeRunThen(run: string, b: string)
    requires |run| > 0 && forall i :: 0 <= i < |run| ==> Unsafe(run[i])
    requires b == "" || !Unsafe(b[0])
    ensures SanitizeFrom(run + b, false) == "_" + Sanitize(b)
  {
    SanitizeAppend(run, b, false);
    SanitizeUnsafeRun(run, false);
    assert RunAfter(run, false) == true;
    if |b| > 0 {
      SanitizeHeadSafe(b);
    }
  }

  /** After a run, a safe character is written the same either way. */
  lemma SanitizeHeadSafe(b: string)
    requires |b| > 0 && !Unsafe(b[0])
    ensures SanitizeFrom(b, true) == SanitizeFrom(b, false)
  {
  }

  // ------------------------------------------------------------ paths

  /** The position of the last `c` in `s`, or -1. */
  function LastIndexOf(s: string, c: char): (r: int)
    ensures -1 <= r < |s|
    ensures r >= 0 ==> s[r] == c
    ensures forall i :: r < i < |s| ==> s[i] != c
    decreases |s|
  {
    if |s| == 0 then -1
    else if s[|s| - 1] == c then |s| - 1
    else LastIndexOf(s[..|s| - 1], c)
  }

  /** `s` without its trailing `/` characters. */
  function TrimTrailingSlashes(s: string): (r: string)
    ensures StartsWith(s, r)
    ensures r == "" || r[|r| - 1] != '/'
    decreases |s|
  {
    if |s| > 0 && s[|s| - 1] == '/' then TrimTrailingSlashes(s[..|s| - 1]) else s
  }

  /** `path.basename(p)` (POSIX): the last segment, trailing slashes ignored. */
  function Basename(p: string): (r: string)
    ensures Avoids(r, {'/'})
  {
    LastPart(TrimTrailingSlashes(p), {'/'})
  }

  /** `path.extname(name)` for a name without `/`: from the last dot on,
      unless that dot starts the name or the name is `..`. */
  function Extname(name: string): (r: string)
    ensures r == "" || (r[0] == '.' && EndsWith(name, r) && |r| < |name|)
    ensures r != "" ==> forall i :: 1 <= i < |r| ==> r[i] != '.'
  {
    var d := LastIndexOf(name, '.');
    if d <= 0 || name == ".." then "" else name[d..]
  }

  /** A name that already has an extension is the only way a name keeps its
      own; appending `.ext` to a non-empty name makes `.ext` its extension. */
  lemma ExtnameOfAppended(base: string, ext: string)
    requires |base| > 0 && |ext| > 1 && ext[0] == '.'
    requires forall i :: 1 <= i < |ext| ==> ext[i] != '.'
    ensures Extname(base + ext) == ext
  {
    var n := base + ext;
    assert n[|base|] == '.';
    assert forall i :: |base| < i < |n| ==> n[i] == ext[i - |base|];
    assert n[|base|..] == ext;
  }

  // ------------------------------------------------------------ content type

  /** The content-type to extension table. */
  const MimeExtensions: map<string, string> := map[
    "image/jpeg" := ".jpg",
    "image/jpg" := ".jpg",
    "image/png" := ".png",
    "image/gif" := ".gif",
    "image/webp" := ".webp",
    "audio/mpeg" := ".mp3",
    "audio/ogg" := ".ogg",
    "video/mp4" := ".mp4",
    "video/quicktime" := ".mov"]

  /** `ct.split(';')[0].trim()`: the media type without parameters. */
  function MediaType(ct: string): (r: string)
    ensures Avoids(r, {';'})
  {
    SplitOnFacts(ct, {';'});
    var t := Trim(Split(ct, ';')[0]);
    assert Avoids(t, {';'}) by {
      var s := Split(ct, ';')[0];
      forall i | 0 <= i < |t| ensures t[i] != ';' {
        TrimInside(s, i);
      }
    }
    t
  }

  lemma TrimInside(s: string, i: int)
    requires 0 <= i < |Trim(s)|
    ensures Trim(s)[i] in s
  {
    var u := TrimStart(s);
    assert Trim(s) == TrimEnd(u);
    PrefixCharIn(u, TrimEnd(u), i);
    SuffixCharIn(s, u, i);
  }

  lemma PrefixCharIn(u: string, t: string, i: int)
    requires StartsWith(u, t) && 0 <= i < |t|
    ensures i < |u| && t[i] == u[i]
  {
    assert t[i] == u[..|t|][i];
  }

  lemma SuffixCharIn(s: string, u: string, i: int)
    requires EndsWith(s, u) && 0 <= i < |u|
    ensures u[i] in s
  {
    assert u[i] == s[|s| - |u|..][i] == s[|s| - |u| + i];
  }

  /** Every extension in the table is a dot followed by dot-free text. */
  lemma MimeExtensionsWellFormed()
    ensures forall k :: k in MimeExtensions ==>
      |MimeExtensions[k]| > 1 && MimeExtensions[k][0] == '.' &&
      forall i :: 1 <= i < |MimeExtensions[k]| ==> MimeExtensions[k][i] != '.'
  {
  }

  // ------------------------------------------------------------ the name

  /** The name the file is written under. `filename` is the requested name
      (`""` when none), `urlPath` the pathname of the download URL (`None`
      when `new URL(url)` throws), `now` the value of `Date.now()`, `ct` the
      content-type header (`""` when absent). `None` is the handler's error
      result: the only throw on the way is `new URL(url)` when no name was
      requested. */
  function ResolveFileName(filename: string, urlPath: Option<string>, now: nat, ct: string): (r: Option<string>)
    ensures r.None? <==> filename == "" && urlPath.None?
  {
    match BaseName(filename, urlPath, now)
    case None => None
    case Some(unsafeName) =>
      var safe := Sanitize(unsafeName);
      if Extname(safe) != "" then Some(safe)
      else
        var mt := MediaType(ct);
        if mt in MimeExtensions then Some(safe + MimeExtensions[mt])
        else
          match urlPath
          case Some(p) => Some(safe + Extname(Basename(p)))
          case None => Some(safe)
  }

  /** `filename || path.basename(new URL(url).pathname) || \`resource_${Date.now()}\`` */
  function BaseName(filename: string, urlPath: Option<string>, now: nat): (r: Option<string>)
    ensures r.Some? ==> r.value != ""
    ensures filename != "" ==> r == Some(filename)
    ensures filename == "" && urlPath.None? ==> r.None?
    ensures filename == "" && urlPath.Some? ==>
      r == Some(if Basename(urlPath.value) != "" then Basename(urlPath.value) else "resource_" + NatToString(now))
  {
    if filename != "" then Some(filename)
    else
      match urlPath
      case None => None
      case Some(p) =>
        var b := Basename(p);
        Some(if b != "" then b else "resource_" + NatToString(now))
  }

  /** The written name is the sanitised base name, possibly with an
      extension appended, and never with a second one. */
  lemma ResolvedNameShape(filename: string, urlPath: Option<string>, now: nat, ct: string)
    requires ResolveFileName(filename, urlPath, now, ct).Some?
    ensures var safe := Sanitize(BaseName(filename, urlPath, now).value);
      var r := ResolveFileName(filename, urlPath, now, ct).value;
      && Avoids(safe, UnsafeChars) && safe != ""
      && StartsWith(r, safe) && (Extname(safe) != "" ==> r == safe)
  {
    SanitizeFacts(BaseName(filename, urlPath, now).value, false);
  }

  /** A name without extension and a content type outside the table get
      the extension of the URL's last path part, or nothing when the URL
      did not parse. */
  lemma UrlPathExtension(filename: string, urlPath: Option<string>, now: nat, ct: string)
    requires BaseName(filename, urlPath, now).Some?
    requires Extname(Sanitize(BaseName(filename, urlPath, now).value)) == ""
    requires MediaType(ct) !in MimeExtensions
    ensures ResolveFileName(filename, urlPath, now, ct) ==
      Some(Sanitize(BaseName(filename, urlPath, now).value)
           + (if urlPath.Some? then Extname(Basename(urlPath.value)) else ""))
  {
    var safe := Sanitize(BaseName(filename, urlPath, now).value);
    assert safe + "" == safe;
  }

  /** A name without extension and a content type in the table get the
      table's extension, which is then the extension of the written name. */
  lemma ContentTypeExtension(filename: string, urlPath: Option<string>, now: nat, ct: string)
    requires BaseName(filename, urlPath, now).Some?
    requires Extname(Sanitize(BaseName(filename, urlPath, now).value)) == ""
    requires MediaType(ct) in MimeExtensions
    ensures ResolveFileName(filename, urlPath, now, ct) ==
      Some(Sanitize(BaseName(filename, urlPath, now).value) + MimeExtensions[MediaType(ct)])
    ensures Extname(ResolveFileName(filename, urlPath, now, ct).value) == MimeExtensions[MediaType(ct)]
  {
    MimeExtensionsWellFormed();
    SanitizeFacts(BaseName(filename, urlPath, now).value, false);
    ExtnameOfAppended(Sanitize(BaseName(filename, urlPath, now).value), MimeExtensions[MediaType(ct)]);
  }

  /** The media type ignores parameters and surrounding blanks:
      `image/png; charset=x` is looked up as `image/png`. */
  lemma MediaTypeIgnoresParameters(mt: string, params: string)
    requires Avoids(mt, {';'}) && Trim(mt) == mt
    ensures MediaType(mt + ";" + params) == mt
  {
    SplitConcat(mt, ';', params, {';'});
    SplitNoSep(mt, {';'});
    assert mt + ";" + params == mt + [';'] + params;
  }
}

=== FILE: extraction.dfy ===
/** The link-harvesting steps of the Wayback extraction script: which anchors
    and style attributes yield candidate links, the ordered candidate set,
    the rewriting of each candidate into a Wayback replay address, the
    batched probing of at most 150 of them, and the final media filter. The
    HTML parser, the selectors and the HEAD/GET requests are not part of this
    model: attribute values arrive as strings, and a probe is a function from
    URL to result. */
module Extraction {
  import opened Opt
  import opened Strs
  import opened Seqs
  import opened Numerals
  import opened WaybackInput

  // ------------------------------------------------------------ anchors

  const MediaExtensions: seq<string> :=
    ["jpg", "jpeg", "png", "gif", "webp", "bmp", "svg", "mp3", "ogg", "m4a", "wav", "mp4", "mov"]

  /** `lower.match(/\.(jpg|…|mov)(\?|$)/)`: a listed extension after a dot,
      followed by `?` or by the end of the string. */
  predicate HasMediaExtension(lower: string) {
    exists k :: 0 <= k < |MediaExtensions| &&
      (Contains(lower, "." + MediaExtensions[k] + "?") || EndsWith(lower, "." + MediaExtensions[k]))
  }

  /** An anchor's href is a candidate when, lower-cased, it names a media
      file or mentions `media` or `files`. */
  predicate AnchorCandidate(href: string) {
    var lower := ToLower(href);
    HasMediaExtension(lower) || Contains(lower, "media") || Contains(lower, "files")
  }

  /** The anchor test ignores case. */
  lemma AnchorIgnoresCase(href: string)
    ensures AnchorCandidate(href) == AnchorCandidate(ToLower(href))
  {
    assert ToLower(ToLower(href)) == ToLower(href);
  }

  lemma MediaExtensionsLower(k: nat)
    requires k < |MediaExtensions|
    ensures IsLower("." + MediaExtensions[k]) && IsLower("." + MediaExtensions[k] + "?")
  {
  }

  /** A link ending in a listed extension, in any case, is a candidate. */
  lemma AnchorTakesMediaFile(base: string, k: nat)
    requires k < |MediaExtensions|
    ensures AnchorCandidate(base + "." + MediaExtensions[k])
  {
    var e := "." + MediaExtensions[k];
    MediaExtensionsLower(k);
    assert base + "." + MediaExtensions[k] == base + e;
    LowerKeepsSuffix(base, e);
  }

  /** So is one where a query string follows the extension. */
  lemma AnchorTakesMediaQuery(base: string, k: nat, query: string)
    requires k < |MediaExtensions|
    ensures AnchorCandidate(base + "." + MediaExtensions[k] + "?" + query)
  {
    var e := "." + MediaExtensions[k] + "?";
    MediaExtensionsLower(k);
    assert base + "." + MediaExtensions[k] + "?" + query == base + e + query;
    LowerKeepsInfix(base, e, query);
  }

  // ------------------------------------------------------------ style

  predicate IsQuote(c: char) {
    c == '\'' || c == '"'
  }

  predicate UrlChar(c: char) {
    !IsQuote(c) && c != ')'
  }

  const BackgroundKey := "background-image:"

  /** What follows `url(` in the style pattern: an optional quote, the
      captured run of characters other than quotes and `)`, an optional
      quote and `)`. The run is taken whole and an opening quote is taken
      when present: giving characters back cannot let the rest match. */
  function UrlBody(u: string): (r: Option<string>)
    ensures r.Some? ==> r.value != "" && forall k :: 0 <= k < |r.value| ==> UrlChar(r.value[k])
  {
    var q := if |u| > 0 && IsQuote(u[0]) then 1 else 0;
    var run := PrefixWhile(u[q..], UrlChar);
    if run != "" && ClosesUrl(u[q + |run|..]) then Some(run) else None
  }

  /** `['"]?\)` at the start of `after`. */
  predicate ClosesUrl(after: string) {
    StartsWith(after, ")") || (|after| >= 2 && IsQuote(after[0]) && after[1] == ')')
  }

  /** `['"]?` as written in a style: nothing, or one quote. */
  predicate OptQuote(q: string) {
    |q| <= 1 && forall k :: 0 <= k < |q| ==> IsQuote(q[k])
  }

  /** The attempt of `/background-image:\s*url\(['"]?([^'")]+)['"]?\)/i`
      starting at position `i`, with its captured URL. The white space before
      `url(` is taken whole, as `u` is not white space. */
  function BackgroundMatchAt(style: string, i: nat): (r: Option<string>)
    ensures r.Some? ==> i <= |style| && StartsWithFolded(style[i..], BackgroundKey)
    ensures r.Some? ==> r.value != "" && forall k :: 0 <= k < |r.value| ==> UrlChar(r.value[k])
  {
    if i > |style| then None
    else
      var s := style[i..];
      if !StartsWithFolded(s, BackgroundKey) then None
      else
        var t := TrimStart(s[|BackgroundKey|..]);
        if !StartsWithFolded(t, "url(") then None
        else UrlBody(t[4..])
  }

  /** `style.match(...)[1]`: the capture of the leftmost match, which is
      the first position where `BackgroundMatchAt` succeeds. */
  function BackgroundUrl(style: string): (r: Option<string>)
    ensures r.Some? ==> r.value != "" && forall k :: 0 <= k < |r.value| ==> UrlChar(r.value[k])
  {
    var at := (i: nat) => BackgroundMatchAt(style, i);
    var f := FirstSome(at, 0, |style|);
    if f.None? then None
    else
      assert at(f.value.0) == BackgroundMatchAt(style, f.value.0);
      Some(f.value.1)
  }

  /** A style that opens with a `background-image` declaration yields the
      URL written in it, with or without quotes. */
  lemma BackgroundDeclaration(sp: string, q: string, url: string, q2: string, rest: string)
    requires AllSpace(sp) && OptQuote(q) && OptQuote(q2)
    requires url != "" && forall k :: 0 <= k < |url| ==> UrlChar(url[k])
    ensures BackgroundUrl(BackgroundKey + sp + "url(" + q + url + q2 + ")" + rest) == Some(url)
  {
    var t := q2 + ")" + rest;
    var u := q + (url + t);
    var tail := "url(" + u;
    var style := BackgroundKey + (sp + tail);
    assert BackgroundKey + sp + "url(" + q + url + q2 + ")" + rest == style;
    FoldedPrefix(BackgroundKey, sp + tail);
    FoldedPrefix("url(", u);
    assert style[0..] == style;
    assert style[|BackgroundKey|..] == sp + tail;
    TrimStartSkips(sp, tail);
    assert tail[4..] == u;
    assert ClosesUrl(t) by {
      if q2 == "" {
        assert t[..1] == ")";
      } else {
        assert t[1] == ')';
      }
    }
    UrlBodyOf(q, url, t);
    assert BackgroundMatchAt(style, 0) == Some(url);
  }

  lemma UrlBodyOf(q: string, url: string, t: string)
    requires OptQuote(q) && ClosesUrl(t)
    requires url != "" && forall k :: 0 <= k < |url| ==> UrlChar(url[k])
    ensures UrlBody(q + (url + t)) == Some(url)
  {
    var u := q + (url + t);
    assert |t| > 0 && !UrlChar(t[0]);
    PrefixWhileStops(url, t, UrlChar);
    assert u[|q|..] == url + t;
    assert u[|q| + |url|..] == t;
    if q == "" {
      assert u[0] == url[0];
    }
  }

  lemma {:induction false} TrimStartSkips(sp: string, t: string)
    requires AllSpace(sp)
    requires |t| > 0 && !IsSpace(t[0])
    ensures TrimStart(sp + t) == t
    decreases |sp|
  {
    if |sp| > 0 {
      assert (sp + t)[1..] == sp[1..] + t;
      TrimStartSkips(sp[1..], t);
    } else {
      assert sp + t == t;
    }
  }

  // ------------------------------------------------------------ candidates

  function Self(s: string): string {
    s
  }

  /** The candidate `Set` as an array: every link that resolves against the
      page's original URL (`resolve` gives `None` where `new URL` throws and
      the link is dropped), in first-insertion order. */
  function Candidates(links: seq<string>, resolve: string -> Option<string>): seq<string> {
    DedupBy(Somes(Map(links, resolve)), Self)
  }

  /** The candidates are distinct, each is the resolution of a link, and
      every resolvable link's resolution is among them. */
  lemma CandidatesSpec(links: seq<string>, resolve: string -> Option<string>)
    ensures forall i, j :: 0 <= i < j < |Candidates(links, resolve)| ==>
      Candidates(links, resolve)[i] != Candidates(links, resolve)[j]
    ensures forall c :: c in Candidates(links, resolve) <==> exists k :: 0 <= k < |links| && resolve(links[k]) == Some(c)
  {
    CandidatesDistinct(links, resolve);
    CandidatesMembers(links, resolve);
  }

  lemma CandidatesDistinct(links: seq<string>, resolve: string -> Option<string>)
    ensures forall i, j :: 0 <= i < j < |Candidates(links, resolve)| ==>
      Candidates(links, resolve)[i] != Candidates(links, resolve)[j]
  {
    DedupSpec(Somes(Map(links, resolve)), Self);
  }

  lemma CandidatesMembers(links: seq<string>, resolve: string -> Option<string>)
    ensures forall c :: c in Candidates(links, resolve) <==> c in Somes(Map(links, resolve))
    ensures forall c :: c in Candidates(links, resolve) <==> exists k :: 0 <= k < |links| && resolve(links[k]) == Some(c)
  {
    var all := Somes(Map(links, resolve));
    DedupSpec(all, Self);
    var cs := Candidates(links, resolve);
    forall c | c in all
      ensures c in cs
    {
      var i :| 0 <= i < |all| && all[i] == c;
      assert Self(c) in KeysOf(cs, Self);
    }
    SomesMembers(Map(links, resolve));
  }

  // ------------------------------------------------------------ normalising

  /** The attempt of `\/web\/(\d+)[^\/]*\/(https?:\/\/.+)$` starting at
      position `i`, with its two captures. The digit run is taken whole (the
      rest of the segment is matched by `[^\/]*` either way), the segment
      must be followed by `/`, and the embedded URL runs to the end of the
      string without a line terminator. */
  function EmbeddedMatchAt(c: string, i: nat): (r: Option<(string, string)>)
    ensures r.Some? ==> r.value.0 != "" && (forall k :: 0 <= k < |r.value.0| ==> IsDigit(r.value.0[k]))
    ensures r.Some? ==> StartsWith(r.value.1, "http") && EndsWith(c, r.value.1)
  {
    if i > |c| || !StartsWith(c[i..], "/web/") then None
    else
      var tail := c[i + 5..];
      var seg := PrefixWhile(tail, NotSlash);
      var digits := PrefixWhile(seg, IsDigit);
      if digits == "" || |seg| == |tail| then None
      else
        var url := tail[|seg| + 1..];
        assert EndsWith(c, url) by {
          assert c[|c| - |url|..] == url;
        }
        if ((StartsWith(url, "http://") && |url| > 7) || (StartsWith(url, "https://") && |url| > 8))
           && Avoids(url, LineTerminators)
        then
          HttpSchemes(url);
          Some((digits, url))
        else None
  }

  /** Both schemes the pattern allows begin with `http`. */
  lemma HttpSchemes(url: string)
    requires StartsWith(url, "http://") || StartsWith(url, "https://")
    ensures StartsWith(url, "http")
  {
    if StartsWith(url, "http://") {
      assert url[..4] == url[..7][..4];
    } else {
      assert url[..4] == url[..8][..4];
    }
  }

  /** The captures of the leftmost embedded-address match, if any. */
  function EmbeddedAddress(c: string): (r: Option<(string, string)>)
    ensures r.Some? ==> r.value.0 != "" && (forall k :: 0 <= k < |r.value.0| ==> IsDigit(r.value.0[k]))
    ensures r.Some? ==> StartsWith(r.value.1, "http") && EndsWith(c, r.value.1)
  {
    var at := (i: nat) => EmbeddedMatchAt(c, i);
    var f := FirstSome(at, 0, |c|);
    if f.None? then None
    else
      assert at(f.value.0) == EmbeddedMatchAt(c, f.value.0);
      Some(f.value.1)
  }

  /** `normalizeToArchived(cand)` with the page's stamp: an archive address
      is kept, an embedded `/web/<digits>…/<url>` is rebuilt, else the page
      stamp is used when it is set and not the wildcard, else `*`. */
  function NormalizeToArchived(cand: string, stamp: Option<string>): (r: string)
    ensures Contains(r, ArchiveHost)
    ensures Contains(cand, ArchiveHost) ==> r == cand
  {
    if Contains(cand, ArchiveHost) then cand
    else
      match EmbeddedAddress(cand)
      case Some((digits, url)) => ReplayUrl(digits, url)
      case None =>
        if stamp.Some? && stamp.value != "" && stamp.value != "*" then ReplayUrl(stamp.value, cand)
        else ReplayUrl("*", cand)
  }

  /** Normalising is idempotent: its output is always an archive address,
      which it keeps as it is. */
  lemma NormalizeIdempotent(cand: string, stamp: Option<string>, stamp2: Option<string>)
    ensures NormalizeToArchived(NormalizeToArchived(cand, stamp), stamp2) == NormalizeToArchived(cand, stamp)
  {
  }

  /** A candidate embedding a capture address is rebuilt on the archive host
      with the embedded digits and URL. */
  lemma NormalizeEmbedded(digits: string, url: string, stamp: Option<string>)
    requires digits != "" && forall k :: 0 <= k < |digits| ==> IsDigit(digits[k])
    requires StartsWith(url, "http://") && |url| > 7 && Avoids(url, LineTerminators)
    requires !Contains(url, ArchiveHost)
    ensures NormalizeToArchived("/web/" + digits + "/" + url, stamp) == ReplayUrl(digits, url)
  {
    var c := "/web/" + digits + "/" + url;
    EmbeddedAtStart(digits, url);
    NoHostInPrefix(digits, url);
    assert EmbeddedAddress(c) == Some((digits, url));
  }

  lemma EmbeddedAtStart(digits: string, url: string)
    requires digits != "" && forall k :: 0 <= k < |digits| ==> IsDigit(digits[k])
    requires StartsWith(url, "http://") && |url| > 7 && Avoids(url, LineTerminators)
    ensures EmbeddedMatchAt("/web/" + digits + "/" + url, 0) == Some((digits, url))
  {
    var c := "/web/" + digits + "/" + url;
    assert c[0..] == c;
    assert c[..5] == "/web/";
    var tail := c[5..];
    assert tail == digits + ("/" + url);
    PrefixWhileStops(digits, "/" + url, NotSlash);
    PrefixAll(digits, IsDigit);
    assert tail[|digits| + 1..] == url;
  }

  lemma NoHostInPrefix(digits: string, url: string)
    requires forall k :: 0 <= k < |digits| ==> IsDigit(digits[k])
    requires !Contains(url, ArchiveHost)
    ensures !Contains("/web/" + digits + "/" + url, ArchiveHost)
  {
    var c := "/web/" + digits + "/" + url;
    var n := |digits| + 6;
    assert c[n..] == url;
    if Contains(c, ArchiveHost) {
      var i := ContainsIndex(c, ArchiveHost);
      assert ArchiveHost[0] == 'w' && ArchiveHost[3] == '.';
      assert c[i] == c[i..i + |ArchiveHost|][0];
      assert c[i + 3] == c[i..i + |ArchiveHost|][3];
      if i < 5 {
        assert false;
      } else if i < n - 1 {
        assert false;
      } else if i == n - 1 {
        assert false;
      } else {
        assert c[i..i + |ArchiveHost|] == c[n..][i - n..i - n + |ArchiveHost|];
        ContainsAt(url, ArchiveHost, i - n);
        assert false;
      }
    }
  }

  /** Normalising a plain candidate with the page stamp gives an address
      that the script's own parser reads back as that candidate and stamp,
      when both are kept verbatim in the pathname `new URL` reports. */
  lemma NormalizeRoundTrip(cand: string, stamp: string)
    requires StartsWith(cand, "http") && Avoids(cand, LineTerminators)
    requires VerbatimInPath(cand) && VerbatimInPath(stamp)
    requires !Contains(cand, ArchiveHost) && EmbeddedAddress(cand).None?
    requires stamp != "" && Avoids(stamp, {'/'}) && stamp != "*"
    ensures NormalizeToArchived(cand, Some(stamp)) == ReplayUrl(stamp, cand)
    ensures ParseScript(NormalizeToArchived(cand, Some(stamp)),
                        Some(UrlParts(ArchiveHost, "/web/" + stamp + "/" + cand)))
         == Parsed(Some(cand), Some(stamp))
  {
    ReplayUrlRoundTrip(stamp, cand);
  }

  // ------------------------------------------------------------ probing

  const MaxProbes := 150
  const Concurrency := 6

  /** What probing one URL reports; `""` is a `null` content type. */
  datatype ProbeResult = ProbeResult(url: string, status: Option<int>, contentType: string)

  /** Probe the first 150 addresses, six at a time. `batches` are the
      slices taken, in order. */
  method ProbeAll(archived: seq<string>, probe: string -> ProbeResult)
    returns (batches: seq<seq<string>>, results: seq<ProbeResult>)
    ensures batches == Chunks(Take(archived, MaxProbes), Concurrency)
    ensures Flatten(batches) == Take(archived, MaxProbes)
    ensures results == Map(Take(archived, MaxProbes), probe)
    ensures |results| <= MaxProbes
  {
    var toProbe := Take(archived, MaxProbes);
    batches, results := [], [];
    var i := 0;
    while i < |toProbe|
      invariant 0 <= i <= |toProbe|
      invariant batches + Chunks(toProbe[i..], Concurrency) == Chunks(toProbe, Concurrency)
      invariant results == Map(toProbe[..i], probe)
      decreases |toProbe| - i
    {
      var next := if i + Concurrency <= |toProbe| then i + Concurrency else |toProbe|;
      var slice := JsSlice(toProbe, i, i + Concurrency);
      SliceIsChunk(toProbe, i, next, Concurrency);
      ChunkStep(toProbe, i, next, Concurrency);
      BatchesStep(batches, slice, Chunks(toProbe[i..], Concurrency), Chunks(toProbe[next..], Concurrency), Chunks(toProbe, Concurrency));
      ResultsStep(toProbe, i, next, results, probe);
      batches := batches + [slice];
      results := results + Map(slice, probe);
      i := next;
    }
    assert toProbe[i..] == [];
    assert toProbe[..i] == toProbe;
  }

  /** The end of the next slice of `width` from `i`. */
  predicate NextEnd(n: nat, i: nat, next: nat, width: nat) {
    next == if i + width <= n then i + width else n
  }

  /** The slice the loop takes at `i` is `xs[i..next]`. */
  lemma SliceIsChunk<T>(xs: seq<T>, i: nat, next: nat, width: nat)
    requires width > 0 && i < |xs| && NextEnd(|xs|, i, next, width)
    ensures JsSlice(xs, i, i + width) == xs[i..next]
  {
  }

  /** One step of the batching loop: the slice at `i` is the first chunk of
      what is left, and the loop resumes where it ends. */
  lemma ChunkStep<T>(xs: seq<T>, i: nat, next: nat, width: nat)
    requires width > 0 && i < |xs| && NextEnd(|xs|, i, next, width)
    ensures Chunks(xs[i..], width) == [xs[i..next]] + Chunks(xs[next..], width)
  {
    var ys := xs[i..];
    if |ys| <= width {
      assert xs[next..] == [];
      assert ys == xs[i..next];
    } else {
      assert ys[..width] == xs[i..next];
      assert ys[width..] == xs[next..];
    }
  }

  lemma BatchesStep<T>(batches: seq<T>, chunk: T, here: seq<T>, rest: seq<T>, all: seq<T>)
    requires here == [chunk] + rest && batches + here == all
    ensures (batches + [chunk]) + rest == all
  {
  }

  lemma ResultsStep<T, U>(xs: seq<T>, i: nat, next: nat, results: seq<U>, probe: T -> U)
    requires i <= next <= |xs| && results == Map(xs[..i], probe)
    ensures results + Map(xs[i..next], probe) == Map(xs[..next], probe)
  {
    assert xs[..next] == xs[..i] + xs[i..next];
    MapAppend(xs[..i], xs[i..next], probe);
  }

  // ------------------------------------------------------------ keep

  /** `r.contentType && /(image|audio|video)\//.test(r.contentType)` */
  predicate IsMedia(r: ProbeResult) {
    r.contentType != "" &&
      (Contains(r.contentType, "image/") || Contains(r.contentType, "audio/") || Contains(r.contentType, "video/"))
  }

  /** The confirmed media items: exactly the probe results with a media
      content type, in probe order. */
  function Keep(results: seq<ProbeResult>): (r: seq<ProbeResult>)
    ensures forall x :: x in r <==> x in results && IsMedia(x)
  {
    Filter(results, IsMedia)
  }

  /** Keeping works result by result, so it keeps the probe order. */
  lemma KeepAppend(a: seq<ProbeResult>, b: seq<ProbeResult>)
    ensures Keep(a + b) == Keep(a) + Keep(b)
  {
    FilterAppend(a, b, IsMedia);
  }
}

=== FILE: grouping.dfy ===
/** Grouping a list by key the way the simple search's results view does it:
    one pass over the list, a map from key to group, a group created with the
    entry that first shows its key, and each position pushed onto its key's
    group. The entries are `(key, info)` pairs; `info` is what a group keeps
    from the entry that created it. */
module Grouping {

  datatype Group<K, V> = Group(key: K, info: V, indices: seq<nat>)

  /** The positions of `es` whose key is `k`, ascending. */
  function IndicesOf<K(==), V>(es: seq<(K, V)>, k: K): seq<nat>
    decreases |es|
  {
    if |es| == 0 then []
    else IndicesOf(es[..|es| - 1], k) + (if es[|es| - 1].0 == k then [|es| - 1] else [])
  }

  predicate Ascending(xs: seq<nat>) {
    forall a, b :: 0 <= a < b < |xs| ==> xs[a] < xs[b]
  }

  /** `IndicesOf` lists only positions with key `k`, in ascending order. */
  lemma {:induction false} IndicesOfSound<K, V>(es: seq<(K, V)>, k: K)
    ensures forall j :: 0 <= j < |IndicesOf(es, k)| ==>
      IndicesOf(es, k)[j] < |es| && es[IndicesOf(es, k)[j]].0 == k
    ensures Ascending(IndicesOf(es, k))
    decreases |es|
  {
    if |es| > 0 {
      var init := es[..|es| - 1];
      IndicesOfSound(init, k);
      var prev := IndicesOf(init, k);
      var r := IndicesOf(es, k);
      assert forall j :: 0 <= j < |prev| ==> r[j] == prev[j];
      forall a, b | 0 <= a < b < |r|
        ensures r[a] < r[b]
      {
        if b == |prev| {
          assert r[a] == prev[a] < |init|;
        }
      }
    }
  }

  /** `IndicesOf` lists every position with key `k`. */
  lemma {:induction false} IndicesOfComplete<K, V>(es: seq<(K, V)>, k: K, i: nat)
    requires i < |es| && es[i].0 == k
    ensures i in IndicesOf(es, k)
    decreases |es|
  {
    if i < |es| - 1 {
      IndicesOfComplete(es[..|es| - 1], k, i);
    }
  }

  /** The group holding key `k`, or -1 (`groupsMap[key]`). */
  function FindKey<K(==), V>(gs: seq<Group<K, V>>, k: K): (r: int)
    ensures -1 <= r < |gs|
    ensures r >= 0 ==> gs[r].key == k
    ensures r < 0 ==> forall a :: 0 <= a < |gs| ==> gs[a].key != k
    decreases |gs|
  {
    if |gs| == 0 then -1
    else if gs[|gs| - 1].key == k then |gs| - 1
    else FindKey(gs[..|gs| - 1], k)
  }

  /** One step of the pass: create the group of `e`'s key if needed, then
      push position `i` onto it. */
  function AddEntry<K(==), V>(gs: seq<Group<K, V>>, e: (K, V), i: nat): seq<Group<K, V>> {
    var a := FindKey(gs, e.0);
    if a < 0 then gs + [Group(e.0, e.1, [i])]
    else gs[a := gs[a].(indices := gs[a].indices + [i])]
  }

  /** The whole pass; the groups come out in creation order. */
  function GroupEntries<K(==), V>(es: seq<(K, V)>): seq<Group<K, V>>
    decreases |es|
  {
    if |es| == 0 then []
    else AddEntry(GroupEntries(es[..|es| - 1]), es[|es| - 1], |es| - 1)
  }

  /** No two groups share a key. */
  predicate KeysDistinct<K(==), V>(gs: seq<Group<K, V>>) {
    forall a, b :: 0 <= a < b < |gs| ==> gs[a].key != gs[b].key
  }

  /** Each group holds every position of its key and nothing else, and the
      info of its first position. */
  ghost predicate GroupsExact<K, V>(gs: seq<Group<K, V>>, es: seq<(K, V)>) {
    forall a :: 0 <= a < |gs| ==>
      && gs[a].indices == IndicesOf(es, gs[a].key)
      && |gs[a].indices| > 0
      && (gs[a].indices[0] < |es| ==> gs[a].info == es[gs[a].indices[0]].1)
  }

  /** Every key that occurs has a group. */
  predicate GroupsCover<K(==), V>(gs: seq<Group<K, V>>, es: seq<(K, V)>) {
    forall i :: 0 <= i < |es| ==> FindKey(gs, es[i].0) >= 0
  }

  /** Groups are ordered by their first position. */
  predicate FirstOrdered<K, V>(gs: seq<Group<K, V>>) {
    forall a, b :: 0 <= a < b < |gs| && |gs[a].indices| > 0 && |gs[b].indices| > 0 ==>
      gs[a].indices[0] < gs[b].indices[0]
  }

  /** What the pass builds from `es`: one group per key that occurs, ordered
      by first occurrence; each holds every position of its key in ascending
      order and the info of the first of them. */
  ghost predicate GroupsOf<K, V>(gs: seq<Group<K, V>>, es: seq<(K, V)>) {
    KeysDistinct(gs) && GroupsExact(gs, es) && GroupsCover(gs, es) && FirstOrdered(gs)
  }

  lemma IndicesOfSnoc<K, V>(es: seq<(K, V)>, k: K)
    requires |es| > 0
    ensures IndicesOf(es, k) == IndicesOf(es[..|es| - 1], k) + (if es[|es| - 1].0 == k then [|es| - 1] else [])
  {
  }

  /** A key without a group has no position yet. */
  lemma AbsentKey<K, V>(gs: seq<Group<K, V>>, es: seq<(K, V)>, k: K)
    requires GroupsCover(gs, es) && FindKey(gs, k) < 0
    ensures IndicesOf(es, k) == []
  {
    if IndicesOf(es, k) != [] {
      KeyOfPosition(gs, es, k);
      assert false;
    }
  }

  lemma KeyOfPosition<K, V>(gs: seq<Group<K, V>>, es: seq<(K, V)>, k: K)
    requires GroupsCover(gs, es) && IndicesOf(es, k) != []
    ensures FindKey(gs, k) >= 0
  {
    IndicesOfSound(es, k);
    var i := IndicesOf(es, k)[0];
    assert es[i].0 == k;
    assert FindKey(gs, es[i].0) >= 0;
  }

  /** Earlier groups start before the new position. */
  lemma FirstsBefore<K, V>(gs: seq<Group<K, V>>, es: seq<(K, V)>)
    requires GroupsExact(gs, es)
    ensures forall a :: 0 <= a < |gs| ==> gs[a].indices[0] < |es|
  {
    forall a | 0 <= a < |gs|
      ensures gs[a].indices[0] < |es|
    {
      IndicesOfSound(es, gs[a].key);
    }
  }

  /** One more entry keeps the groups right. */
  lemma GroupStep<K, V>(gs: seq<Group<K, V>>, es: seq<(K, V)>)
    requires |es| > 0 && GroupsOf(gs, es[..|es| - 1])
    ensures GroupsOf(AddEntry(gs, es[|es| - 1], |es| - 1), es)
  {
    var n := |es| - 1;
    var init := es[..n];
    var e := es[n];
    var a := FindKey(gs, e.0);
    FirstsBefore(gs, init);
    if a < 0 {
      var gs2 := gs + [Group(e.0, e.1, [n])];
      AbsentKey(gs, init, e.0);
      NewExact(gs, es);
      NewCover(gs, es);
      NewShape(gs, e, n);
      assert gs2 == AddEntry(gs, e, n);
    } else {
      var gs2 := gs[a := gs[a].(indices := gs[a].indices + [n])];
      OldExact(gs, es, a);
      OldCover(gs, es, a);
      OldShape(gs, a, n);
      assert gs2 == AddEntry(gs, e, n);
    }
  }

  lemma NewExact<K, V>(gs: seq<Group<K, V>>, es: seq<(K, V)>)
    requires |es| > 0 && GroupsExact(gs, es[..|es| - 1])
    requires FindKey(gs, es[|es| - 1].0) < 0
    requires IndicesOf(es[..|es| - 1], es[|es| - 1].0) == []
    ensures GroupsExact(gs + [Group(es[|es| - 1].0, es[|es| - 1].1, [|es| - 1])], es)
  {
    var n := |es| - 1;
    var e := es[n];
    var gs2 := gs + [Group(e.0, e.1, [n])];
    IndicesOfSnoc(es, e.0);
    forall b | 0 <= b < |gs|
      ensures gs2[b].indices == IndicesOf(es, gs2[b].key)
      ensures gs2[b].indices[0] < |es| ==> gs2[b].info == es[gs2[b].indices[0]].1
    {
      IndicesOfSnoc(es, gs[b].key);
      assert es[..n][gs[b].indices[0]] == es[gs[b].indices[0]] by {
        IndicesOfSound(es[..n], gs[b].key);
      }
    }
  }

  lemma NewCover<K, V>(gs: seq<Group<K, V>>, es: seq<(K, V)>)
    requires |es| > 0 && GroupsCover(gs, es[..|es| - 1])
    requires FindKey(gs, es[|es| - 1].0) < 0
    ensures GroupsCover(gs + [Group(es[|es| - 1].0, es[|es| - 1].1, [|es| - 1])], es)
  {
    var n := |es| - 1;
    var e := es[n];
    var gs2 := gs + [Group(e.0, e.1, [n])];
    assert gs2[..|gs2| - 1] == gs;
    forall i | 0 <= i < n
      ensures FindKey(gs2, es[i].0) >= 0
    {
      assert es[i] == es[..n][i];
    }
  }

  lemma OldExact<K, V>(gs: seq<Group<K, V>>, es: seq<(K, V)>, a: nat)
    requires |es| > 0 && GroupsExact(gs, es[..|es| - 1]) && KeysDistinct(gs)
    requires a < |gs| && gs[a].key == es[|es| - 1].0
    ensures GroupsExact(gs[a := gs[a].(indices := gs[a].indices + [|es| - 1])], es)
  {
    var n := |es| - 1;
    var e := es[n];
    var gs2 := gs[a := gs[a].(indices := gs[a].indices + [n])];
    forall b | 0 <= b < |gs|
      ensures gs2[b].indices == IndicesOf(es, gs2[b].key)
      ensures gs2[b].indices[0] < |es| ==> gs2[b].info == es[gs2[b].indices[0]].1
    {
      IndicesOfSnoc(es, gs[b].key);
      assert es[..n][gs[b].indices[0]] == es[gs[b].indices[0]] by {
        IndicesOfSound(es[..n], gs[b].key);
      }
    }
  }

  lemma OldCover<K, V>(gs: seq<Group<K, V>>, es: seq<(K, V)>, a: nat)
    requires |es| > 0 && GroupsCover(gs, es[..|es| - 1])
    requires a < |gs| && FindKey(gs, es[|es| - 1].0) == a
    ensures GroupsCover(gs[a := gs[a].(indices := gs[a].indices + [|es| - 1])], es)
  {
    var gs2 := gs[a := gs[a].(indices := gs[a].indices + [|es| - 1])];
    assert forall b :: 0 <= b < |gs| ==> gs2[b].key == gs[b].key;
    CoverSnoc(gs, es);
    CoverKept(gs, gs2, es);
  }

  lemma CoverSnoc<K, V>(gs: seq<Group<K, V>>, es: seq<(K, V)>)
    requires |es| > 0 && GroupsCover(gs, es[..|es| - 1]) && FindKey(gs, es[|es| - 1].0) >= 0
    ensures GroupsCover(gs, es)
  {
    forall i | 0 <= i < |es| - 1
      ensures FindKey(gs, es[i].0) >= 0
    {
      assert es[i] == es[..|es| - 1][i];
    }
  }

  lemma CoverKept<K, V>(gs: seq<Group<K, V>>, gs2: seq<Group<K, V>>, es: seq<(K, V)>)
    requires |gs| == |gs2| && forall b :: 0 <= b < |gs| ==> gs2[b].key == gs[b].key
    requires GroupsCover(gs, es)
    ensures GroupsCover(gs2, es)
  {
    forall i | 0 <= i < |es|
      ensures FindKey(gs2, es[i].0) >= 0
    {
      KeyKept(gs, gs2, es[i].0);
    }
  }

  /** A new group with a new key and a later position keeps keys distinct
      and groups ordered. */
  lemma NewShape<K, V>(gs: seq<Group<K, V>>, e: (K, V), n: nat)
    requires KeysDistinct(gs) && FirstOrdered(gs) && FindKey(gs, e.0) < 0
    requires forall a :: 0 <= a < |gs| && |gs[a].indices| > 0 ==> gs[a].indices[0] < n
    ensures KeysDistinct(gs + [Group(e.0, e.1, [n])]) && FirstOrdered(gs + [Group(e.0, e.1, [n])])
  {
  }

  /** Pushing onto an existing group changes no key and no first position. */
  lemma OldShape<K, V>(gs: seq<Group<K, V>>, a: nat, n: nat)
    requires KeysDistinct(gs) && FirstOrdered(gs) && a < |gs| && |gs[a].indices| > 0
    ensures KeysDistinct(gs[a := gs[a].(indices := gs[a].indices + [n])])
    ensures FirstOrdered(gs[a := gs[a].(indices := gs[a].indices + [n])])
  {
    var gs2 := gs[a := gs[a].(indices := gs[a].indices + [n])];
    assert forall b :: 0 <= b < |gs| && |gs[b].indices| > 0 ==> gs2[b].indices[0] == gs[b].indices[0];
  }

  /** Changing groups' members, not their keys, keeps every key found. */
  lemma {:induction false} KeyKept<K, V>(gs: seq<Group<K, V>>, gs2: seq<Group<K, V>>, k: K)
    requires |gs| == |gs2| && forall b :: 0 <= b < |gs| ==> gs2[b].key == gs[b].key
    ensures FindKey(gs2, k) == FindKey(gs, k)
    decreases |gs|
  {
    if |gs| > 0 {
      KeyKept(gs[..|gs| - 1], gs2[..|gs2| - 1], k);
    }
  }

  /** The pass builds exactly the groups of `es`. */
  lemma {:induction false} GroupEntriesSpec<K, V>(es: seq<(K, V)>)
    ensures GroupsOf(GroupEntries(es), es)
    decreases |es|
  {
    if |es| > 0 {
      GroupEntriesSpec(es[..|es| - 1]);
      GroupStep(GroupEntries(es[..|es| - 1]), es);
    }
  }

  /** Every position lands in exactly one group: the one of its key. */
  lemma GroupsPartition<K, V>(es: seq<(K, V)>, i: nat)
    requires i < |es|
    ensures FindKey(GroupEntries(es), es[i].0) >= 0
    ensures forall a :: 0 <= a < |GroupEntries(es)| ==>
      (i in GroupEntries(es)[a].indices <==> GroupEntries(es)[a].key == es[i].0)
  {
    var gs := GroupEntries(es);
    GroupEntriesSpec(es);
    forall a | 0 <= a < |gs|
      ensures i in gs[a].indices <==> gs[a].key == es[i].0
    {
      IndicesOfSound(es, gs[a].key);
      if gs[a].key == es[i].0 {
        IndicesOfComplete(es, es[i].0, i);
      }
    }
  }
}

=== FILE: items.dfy ===
/** The result record the main process hands to the renderer for every
    archived capture, and what the two Wayback search views do alike with a
    list of them: the type filter choice, the file name a capture is saved
    under, and the selected captures a bulk download takes. JavaScript's
    `null`/`undefined` text fields are the empty string here: every reader of
    them only asks whether they are truthy. */
module Items {
  import opened Opt
  import opened Strs
  import opened Seqs

  datatype ResourceItem = ResourceItem(
    timestamp: string,
    original: string,
    mimetype: string,
    archived: string,
    length: int,
    groupTitle: string,
    groupYear: string)

  /** The type selector's values `all`, `images`, `media`, `documents`. */
  datatype MediaKind = AllTypes | Images | Media | Documents

  /** `${it.timestamp || ''}_${it.original.split('/').pop()}` */
  function CaptureFileName(item: ResourceItem): (r: string)
    ensures StartsWith(r, item.timestamp + "_")
    ensures EndsWith(r, LastPart(item.original, {'/'}))
    ensures Avoids(r[|item.timestamp| + 1..], {'/'})
  {
    var last := LastPart(item.original, {'/'});
    var r := item.timestamp + "_" + last;
    assert r[..|item.timestamp| + 1] == item.timestamp + "_";
    assert r[|item.timestamp| + 1..] == last;
    r
  }

  /** `results[idx]`, or `None` for `undefined`. */
  function Lookup(results: seq<ResourceItem>, idx: nat): Option<ResourceItem> {
    if idx < |results| then Some(results[idx]) else None
  }

  /** `Array.from(selected).map(idx => results[idx]).filter(Boolean)`: the
      selected captures in selection order, indices past the end skipped
      (result records are objects, so always truthy). */
  function Picked(results: seq<ResourceItem>, selected: seq<nat>): seq<ResourceItem> {
    Somes(Map(selected, idx => Lookup(results, idx)))
  }

  /** A bulk download takes exactly the results at selected indices. */
  lemma PickedSpec(results: seq<ResourceItem>, selected: seq<nat>)
    ensures forall it :: it in Picked(results, selected) <==>
      exists k :: 0 <= k < |selected| && selected[k] < |results| && results[selected[k]] == it
    ensures |Picked(results, selected)| <= |selected|
  {
    var opts := Map(selected, idx => Lookup(results, idx));
    SomesMembers(opts);
    SomesLength(opts);
    forall it
      ensures Some(it) in opts <==> exists k :: 0 <= k < |selected| && selected[k] < |results| && results[selected[k]] == it
    {
      if Some(it) in opts {
        var k :| 0 <= k < |opts| && opts[k] == Some(it);
        assert Lookup(results, selected[k]) == Some(it);
      }
      if exists k :: 0 <= k < |selected| && selected[k] < |results| && results[selected[k]] == it {
        var k :| 0 <= k < |selected| && selected[k] < |results| && results[selected[k]] == it;
        assert opts[k] == Some(it);
      }
    }
  }

  /** When every selected index is in range, every selection is taken. */
  lemma PickedInRange(results: seq<ResourceItem>, selected: seq<nat>)
    requires forall k :: 0 <= k < |selected| ==> selected[k] < |results|
    ensures |Picked(results, selected)| == |selected|
    ensures forall k :: 0 <= k < |selected| ==> Picked(results, selected)[k] == results[selected[k]]
  {
    var opts := Map(selected, idx => Lookup(results, idx));
    SomesAll(opts);
  }

  /** The detail of one `enqueue-download` event. The id, built from the
      clock and a random number, is left out. */
  datatype Enqueued = Enqueued(archived: string, folder: string, filename: string,
                               groupTitle: string, groupYear: string)

  /** The event sent for one capture saved into `folder`. */
  function EnqueueOf(it: ResourceItem, folder: string): (e: Enqueued)
    ensures e.archived == it.archived && e.folder == folder
    ensures StartsWith(e.filename, it.timestamp + "_")
    ensures Avoids(e.filename[|it.timestamp| + 1..], {'/'})
  {
    Enqueued(it.archived, folder, CaptureFileName(it), it.groupTitle, it.groupYear)
  }

  /** `handleDownloadSelected`: nothing when no card is selected or the
      folder dialog is cancelled (`folder` is then ""); otherwise one event per
      picked capture, in selection order. */
  function BulkDownload(results: seq<ResourceItem>, selected: seq<nat>, folder: string): (r: seq<Enqueued>)
    ensures |selected| == 0 || folder == "" ==> r == []
    ensures |r| <= |selected|
    ensures forall j :: 0 <= j < |r| ==> r[j].folder == folder
  {
    if |selected| == 0 || folder == "" then []
    else
      PickedSpec(results, selected);
      Map(Picked(results, selected), it => EnqueueOf(it, folder))
  }

  /** A bulk download enqueues exactly the captures at selected indices that
      exist: an index past the end is skipped, never turned into an event. */
  lemma BulkDownloadSpec(results: seq<ResourceItem>, selected: seq<nat>, folder: string)
    requires |selected| > 0 && folder != ""
    ensures forall e :: e in BulkDownload(results, selected, folder) <==> FromSelection(results, selected, folder, e)
  {
    forall e
      ensures e in BulkDownload(results, selected, folder) ==> FromSelection(results, selected, folder, e)
    {
      if e in BulkDownload(results, selected, folder) {
        BulkSound(results, selected, folder, e);
      }
    }
    forall e | FromSelection(results, selected, folder, e)
      ensures e in BulkDownload(results, selected, folder)
    {
      var k :| 0 <= k < |selected| && selected[k] < |results| && e == EnqueueOf(results[selected[k]], folder);
      BulkComplete(results, selected, folder, k);
    }
  }

  /** `e` is the event of some selected capture that exists. */
  predicate FromSelection(results: seq<ResourceItem>, selected: seq<nat>, folder: string, e: Enqueued) {
    exists k :: 0 <= k < |selected| && selected[k] < |results| && e == EnqueueOf(results[selected[k]], folder)
  }

  lemma BulkSound(results: seq<ResourceItem>, selected: seq<nat>, folder: string, e: Enqueued)
    requires |selected| > 0 && folder != ""
    requires e in BulkDownload(results, selected, folder)
    ensures FromSelection(results, selected, folder, e)
  {
    var picked := Picked(results, selected);
    var r := BulkDownload(results, selected, folder);
    var j :| 0 <= j < |r| && r[j] == e;
    PickedSpec(results, selected);
    assert picked[j] in picked;
  }

  lemma BulkComplete(results: seq<ResourceItem>, selected: seq<nat>, folder: string, k: nat)
    requires |selected| > 0 && folder != ""
    requires k < |selected| && selected[k] < |results|
    ensures EnqueueOf(results[selected[k]], folder) in BulkDownload(results, selected, folder)
  {
    var picked := Picked(results, selected);
    var r := BulkDownload(results, selected, folder);
    PickedSpec(results, selected);
    assert results[selected[k]] in picked;
    var j :| 0 <= j < |picked| && picked[j] == results[selected[k]];
    assert r[j] == EnqueueOf(results[selected[k]], folder);
  }

  /** A selection that has outlived its results (an error reply empties the
      list but keeps the selection) enqueues nothing. */
  lemma StaleSelectionEnqueuesNothing(selected: seq<nat>, folder: string)
    ensures BulkDownload([], selected, folder) == []
  {
    if |selected| > 0 && folder != "" {
      var empty: seq<ResourceItem> := [];
      SomesNone(Map(selected, idx => Lookup(empty, idx)));
    }
  }

  /** What `window.api.fetchResources` gives a view: a reply with an `error`
      field, a reply with an `items` list (a missing list read as empty), or
      a rejected call. */
  datatype Reply = ErrorReply | ItemsReply(items: seq<ResourceItem>) | Rejected
}

=== FILE: numerals.dfy ===
/** Decimal text for integers (`String(n)`, template-literal interpolation)
    and JavaScript's `parseInt(s) || 0`. */
module Numerals {
  import opened Strs

  predicate IsDigit(c: char) {
    '0' <= c <= '9'
  }

  predicate IsHexDigit(c: char) {
    IsDigit(c) || 'a' <= c <= 'f' || 'A' <= c <= 'F'
  }

  function DigitValue(c: char): nat
    requires IsHexDigit(c)
  {
    if IsDigit(c) then c as int - '0' as int
    else if 'a' <= c <= 'f' then c as int - 'a' as int + 10
    else c as int - 'A' as int + 10
  }

  function DigitChar(d: nat): (c: char)
    requires d < 10
    ensures IsDigit(c) && DigitValue(c) == d
  {
    (d + '0' as int) as char
  }

  /** `String(n)` for a non-negative integer. */
  function NatToString(n: nat): (r: string)
    ensures |r| >= 1
    ensures forall i :: 0 <= i < |r| ==> IsDigit(r[i])
    ensures |r| > 1 ==> r[0] != '0'
  {
    if n < 10 then [DigitChar(n)] else NatToString(n / 10) + [DigitChar(n % 10)]
  }

  /** `String(n)` for any integer. */
  function IntToString(n: int): string {
    if n < 0 then "-" + NatToString(-n) else NatToString(n)
  }

  /** The value of a run of digits in base `radix`. */
  function RunValue(s: string, radix: nat): nat
    requires forall i :: 0 <= i < |s| ==> IsHexDigit(s[i])
    decreases |s|
  {
    if |s| == 0 then 0 else RunValue(s[..|s| - 1], radix) * radix + DigitValue(s[|s| - 1])
  }

  /** `parseInt(s) || 0` (no radix argument): skip leading white space, read
      an optional sign, then a `0x`/`0X` hexadecimal run or a decimal run;
      with no digits `parseInt` gives NaN and `|| 0` turns it into 0. */
  function ParseIntOrZero(s: string): int {
    var t := TrimStart(s);
    var neg := |t| > 0 && t[0] == '-';
    var u := if |t| > 0 && (t[0] == '-' || t[0] == '+') then t[1..] else t;
    var magnitude :=
      if |u| >= 2 && u[0] == '0' && (u[1] == 'x' || u[1] == 'X') then
        RunValue(PrefixWhile(u[2..], IsHexDigit), 16)
      else
        RunValue(PrefixWhile(u, IsDigit), 10);
    if neg then -magnitude else magnitude
  }

  /** Reading back the decimal text of a number gives the number. */
  lemma {:induction false} RunValueOfNatToString(n: nat)
    ensures RunValue(NatToString(n), 10) == n
  {
    if n >= 10 {
      RunValueOfNatToString(n / 10);
      var s := NatToString(n);
      assert s[..|s| - 1] == NatToString(n / 10);
    }
  }

  /** A CDX `length` field written by `String(n)` is read back as `n`. */
  lemma ParseIntRoundTrip(n: nat)
    ensures ParseIntOrZero(NatToString(n)) == n
  {
    var s := NatToString(n);
    assert TrimStart(s) == s;
    var d := PrefixWhile(s, IsDigit);
    PrefixAll(s, IsDigit);
    RunValueOfNatToString(n);
  }

  /** A field with no leading digits reads as 0. */
  lemma ParseIntNoDigits(s: string)
    requires |s| > 0 && !IsDigit(s[0]) && !IsSpace(s[0]) && s[0] != '-' && s[0] != '+'
    ensures ParseIntOrZero(s) == 0
  {
  }
}

=== FILE: opt.dfy ===
/** The Some/None wrapper used wherever the JavaScript code has `null`,
    `undefined`, or a call that may throw. */
module Opt {

  datatype Option<+T> = None | Some(value: T) {

    /** The wrapped value, or `default` when there is none. */
    function GetOr(default: T): T {
      match this
      case Some(v) => v
      case None => default
    }
  }
}

=== FILE: selection.dfy ===
/** The selection of result cards: a JavaScript `Set` of card indices, held
    here as the list of its members in insertion order (the order
    `Array.from` reads them in). Clicking a card copies the set and toggles
    that card's index, in the results grid and in the grouped view of the
    simple search alike. */
module Selection {
  import opened Seqs

  /** A set's members are listed once each. */
  predicate Distinct(sel: seq<nat>) {
    forall i, j :: 0 <= i < j < |sel| ==> sel[i] != sel[j]
  }

  /** `sel` without `idx`, order kept. */
  function Remove(sel: seq<nat>, idx: nat): (r: seq<nat>)
    ensures forall j :: j in r <==> j in sel && j != idx
    ensures |r| <= |sel|
    decreases |sel|
  {
    if |sel| == 0 then []
    else (if sel[0] == idx then [] else [sel[0]]) + Remove(sel[1..], idx)
  }

  lemma {:induction false} RemoveAbsent(sel: seq<nat>, idx: nat)
    requires idx !in sel
    ensures Remove(sel, idx) == sel
    decreases |sel|
  {
    if |sel| > 0 {
      RemoveAbsent(sel[1..], idx);
    }
  }

  lemma {:induction false} RemoveAppend(a: seq<nat>, b: seq<nat>, idx: nat)
    ensures Remove(a + b, idx) == Remove(a, idx) + Remove(b, idx)
    decreases |a|
  {
    if |a| == 0 {
      assert a + b == b;
    } else {
      RemoveAppend(a[1..], b, idx);
      var head := if a[0] == idx then [] else [a[0]];
      assert (a + b)[0] == a[0];
      assert (a + b)[1..] == a[1..] + b;
      calc {
        Remove(a + b, idx);
        head + Remove((a + b)[1..], idx);
        head + (Remove(a[1..], idx) + Remove(b, idx));
        (head + Remove(a[1..], idx)) + Remove(b, idx);
      }
    }
  }

  /** `new Set(sel)` then `delete(idx)` when present, else `add(idx)`. */
  function Toggle(sel: seq<nat>, idx: nat): (r: seq<nat>)
    ensures forall j :: j in r <==> (j in sel) != (j == idx)
  {
    if idx in sel then Remove(sel, idx) else sel + [idx]
  }

  /** Deleting a member of a distinct list takes out its one position. */
  lemma RemoveMember(sel: seq<nat>, k: nat)
    requires Distinct(sel) && k < |sel|
    ensures Remove(sel, sel[k]) == sel[..k] + sel[k + 1..]
  {
    OnlyOnce(sel, k);
    SplitAround(sel, k);
    RemoveSplice(sel[..k], sel[k], sel[k + 1..]);
  }

  lemma SplitAround<T>(xs: seq<T>, k: nat)
    requires k < |xs|
    ensures xs == xs[..k] + ([xs[k]] + xs[k + 1..])
  {
  }

  /** Removing the one occurrence between `pre` and `post` joins them. */
  lemma RemoveSplice(pre: seq<nat>, idx: nat, post: seq<nat>)
    requires idx !in pre && idx !in post
    ensures Remove(pre + ([idx] + post), idx) == pre + post
  {
    RemoveAppend(pre, [idx] + post, idx);
    RemoveAbsent(pre, idx);
    RemoveOne(idx, post);
  }

  lemma RemoveOne(idx: nat, post: seq<nat>)
    requires idx !in post
    ensures Remove([idx] + post, idx) == post
  {
    RemoveAppend([idx], post, idx);
    assert Remove([idx], idx) == [];
    RemoveAbsent(post, idx);
  }

  lemma OnlyOnce(sel: seq<nat>, k: nat)
    requires Distinct(sel) && k < |sel|
    ensures sel[k] !in sel[..k] && sel[k] !in sel[k + 1..]
  {
    var pre, post := sel[..k], sel[k + 1..];
    forall i | 0 <= i < |pre| ensures pre[i] != sel[k] { assert pre[i] == sel[i]; }
    forall i | 0 <= i < |post| ensures post[i] != sel[k] { assert post[i] == sel[k + 1 + i]; }
  }

  /** Cutting one position out of a distinct list keeps it distinct. */
  lemma CutDistinct(sel: seq<nat>, k: nat)
    requires Distinct(sel) && k < |sel|
    ensures Distinct(sel[..k] + sel[k + 1..])
  {
    var r := sel[..k] + sel[k + 1..];
    forall a, b | 0 <= a < b < |r|
      ensures r[a] != r[b]
    {
      var a' := if a < k then a else a + 1;
      var b' := if b < k then b else b + 1;
      assert r[a] == sel[a'] && r[b] == sel[b'];
    }
  }

  /** Toggling keeps the members distinct, and keeps the order of the
      members it leaves in place; an added index comes last. */
  lemma ToggleShape(sel: seq<nat>, idx: nat)
    requires Distinct(sel)
    ensures Distinct(Toggle(sel, idx))
    ensures idx in sel ==> exists k :: 0 <= k < |sel| && Toggle(sel, idx) == sel[..k] + sel[k + 1..]
    ensures idx !in sel ==> Toggle(sel, idx) == sel + [idx]
  {
    if idx in sel {
      var k :| 0 <= k < |sel| && sel[k] == idx;
      RemoveMember(sel, k);
      CutDistinct(sel, k);
    }
  }

  /** Toggling an index that was not selected twice gives back the same
      selection; one that was selected comes back as a member again, now
      last, so the same set. */
  lemma ToggleTwice(sel: seq<nat>, idx: nat)
    ensures forall j :: j in Toggle(Toggle(sel, idx), idx) <==> j in sel
    ensures idx !in sel ==> Toggle(Toggle(sel, idx), idx) == sel
  {
    if idx !in sel {
      RemoveAppend(sel, [idx], idx);
      RemoveAbsent(sel, idx);
    }
  }
}

=== FILE: seqs.dfy ===
/** Sequence operations shared by the model: JavaScript's `filter`, `map`,
    `slice` and `indexOf`, concatenation of a list of lists, fixed-width
    chunking, and order-preserving de-duplication by a key (the behaviour of
    a JavaScript `Set` filled in order, or of a `seen` set consulted before
    each push). */
module Seqs {
  import opened Opt

  // ---------------------------------------------------------------- filter

  /** `xs.filter(p)` */
  function Filter<T>(xs: seq<T>, p: T -> bool): (r: seq<T>)
    ensures |r| <= |xs|
    ensures forall i :: 0 <= i < |r| ==> p(r[i]) && r[i] in xs
    ensures forall i :: 0 <= i < |xs| && p(xs[i]) ==> xs[i] in r
    decreases |xs|
  {
    if |xs| == 0 then []
    else (if p(xs[0]) then [xs[0]] else []) + Filter(xs[1..], p)
  }

  /** Filtering works piecewise, so it keeps the relative order of what it
      keeps. */
  lemma {:induction false} FilterAppend<T>(xs: seq<T>, ys: seq<T>, p: T -> bool)
    ensures Filter(xs + ys, p) == Filter(xs, p) + Filter(ys, p)
    decreases |xs|
  {
    if |xs| == 0 {
      assert xs + ys == ys;
    } else {
      FilterAppend(xs[1..], ys, p);
      var head := if p(xs[0]) then [xs[0]] else [];
      assert (xs + ys)[0] == xs[0];
      assert (xs + ys)[1..] == xs[1..] + ys;
      calc {
        Filter(xs + ys, p);
        head + Filter((xs + ys)[1..], p);
        head + (Filter(xs[1..], p) + Filter(ys, p));
        (head + Filter(xs[1..], p)) + Filter(ys, p);
      }
    }
  }

  /** A filter that keeps everything is the identity. */
  lemma {:induction false} FilterAll<T>(xs: seq<T>, p: T -> bool)
    requires forall i :: 0 <= i < |xs| ==> p(xs[i])
    ensures Filter(xs, p) == xs
    decreases |xs|
  {
    if |xs| > 0 {
      FilterAll(xs[1..], p);
    }
  }

  /** `xs.filter(p).length` */
  function Count<T>(xs: seq<T>, p: T -> bool): nat {
    |Filter(xs, p)|
  }

  /** Two predicates that never hold together count no more than the whole. */
  lemma {:induction false} CountDisjoint<T>(xs: seq<T>, p: T -> bool, q: T -> bool)
    requires forall x :: !(p(x) && q(x))
    ensures Count(xs, p) + Count(xs, q) <= |xs|
    decreases |xs|
  {
    if |xs| > 0 {
      CountDisjoint(xs[1..], p, q);
    }
  }

  /** Some element is counted exactly when some element has the property. */
  lemma CountPositive<T>(xs: seq<T>, p: T -> bool)
    ensures Count(xs, p) > 0 <==> exists k :: 0 <= k < |xs| && p(xs[k])
  {
    if Count(xs, p) > 0 {
      var x := Filter(xs, p)[0];
      var k :| 0 <= k < |xs| && xs[k] == x;
    }
  }

  // ---------------------------------------------------------------- map

  /** `xs.map(f)` */
  function Map<T, U>(xs: seq<T>, f: T -> U): (r: seq<U>)
    ensures |r| == |xs|
    ensures forall i :: 0 <= i < |xs| ==> r[i] == f(xs[i])
  {
    seq(|xs|, i requires 0 <= i < |xs| => f(xs[i]))
  }

  lemma MapAppend<T, U>(xs: seq<T>, ys: seq<T>, f: T -> U)
    ensures Map(xs + ys, f) == Map(xs, f) + Map(ys, f)
  {
  }

  /** The concatenation of `f(x)` over `xs`, in order (`xs.flatMap(f)`). */
  function FlatMap<T, U>(xs: seq<T>, f: T -> seq<U>): seq<U>
    decreases |xs|
  {
    if |xs| == 0 then [] else FlatMap(xs[..|xs| - 1], f) + f(xs[|xs| - 1])
  }

  lemma {:induction false} FlatMapAppend<T, U>(xs: seq<T>, ys: seq<T>, f: T -> seq<U>)
    ensures FlatMap(xs + ys, f) == FlatMap(xs, f) + FlatMap(ys, f)
    decreases |ys|
  {
    if |ys| == 0 {
      assert xs + ys == xs;
    } else {
      var ys' := ys[..|ys| - 1];
      FlatMapAppend(xs, ys', f);
      assert (xs + ys)[..|xs + ys| - 1] == xs + ys';
      assert (xs + ys)[|xs + ys| - 1] == ys[|ys| - 1];
    }
  }

  /** Each present value, in order. */
  function Somes<T>(xs: seq<Option<T>>): seq<T>
    decreases |xs|
  {
    if |xs| == 0 then []
    else Somes(xs[..|xs| - 1]) + (if xs[|xs| - 1].Some? then [xs[|xs| - 1].value] else [])
  }

  /** `Somes` keeps exactly the present values. */
  lemma {:induction false} SomesMembers<T>(xs: seq<Option<T>>)
    ensures forall v :: v in Somes(xs) <==> Some(v) in xs
    decreases |xs|
  {
    if |xs| > 0 {
      var init := xs[..|xs| - 1];
      SomesMembers(init);
      assert xs == init + [xs[|xs| - 1]];
      forall v
        ensures v in Somes(xs) <==> Some(v) in xs
      {
        assert Some(v) in xs <==> Some(v) in init || Some(v) == xs[|xs| - 1];
      }
    }
  }

  lemma {:induction false} SomesLength<T>(xs: seq<Option<T>>)
    ensures |Somes(xs)| <= |xs|
    decreases |xs|
  {
    if |xs| > 0 {
      SomesLength(xs[..|xs| - 1]);
    }
  }

  /** With every value missing, `Somes` is empty. */
  lemma {:induction false} SomesNone<T>(xs: seq<Option<T>>)
    requires forall k :: 0 <= k < |xs| ==> xs[k].None?
    ensures Somes(xs) == []
    decreases |xs|
  {
    if |xs| > 0 {
      SomesNone(xs[..|xs| - 1]);
    }
  }

  /** With no value missing, `Somes` only unwraps. */
  lemma {:induction false} SomesAll<T>(xs: seq<Option<T>>)
    requires forall k :: 0 <= k < |xs| ==> xs[k].Some?
    ensures |Somes(xs)| == |xs|
    ensures forall k :: 0 <= k < |xs| ==> Somes(xs)[k] == xs[k].value
    decreases |xs|
  {
    if |xs| > 0 {
      SomesAll(xs[..|xs| - 1]);
    }
  }

  /** The first position `j` in `i..n` at which `at` finds something, with
      what it found: the leftmost-match rule of a regular expression search,
      `at(j)` being the match attempt starting at `j`. */
  function FirstSome<T>(at: nat -> Option<T>, i: nat, n: nat): (r: Option<(nat, T)>)
    ensures r.Some? ==> i <= r.value.0 <= n && at(r.value.0) == Some(r.value.1)
    ensures r.Some? ==> forall j :: i <= j < r.value.0 ==> at(j).None?
    ensures r.None? ==> forall j :: i <= j <= n ==> at(j).None?
    decreases n - i
  {
    if i > n then None
    else if at(i).Some? then Some((i, at(i).value))
    else FirstSome(at, i + 1, n)
  }

  // ---------------------------------------------------------------- slices

  /** `xs.slice(0, n)` for a non-negative `n`. */
  function Take<T>(xs: seq<T>, n: nat): (r: seq<T>)
    ensures |r| == if n <= |xs| then n else |xs|
    ensures r == xs[..|r|]
  {
    if n <= |xs| then xs[..n] else xs
  }

  /** How `slice` reads one of its arguments: negative positions count from
      the end, and everything is clamped to `[0, n]`. */
  function JsIndex(i: int, n: nat): (r: nat)
    ensures r <= n
  {
    if i < 0 then (if n + i < 0 then 0 else n + i)
    else if i > n then n
    else i
  }

  /** `xs.slice(start, end)` */
  function JsSlice<T>(xs: seq<T>, start: int, end: int): seq<T> {
    var s := JsIndex(start, |xs|);
    var e := JsIndex(end, |xs|);
    if s < e then xs[s..e] else []
  }

  /** `xs.indexOf(x)`: the first position of `x`, or -1. */
  function IndexOf<T(==)>(xs: seq<T>, x: T): (r: int)
    ensures -1 <= r < |xs|
    ensures r >= 0 ==> xs[r] == x && x !in xs[..r]
    ensures r < 0 <==> x !in xs
    decreases |xs|
  {
    if |xs| == 0 then -1
    else if xs[0] == x then 0
    else
      var k := IndexOf(xs[1..], x);
      assert xs[1..][..if k < 0 then 0 else k] == xs[1..if k < 0 then 1 else k + 1];
      if k < 0 then -1 else k + 1
  }

  // ---------------------------------------------------------------- flatten

  /** The concatenation of a list of lists. */
  function Flatten<T>(xss: seq<seq<T>>): seq<T>
    decreases |xss|
  {
    if |xss| == 0 then [] else xss[0] + Flatten(xss[1..])
  }

  lemma {:induction false} FlattenAppend<T>(xss: seq<seq<T>>, yss: seq<seq<T>>)
    ensures Flatten(xss + yss) == Flatten(xss) + Flatten(yss)
    decreases |xss|
  {
    if |xss| == 0 {
      assert xss + yss == yss;
    } else {
      FlattenAppend(xss[1..], yss);
      assert (xss + yss)[1..] == xss[1..] + yss;
    }
  }

  /** `xs` cut into consecutive slices of `width` elements; only the last may
      be shorter. */
  function Chunks<T>(xs: seq<T>, width: nat): (r: seq<seq<T>>)
    requires width > 0
    ensures forall k :: 0 <= k < |r| ==> 0 < |r[k]| <= width
    ensures forall k :: 0 <= k < |r| - 1 ==> |r[k]| == width
    ensures Flatten(r) == xs
    decreases |xs|
  {
    if |xs| == 0 then []
    else if |xs| <= width then
      assert Flatten([xs]) == xs + [];
      [xs]
    else
      var rest := Chunks(xs[width..], width);
      assert xs == xs[..width] + xs[width..];
      [xs[..width]] + rest
  }

  // ---------------------------------------------------------------- dedup

  /** The set of keys of the elements of `xs`. */
  function KeysOf<T, K(==)>(xs: seq<T>, key: T -> K): set<K> {
    set i | 0 <= i < |xs| :: key(xs[i])
  }

  lemma KeysOfSnoc<T, K>(xs: seq<T>, x: T, key: T -> K)
    ensures KeysOf(xs + [x], key) == KeysOf(xs, key) + {key(x)}
  {
    var ys := xs + [x];
    forall k | k in KeysOf(ys, key)
      ensures k in KeysOf(xs, key) + {key(x)}
    {
      var i :| 0 <= i < |ys| && key(ys[i]) == k;
      if i < |xs| {
        assert ys[i] == xs[i];
      }
    }
    forall k | k in KeysOf(xs, key) + {key(x)}
      ensures k in KeysOf(ys, key)
    {
      if k == key(x) {
        assert key(ys[|xs|]) == k;
      } else {
        var i :| 0 <= i < |xs| && key(xs[i]) == k;
        assert key(ys[i]) == k;
      }
    }
  }

  /** No two positions of `xs` carry the same key. */
  ghost predicate UniqueKeys<T, K>(xs: seq<T>, key: T -> K) {
    forall i, j :: 0 <= i < j < |xs| ==> key(xs[i]) != key(xs[j])
  }

  /** `xs[i]` is the first element of `xs` with its key. */
  ghost predicate FirstOfKey<T, K>(xs: seq<T>, key: T -> K, i: int) {
    0 <= i < |xs| && key(xs[i]) !in KeysOf(xs[..i], key)
  }

  /** Keep each element whose key has not been seen before: a `seen` set
      consulted before each push, so the first occurrence of a key wins and
      the survivors stay in input order. */
  function DedupBy<T, K(==)>(xs: seq<T>, key: T -> K): seq<T>
    decreases |xs|
  {
    if |xs| == 0 then []
    else
      var d := DedupBy(xs[..|xs| - 1], key);
      var x := xs[|xs| - 1];
      if key(x) in KeysOf(d, key) then d else d + [x]
  }

  /** Adding one element to the input adds it to the output exactly when its
      key is new. */
  lemma DedupSnoc<T, K>(xs: seq<T>, x: T, key: T -> K)
    ensures DedupBy(xs + [x], key) ==
      if key(x) in KeysOf(DedupBy(xs, key), key) then DedupBy(xs, key) else DedupBy(xs, key) + [x]
  {
    assert (xs + [x])[..|xs|] == xs;
  }

  /** De-duplication keeps elements of the input and loses no key. */
  lemma {:induction false} DedupKeys<T, K>(xs: seq<T>, key: T -> K)
    ensures forall i :: 0 <= i < |DedupBy(xs, key)| ==> DedupBy(xs, key)[i] in xs
    ensures KeysOf(DedupBy(xs, key), key) == KeysOf(xs, key)
    decreases |xs|
  {
    if |xs| > 0 {
      var init := xs[..|xs| - 1];
      var x := xs[|xs| - 1];
      DedupKeys(init, key);
      assert xs == init + [x];
      var d := DedupBy(init, key);
      KeysOfSnoc(init, x, key);
      KeysOfSnoc(d, x, key);
    }
  }

  /** No two survivors share a key. */
  lemma {:induction false} DedupUnique<T, K>(xs: seq<T>, key: T -> K)
    ensures UniqueKeys(DedupBy(xs, key), key)
    decreases |xs|
  {
    if |xs| > 0 {
      var init := xs[..|xs| - 1];
      var x := xs[|xs| - 1];
      DedupUnique(init, key);
      var d := DedupBy(init, key);
      if key(x) !in KeysOf(d, key) {
        var r := d + [x];
        forall i, j | 0 <= i < j < |r|
          ensures key(r[i]) != key(r[j])
        {
          if j == |d| {
            assert key(r[i]) in KeysOf(d, key);
          }
        }
      }
    }
  }

  /** The first element carrying each key survives. */
  lemma {:induction false} DedupFirst<T, K>(xs: seq<T>, key: T -> K, i: int)
    requires FirstOfKey(xs, key, i)
    ensures xs[i] in DedupBy(xs, key)
    decreases |xs|
  {
    var init := xs[..|xs| - 1];
    var x := xs[|xs| - 1];
    var d := DedupBy(init, key);
    if i < |xs| - 1 {
      assert xs[..i] == init[..i];
      DedupFirst(init, key, i);
    } else {
      assert xs[..i] == init;
      DedupKeys(init, key);
    }
  }

  /** The check-then-push loop over `xs`, continuing a de-duplication that
      has already consumed `before` into `items0` with key set `seen0`. */
  method PushNew<T, K(==)>(before: seq<T>, xs: seq<T>, key: T -> K, items0: seq<T>, seen0: set<K>)
    returns (items: seq<T>, seen: set<K>)
    requires items0 == DedupBy(before, key) && seen0 == KeysOf(items0, key)
    ensures items == DedupBy(before + xs, key)
    ensures seen == KeysOf(items, key)
  {
    items, seen := items0, seen0;
    var j := 0;
    assert before + xs[..0] == before;
    while j < |xs|
      invariant 0 <= j <= |xs|
      invariant items == DedupBy(before + xs[..j], key)
      invariant seen == KeysOf(items, key)
    {
      var x := xs[j];
      assert before + xs[..j + 1] == (before + xs[..j]) + [x];
      DedupSnoc(before + xs[..j], x, key);
      if key(x) !in seen {
        KeysOfSnoc(items, x, key);
        seen := seen + {key(x)};
        items := items + [x];
      }
      j := j + 1;
    }
    assert xs[..j] == xs;
  }

  /** Everything the check-then-push loop promises: unique keys, survivors
      drawn from the input, every key kept, and the first element of each key
      being the one kept. */
  lemma DedupSpec<T, K>(xs: seq<T>, key: T -> K)
    ensures UniqueKeys(DedupBy(xs, key), key)
    ensures forall y :: y in DedupBy(xs, key) ==> y in xs
    ensures KeysOf(DedupBy(xs, key), key) == KeysOf(xs, key)
    ensures forall i :: FirstOfKey(xs, key, i) ==> xs[i] in DedupBy(xs, key)
  {
    DedupKeys(xs, key);
    DedupUnique(xs, key);
    forall i | FirstOfKey(xs, key, i)
      ensures xs[i] in DedupBy(xs, key)
    {
      DedupFirst(xs, key, i);
    }
  }
}

=== FILE: simple_search.dfy ===
/** The simple Wayback search view: the request it sends for a URL or
    domain, the type filter it applies to the returned captures, how it lays
    the results out in groups, and what a reply does to its results and
    selection. */
module SimpleSearch {
  import opened Opt
  import opened Strs
  import opened Seqs
  import opened Items
  import opened WaybackInput
  import opened Grouping
  import CdxSearch
  import Selection

  // ---------------------------------------------------------------- request

  /** The `filters` object sent along: `{}` for a Wayback link, the two date
      fields and the capture limit otherwise. */
  datatype SimpleFilters = NoFilters | DateLimit(from: string, to: string, limit: int)

  datatype Request = Request(url: string, filters: SimpleFilters)

  /** `handleSearch` up to the call: a blank input sends nothing; the input
      goes out untrimmed, with the date filters only when it is not already
      a Wayback link. */
  function SimpleRequest(url: string, from: string, to: string, limit: int): (r: Option<Request>)
    ensures r.None? <==> AllSpace(url)
    ensures r.Some? ==> r.value.url == url
    ensures r.Some? ==> (r.value.filters == NoFilters <==> Contains(url, ArchiveHost))
  {
    if Trim(url) == "" then None
    else if Contains(url, ArchiveHost) then Some(Request(url, NoFilters))
    else Some(Request(url, DateLimit(from, to, limit)))
  }

  /** The filters as the `fetch-resources` handler reads them: it looks at
      `from` and `to` only, `{}` having neither. */
  function HandlerFilters(f: SimpleFilters): (r: CdxSearch.Filters)
    ensures f.NoFilters? ==> r.from == "" && r.to == ""
  {
    match f
    case NoFilters => CdxSearch.Filters("", "")
    case DateLimit(from, to, _) => CdxSearch.Filters(from, to)
  }

  /** A Wayback link is looked up with no date bounds, and a domain search
      with exactly the chosen ones; the capture limit never reaches the
      query. */
  lemma RequestBounds(url: string, from: string, to: string, limit: int, original: string)
    requires !AllSpace(url)
    ensures var q := CdxSearch.QueryFor(original, HandlerFilters(SimpleRequest(url, from, to, limit).value.filters));
      && (Contains(url, ArchiveHost) ==> q.from.None? && q.to.None?)
      && (!Contains(url, ArchiveHost) ==> (q.from.Some? <==> from != "") && (q.to.Some? <==> to != ""))
      && q == CdxSearch.QueryFor(original, HandlerFilters(SimpleRequest(url, from, to, limit + 1).value.filters))
  {
  }

  // ---------------------------------------------------------------- type filter

  /** Whether the type selector keeps a capture with this MIME type; the type
      is lowered first, a missing one read as "". */
  predicate SimpleKeeps(kind: MediaKind, mimetype: string) {
    var mime := ToLower(mimetype);
    match kind
    case AllTypes => true
    case Images => StartsWith(mime, "image/")
    case Media => StartsWith(mime, "audio/") || StartsWith(mime, "video/")
    case Documents => Contains(mime, "pdf") || StartsWith(mime, "text/")
  }

  predicate KeptBy(kind: MediaKind, it: ResourceItem) {
    SimpleKeeps(kind, it.mimetype)
  }

  /** The type filter over the returned captures; "all" filters nothing. */
  function TypeFilter(kind: MediaKind, items: seq<ResourceItem>): (r: seq<ResourceItem>)
    ensures |r| <= |items|
    ensures forall it :: it in r <==> it in items && SimpleKeeps(kind, it.mimetype)
    ensures kind == AllTypes ==> r == items
  {
    if kind == AllTypes then items
    else Filter(items, it => KeptBy(kind, it))
  }

  /** The filter works piecewise: it keeps the captures' order and only
      drops captures. */
  lemma TypeFilterAppend(kind: MediaKind, a: seq<ResourceItem>, b: seq<ResourceItem>)
    ensures TypeFilter(kind, a + b) == TypeFilter(kind, a) + TypeFilter(kind, b)
  {
    if kind != AllTypes {
      FilterAppend(a, b, it => KeptBy(kind, it));
    }
  }

  /** The choice ignores the case of the MIME type. */
  lemma SimpleKeepsIgnoresCase(kind: MediaKind, mimetype: string)
    ensures SimpleKeeps(kind, ToLower(mimetype)) == SimpleKeeps(kind, mimetype)
  {
    LowerOfLower(ToLower(mimetype));
  }

  /** Each choice other than "all" keeps the types its name promises:
      `image/...`, `audio/...` and `video/...`, and `text/...` or anything
      with `pdf` in it; a text type is not an image. */
  lemma SimpleKeepsFamilies(sub: string, rest: string)
    ensures SimpleKeeps(Images, "image/" + sub)
    ensures SimpleKeeps(Media, "audio/" + sub) && SimpleKeeps(Media, "video/" + sub)
    ensures SimpleKeeps(Documents, "text/" + sub)
    ensures SimpleKeeps(Documents, sub + "pdf" + rest)
    ensures !SimpleKeeps(Images, "text/" + sub)
  {
    LowerKeepsPrefix("image/", sub);
    LowerKeepsPrefix("audio/", sub);
    LowerKeepsPrefix("video/", sub);
    LowerKeepsPrefix("text/", sub);
    LowerKeepsInfix(sub, "pdf", rest);
    assert ToLower("text/" + sub)[0] == 't';
  }

  // ---------------------------------------------------------------- groups

  /** What a group shows from the capture that created it. */
  datatype GroupInfo = GroupInfo(title: string, year: string)

  /** The group key: the capture's group title, else its timestamp, else the
      host name of its original URL, else "misc" when that does not parse.
      With a group title or a timestamp the key is the heading itself; with
      neither, captures are keyed by host, so all captures of one host fall
      in one group whatever their scheme or path. */
  function GroupKey(it: ResourceItem, parse: string -> Option<UrlParts>): (r: string)
    ensures it.groupTitle != "" || it.timestamp != "" ==> r == GroupTitle(it)
    ensures it.groupTitle == "" && it.timestamp == "" && parse(it.original).None? ==> r == "misc"
    ensures it.groupTitle != "" ==> r == it.groupTitle
    ensures it.groupTitle == "" && it.timestamp != "" ==> r == it.timestamp
    ensures it.groupTitle == "" && it.timestamp == "" ==>
      r == (if parse(it.original).Some? then parse(it.original).value.hostname else "misc")
  {
    if it.groupTitle != "" then it.groupTitle
    else if it.timestamp != "" then it.timestamp
    else match parse(it.original)
      case Some(u) => u.hostname
      case None => "misc"
  }

  /** The heading: the group title, else the timestamp, else the first three
      `/`-parts of the original URL (its scheme and host), else "Misc". */
  function GroupTitle(it: ResourceItem): (r: string)
    ensures it.groupTitle != "" ==> r == it.groupTitle
    ensures it.groupTitle == "" && it.timestamp != "" ==> r == it.timestamp
    ensures it.groupTitle == "" && it.timestamp == "" && it.original == "" ==> r == "Misc"
    ensures it.groupTitle == "" && it.timestamp == "" && it.original != "" ==>
      && Split(r, '/') == Take(Split(it.original, '/'), 3)
      && StartsWith(it.original, r)
      && (r == it.original || it.original[|r|] == '/')
  {
    if it.groupTitle != "" then it.groupTitle
    else if it.timestamp != "" then it.timestamp
    else if it.original != "" then
      OriginCut(it.original);
      Join(Take(Split(it.original, '/'), 3), "/")
    else "Misc"
  }

  /** The first three `/`-parts of a URL, joined again: their own parts are
      exactly those three (or all, when there are fewer), and they are the
      whole URL or end just before its third `/`. */
  lemma OriginCut(original: string)
    ensures var r := Join(Take(Split(original, '/'), 3), "/");
      && Split(r, '/') == Take(Split(original, '/'), 3)
      && StartsWith(original, r)
      && (r == original || original[|r|] == '/')
  {
    var parts := Split(original, '/');
    var first := Take(parts, 3);
    var r := Join(first, "/");
    SplitOnFacts(original, {'/'});
    SplitJoin(first, '/');
    JoinSplit(original, '/');
    if |parts| > 3 {
      JoinAt(parts, 3, "/");
      assert original == r + "/" + Join(parts[3..], "/");
      assert original[..|r|] == r;
      assert original[|r|] == '/';
    } else {
      assert first == parts;
    }
  }

  /** The heading of a capture with neither group title nor timestamp, whose
      original URL is `scheme//host` followed by a path, is `scheme//host`. */
  lemma GroupTitleIsOrigin(it: ResourceItem, scheme: string, host: string, tail: string)
    requires Avoids(scheme, {'/'}) && Avoids(host, {'/'})
    requires tail == "" || tail[0] == '/'
    requires it.groupTitle == "" && it.timestamp == "" && it.original == scheme + "//" + host + tail
    ensures GroupTitle(it) == scheme + "//" + host
  {
    assert it.original != "" by {
      assert |scheme + "//" + host + tail| >= 2;
    }
    TitleIsOrigin(scheme, host, tail);
  }

  /** The year badge: the group year, else the timestamp's first four
      characters, else nothing. */
  function GroupYear(it: ResourceItem): (r: string)
    ensures it.groupYear != "" ==> r == it.groupYear
    ensures it.groupYear == "" ==> StartsWith(it.timestamp, r) && |r| <= 4
    ensures it.groupYear == "" ==> |r| == (if |it.timestamp| < 4 then |it.timestamp| else 4)
    ensures it.groupYear == "" && |it.timestamp| >= 4 ==> |r| == 4
  {
    if it.groupYear != "" then it.groupYear
    else if it.timestamp != "" then Take(it.timestamp, 4)
    else ""
  }

  function GroupInfoOf(it: ResourceItem): GroupInfo {
    GroupInfo(GroupTitle(it), GroupYear(it))
  }

  /** A title taken from the URL is its origin `scheme//host`. */
  lemma TitleIsOrigin(scheme: string, host: string, tail: string)
    requires Avoids(scheme, {'/'}) && Avoids(host, {'/'})
    requires tail == "" || tail[0] == '/'
    ensures Join(Take(Split(scheme + "//" + host + tail, '/'), 3), "/") == scheme + "//" + host
  {
    OriginParts(scheme, host, tail);
    JoinOrigin(scheme, host);
  }

  lemma JoinOrigin(scheme: string, host: string)
    ensures Join([scheme, "", host], "/") == scheme + "//" + host
  {
    assert Join([host], "/") == host;
    assert Join(["", host], "/") == "" + "/" + host;
    assert Join([scheme, "", host], "/") == scheme + "/" + Join(["", host], "/");
  }

  lemma OriginParts(scheme: string, host: string, tail: string)
    requires Avoids(scheme, {'/'}) && Avoids(host, {'/'})
    requires tail == "" || tail[0] == '/'
    ensures Take(Split(scheme + "//" + host + tail, '/'), 3) == [scheme, "", host]
  {
    var hs := Split(host + tail, '/');
    HostFirst(host, tail);
    var inner := "/" + (host + tail);
    SlashFirst(host + tail);
    assert scheme + "//" + host + tail == scheme + ['/'] + inner;
    SplitConcat(scheme, '/', inner, {'/'});
    SplitNoSep(scheme, {'/'});
    var parts := Split(scheme + "//" + host + tail, '/');
    assert parts == [scheme] + ([""] + hs);
  }

  lemma HostFirst(host: string, tail: string)
    requires Avoids(host, {'/'})
    requires tail == "" || tail[0] == '/'
    ensures |Split(host + tail, '/')| >= 1 && Split(host + tail, '/')[0] == host
  {
    if tail == "" {
      assert host + tail == host;
      SplitNoSep(host, {'/'});
    } else {
      assert host + tail == host + ['/'] + tail[1..];
      SplitConcat(host, '/', tail[1..], {'/'});
      SplitNoSep(host, {'/'});
    }
  }

  lemma SlashFirst(rest: string)
    ensures Split("/" + rest, '/') == [""] + Split(rest, '/')
  {
    assert "/" + rest == [] + ['/'] + rest;
    SplitConcat([], '/', rest, {'/'});
    SplitNoSep([], {'/'});
  }

  /** The `(key, info)` entries of the results, one per position. */
  function Entries(results: seq<ResourceItem>, parse: string -> Option<UrlParts>): (es: seq<(string, GroupInfo)>)
    ensures |es| == |results|
    ensures forall i :: 0 <= i < |results| ==> es[i] == (GroupKey(results[i], parse), GroupInfoOf(results[i]))
  {
    Map(results, it => (GroupKey(it, parse), GroupInfoOf(it)))
  }

  /** The groups of the results view, in the order their keys first show. */
  function ResultGroups(results: seq<ResourceItem>, parse: string -> Option<UrlParts>): seq<Group<string, GroupInfo>> {
    GroupEntries(Entries(results, parse))
  }

  /** Every result position lands in exactly one group, the one of its key,
      and that group exists. */
  lemma ResultGroupsPartition(results: seq<ResourceItem>, parse: string -> Option<UrlParts>, i: nat)
    requires i < |results|
    ensures exists a :: 0 <= a < |ResultGroups(results, parse)| && ResultGroups(results, parse)[a].key == GroupKey(results[i], parse)
    ensures forall a :: 0 <= a < |ResultGroups(results, parse)| ==>
      (i in ResultGroups(results, parse)[a].indices <==> ResultGroups(results, parse)[a].key == GroupKey(results[i], parse))
  {
    var es := Entries(results, parse);
    GroupsPartition(es, i);
    var gs := ResultGroups(results, parse);
    assert gs == GroupEntries(es);
    var a := FindKey(gs, es[i].0);
    assert 0 <= a < |gs| && gs[a].key == GroupKey(results[i], parse);
  }

  /** Each group lists positions of the results in ascending order, none
      twice; its keys differ from every other group's; and it shows the
      title and year of its first capture. */
  lemma ResultGroupsShape(results: seq<ResourceItem>, parse: string -> Option<UrlParts>)
    ensures KeysDistinct(ResultGroups(results, parse))
    ensures forall a :: 0 <= a < |ResultGroups(results, parse)| ==>
      var g := ResultGroups(results, parse)[a];
      && |g.indices| > 0
      && Ascending(g.indices)
      && (forall j :: 0 <= j < |g.indices| ==> g.indices[j] < |results| && GroupKey(results[g.indices[j]], parse) == g.key)
      && g.info == GroupInfoOf(results[g.indices[0]])
  {
    var es := Entries(results, parse);
    var gs := GroupEntries(es);
    GroupEntriesSpec(es);
    forall a | 0 <= a < |gs|
      ensures var g := gs[a];
        && |g.indices| > 0
        && Ascending(g.indices)
        && (forall j :: 0 <= j < |g.indices| ==> g.indices[j] < |results| && GroupKey(results[g.indices[j]], parse) == g.key)
        && g.info == GroupInfoOf(results[g.indices[0]])
    {
      IndicesOfSound(es, gs[a].key);
    }
  }

  /** Captures with the same group title share a group; captures without
      one but with the same timestamp share a group too, and so do captures
      with neither whose original URLs have the same host. */
  lemma SameTitleSameGroup(results: seq<ResourceItem>, parse: string -> Option<UrlParts>, i: nat, j: nat)
    requires i < |results| && j < |results|
    requires (results[i].groupTitle != "" && results[i].groupTitle == results[j].groupTitle)
      || (results[i].groupTitle == "" && results[j].groupTitle == "" && results[i].timestamp != ""
          && results[i].timestamp == results[j].timestamp)
      || (results[i].groupTitle == "" && results[j].groupTitle == ""
          && results[i].timestamp == "" && results[j].timestamp == ""
          && parse(results[i].original).Some? && parse(results[j].original).Some?
          && parse(results[i].original).value.hostname == parse(results[j].original).value.hostname)
    ensures forall a :: 0 <= a < |ResultGroups(results, parse)| ==>
      (i in ResultGroups(results, parse)[a].indices <==> j in ResultGroups(results, parse)[a].indices)
  {
    ResultGroupsPartition(results, parse, i);
    ResultGroupsPartition(results, parse, j);
  }

  // ---------------------------------------------------------------- state

  /** The view's results and selected card indices. */
  datatype SimpleState = SimpleState(results: seq<ResourceItem>, selected: seq<nat>)

  /** What a reply does: an error clears the results but keeps the
      selection; a list of captures replaces the results, filtered by type,
      and clears the selection; a rejected call changes nothing. */
  function ApplyReply(st: SimpleState, kind: MediaKind, reply: Reply): (r: SimpleState)
    ensures reply.ErrorReply? ==> r.results == [] && r.selected == st.selected
    ensures reply.ItemsReply? ==> r.selected == [] && forall it :: it in r.results <==> it in reply.items && SimpleKeeps(kind, it.mimetype)
    ensures reply.Rejected? ==> r == st
  {
    match reply
    case ErrorReply => st.(results := [])
    case ItemsReply(items) => SimpleState(TypeFilter(kind, items), [])
    case Rejected => st
  }

  /** After any reply, a bulk download takes only captures on show: after an
      error, with the old selection still set, it takes none. */
  lemma ReplyThenDownload(st: SimpleState, kind: MediaKind, reply: Reply, folder: string)
    requires reply.ErrorReply?
    ensures BulkDownload(ApplyReply(st, kind, reply).results, ApplyReply(st, kind, reply).selected, folder) == []
  {
    StaleSelectionEnqueuesNothing(st.selected, folder);
  }

  /** A card click in the grouped view: the same set toggle as the grid. */
  function ClickCard(st: SimpleState, idx: nat): (r: SimpleState)
    ensures r.results == st.results
    ensures forall j :: j in r.selected <==> (j in st.selected) != (j == idx)
  {
    st.(selected := Selection.Toggle(st.selected, idx))
  }
}

=== FILE: soulseek_view.dfy ===
/** The Soulseek search view's formatting: the file name shown for a result,
    where a download is saved, the size and speed columns' unit choice, and
    whether a result can be downloaded. Sizes and speeds are whole numbers
    of bytes; a field that is `undefined`, `null` or otherwise falsy but not
    0 is `None`. */
module SoulseekView {
  import opened Opt
  import opened Strs
  import opened Numerals
  import opened ByteUnits

  // ---------------------------------------------------------------- file names

  /** The fields of a search result that name its file; "" is absent. */
  datatype SlskFile = SlskFile(file: string, path: string, name: string)

  const PathSeps: set<char> := {'/', '\\'}

  /** `raw.replace(/^@@?/, '')`: one or two leading `@` removed. */
  function StripAt(raw: string): (r: string)
    ensures EndsWith(raw, r) && |raw| - 2 <= |r| <= |raw|
    ensures |raw| > 0 && raw[0] == '@' ==> |r| < |raw|
    ensures raw == "" || raw[0] != '@' ==> r == raw
    ensures |raw| >= 2 && raw[0] == '@' && raw[1] == '@' ==> r == raw[2..]
    ensures |raw| >= 1 && raw[0] == '@' && (|raw| == 1 || raw[1] != '@') ==> r == raw[1..]
  {
    if |raw| >= 2 && raw[0] == '@' && raw[1] == '@' then raw[2..]
    else if |raw| >= 1 && raw[0] == '@' then raw[1..]
    else raw
  }

  /** `renderFilename(file)`: "" for no result; otherwise the first of
      `file`, `path`, `name` that is set, without the `@@` user prefix, cut
      after its last `/` or `\`. */
  function RenderFilename(f: Option<SlskFile>): (r: string)
    ensures Avoids(r, PathSeps)
    ensures f.None? ==> r == ""
  {
    match f
    case None => ""
    case Some(x) =>
      var raw := if x.file != "" then x.file else if x.path != "" then x.path else x.name;
      LastPart(StripAt(raw), PathSeps)
  }

  /** The name is read from the first of `file`, `path` and `name` that is
      set: the other fields do not matter. */
  lemma RenderFilenameChoice(x: SlskFile)
    ensures x.file != "" ==> RenderFilename(Some(x)) == RenderFilename(Some(SlskFile(x.file, "", "")))
    ensures x.file == "" && x.path != "" ==> RenderFilename(Some(x)) == RenderFilename(Some(SlskFile(x.path, "", "")))
    ensures x.file == "" && x.path == "" ==> RenderFilename(Some(x)) == RenderFilename(Some(SlskFile(x.name, "", "")))
  {
  }

  /** A plain name, with no separator and no leading `@`, is shown as it
      is; with one or two leading `@` it is shown without them. */
  lemma RenderFilenamePlain(name: string)
    requires Avoids(name, PathSeps) && (name == "" || name[0] != '@')
    ensures RenderFilename(Some(SlskFile(name, "", ""))) == name
    ensures RenderFilename(Some(SlskFile("@" + name, "", ""))) == name
    ensures RenderFilename(Some(SlskFile("@@" + name, "", ""))) == name
  {
    StripAtPrefixes(name);
  }

  lemma StripAtPrefixes(name: string)
    requires name == "" || name[0] != '@'
    ensures StripAt(name) == name && StripAt("@" + name) == name && StripAt("@@" + name) == name
  {
    assert ("@" + name)[1..] == name;
    assert ("@@" + name)[2..] == name;
  }

  /** The shown name is the part after the last separator of the path, for
      Unix and Windows separators alike, whatever prefix comes before it. */
  lemma RenderFilenameOfPath(dir: string, sep: char, name: string)
    requires sep in PathSeps && Avoids(name, PathSeps) && dir != ""
    ensures RenderFilename(Some(SlskFile(dir + [sep] + name, "", ""))) == name
  {
    var raw := dir + [sep] + name;
    var t := StripAt(raw);
    var cut := |raw| - |t|;
    assert cut <= |dir|;
    assert t == raw[cut..];
    assert t == dir[cut..] + [sep] + name;
    LastPartAfter(dir[cut..], sep, name, PathSeps);
  }

  // ---------------------------------------------------------------- destination

  predicate IsPathSep(c: char) {
    c in PathSeps
  }

  /** `folder.replace(/[\\/]+$/, '')`: the folder without its trailing run
      of separators. */
  function TrimSeps(folder: string): (r: string)
    ensures StartsWith(folder, r)
    ensures r == "" || !IsPathSep(r[|r| - 1])
    ensures forall i :: |r| <= i < |folder| ==> IsPathSep(folder[i])
    decreases |folder|
  {
    if |folder| > 0 && IsPathSep(folder[|folder| - 1]) then TrimSeps(folder[..|folder| - 1])
    else folder
  }

  /** The separator used: `\` when the folder already has one, else `/`. */
  function SepFor(folder: string): (c: char)
    ensures c in PathSeps
    ensures c == '\\' <==> '\\' in folder
  {
    if '\\' in folder then '\\' else '/'
  }

  /** `startDownload` up to the request: nothing when the folder dialog is
      cancelled; otherwise the shown file name, or `slsk_<now>` when there is
      none, joined to the folder. */
  function Destination(item: Option<SlskFile>, folder: string, now: nat): (r: Option<string>)
    ensures r.None? <==> folder == ""
  {
    if folder == "" then None
    else
      var shown := RenderFilename(item);
      var filename := if shown != "" then shown else "slsk_" + NatToString(now);
      Some(TrimSeps(folder) + [SepFor(folder)] + filename)
  }

  /** The file is saved under exactly the name that is shown (or the
      fallback name), directly inside the folder: one separator, of the
      folder's own kind, between the folder without its trailing separators
      and the name. */
  lemma DestinationShape(item: Option<SlskFile>, folder: string, now: nat)
    requires folder != ""
    ensures var d := Destination(item, folder, now).value;
      var shown := RenderFilename(item);
      var filename := if shown != "" then shown else "slsk_" + NatToString(now);
      && d == TrimSeps(folder) + [SepFor(folder)] + filename
      && LastPart(d, PathSeps) == filename
      && (TrimSeps(folder) != "" ==> !IsPathSep(d[|TrimSeps(folder)| - 1]))
  {
    var shown := RenderFilename(item);
    var filename := if shown != "" then shown else "slsk_" + NatToString(now);
    if shown == "" {
      FallbackNameHasNoSep(now);
    }
    LastPartAfter(TrimSeps(folder), SepFor(folder), filename, PathSeps);
  }

  lemma FallbackNameHasNoSep(now: nat)
    ensures Avoids("slsk_" + NatToString(now), PathSeps)
  {
    var s := "slsk_" + NatToString(now);
    forall i | 0 <= i < |s|
      ensures s[i] !in PathSeps
    {
      if i >= 5 {
        assert s[i] == NatToString(now)[i - 5];
      }
    }
  }

  // ---------------------------------------------------------------- size and speed

  /** What a size or speed cell shows, before `toFixed`: nothing, a whole
      number of bytes, or a value in a larger unit. */
  datatype Shown = Blank | InBytes(n: int) | Scaled(unit: Unit, value: real) | PerSecondK(kib: real)

  /** The size column offers `KB`, `MB` and `GB` after plain bytes. */
  const SizeCap := 3

  /** `humanSize(bytes)`: plain bytes below 1024; otherwise the value after
      the divisions by 1024, in the unit those divisions reach, `GB` at
      most. */
  method HumanSize(bytes: Option<int>) returns (r: Shown)
    ensures bytes.None? ==> r == Blank
    ensures bytes.Some? && bytes.value < 1024 ==> r == InBytes(bytes.value)
    ensures bytes.Some? && bytes.value >= 1024 ==>
      var k := Divisions(bytes.value, SizeCap);
      && 1 <= k <= SizeCap
      && r == Scaled(UnitAt(k), bytes.value as real / Pow1024(k) as real)
  {
    if bytes.None? {
      return Blank;
    }
    var b := bytes.value;
    if b < 1024 {
      return InBytes(b);
    }
    var value, k := ScaleDown(b, SizeCap);
    DivisionsStart(b, SizeCap);
    r := Scaled(UnitAt(k), value);
  }

  /** `humanSpeed(sp)`: KiB/s from 1024 bytes a second on, plain bytes a
      second below. */
  function HumanSpeed(sp: Option<int>): (r: Shown)
    ensures sp.None? ==> r == Blank
    ensures sp.Some? && sp.value >= 1024 ==> r.PerSecondK? && r.kib >= 1.0
    ensures sp.Some? && sp.value < 1024 ==> r == InBytes(sp.value)
  {
    match sp
    case None => Blank
    case Some(n) => if n >= 1024 then PerSecondK(n as real / 1024.0) else InBytes(n)
  }

  /** `x || y` on numeric fields: a present non-zero value is truthy. */
  function OrElse(x: Option<int>, y: Option<int>): Option<int> {
    if x.Some? && x.value != 0 then x else y
  }

  /** The speed cell, `humanSpeed(r.speed || r.upload || '')`. */
  function SpeedCell(speed: Option<int>, upload: Option<int>): (r: Shown)
    ensures r == HumanSpeed(speed) || r == HumanSpeed(upload) || r == Blank
  {
    HumanSpeed(OrElse(OrElse(speed, upload), None))
  }

  /** The speed cell shows the first non-zero of speed and upload; a speed
      of 0 with no non-zero upload shows blank, though `humanSpeed` itself
      would print `0 B/s` for it. */
  lemma SpeedCellChoice(speed: Option<int>, upload: Option<int>)
    ensures speed.Some? && speed.value != 0 ==> SpeedCell(speed, upload) == HumanSpeed(speed)
    ensures (speed.None? || speed.value == 0) && upload.Some? && upload.value != 0 ==>
      SpeedCell(speed, upload) == HumanSpeed(upload)
    ensures speed == Some(0) && (upload.None? || upload.value == 0) ==>
      SpeedCell(speed, upload) == Blank && HumanSpeed(speed) == InBytes(0)
  {
  }

  // ---------------------------------------------------------------- availability

  /** The flags a result may carry; `slots` is `None` when undefined or
      null. */
  datatype Flags = Flags(available: bool, open: bool, slots: Option<int>)

  /** `!!(r.available || r.open || (typeof r.slots !== 'undefined' && !!r.slots))`,
      the test behind both the availability badge and the Download button. */
  predicate Available(f: Flags) {
    f.available || f.open || (f.slots.Some? && f.slots.value != 0)
  }

  /** The Download button's `disabled` test, written out again in the
      source next to the badge. */
  predicate ButtonDisabled(f: Flags) {
    !(f.available || f.open || (f.slots.Some? && f.slots.value != 0))
  }

  /** The availability badge's text; the badge says "Unavailable" exactly
      when the button is disabled, and a result with neither flag set is
      available exactly when it has a non-zero slot count. */
  function Badge(f: Flags): (r: string)
    ensures r == "Available" || r == "Unavailable"
    ensures r == "Unavailable" <==> ButtonDisabled(f)
    ensures !f.available && !f.open ==> (r == "Available" <==> f.slots.Some? && f.slots.value != 0)
  {
    if Available(f) then "Available" else "Unavailable"
  }
}

=== FILE: statistics.dfy ===
/** The statistics page: the total download time in its two largest units,
    the total size in a binary unit, and loading and clearing the stored
    totals. */
module Statistics {
  import opened Numerals
  import opened ByteUnits

  // ---------------------------------------------------------------- formatTime

  const MsPerSecond := 1000
  const MsPerMinute := 60_000
  const MsPerHour := 3_600_000
  const MsPerDay := 86_400_000

  /** What `formatTime` prints: the largest non-zero unit among days, hours
      and minutes with the next unit after it, or the seconds alone. */
  datatype TimeShown =
    | DaysHours(days: int, hours: int)
    | HoursMinutes(hours: int, minutes: int)
    | MinutesSeconds(minutes: int, seconds: int)
    | SecondsOnly(seconds: int)

  /** `formatTime(ms)` before the text is joined: `0s` for 0; otherwise the
      seconds, minutes, hours and days are successive floors of divisions by
      1000, 60, 60 and 24, and the first of days, hours, minutes that is
      non-zero leads. `Math.floor` of a quotient by a positive whole number
      is Dafny's integer division. */
  function Breakdown(ms: int): (t: TimeShown)
    ensures ms >= MsPerDay ==> t == DaysHours(ms / MsPerDay, (ms / MsPerHour) % 24)
    ensures MsPerHour <= ms < MsPerDay ==> t == HoursMinutes(ms / MsPerHour, (ms / MsPerMinute) % 60)
    ensures MsPerMinute <= ms < MsPerHour ==> t == MinutesSeconds(ms / MsPerMinute, (ms / MsPerSecond) % 60)
    ensures ms < MsPerMinute ==> t == SecondsOnly(ms / MsPerSecond)
  {
    if ms == 0 then SecondsOnly(0)
    else
      var seconds := ms / 1000;
      var minutes := seconds / 60;
      var hours := minutes / 60;
      var days := hours / 24;
      Floors(ms);
      if days > 0 then DaysHours(days, hours % 24)
      else if hours > 0 then HoursMinutes(hours, minutes % 60)
      else if minutes > 0 then MinutesSeconds(minutes, seconds % 60)
      else SecondsOnly(seconds)
  }

  /** Flooring in steps is flooring once by the product. */
  lemma FloorTwice(a: int, b: int, c: int)
    requires b > 0 && c > 0
    ensures (a / b) / c == a / (b * c)
  {
    var m := a / b;
    var q := m / c;
    var r1 := a % b;
    var r2 := m % c;
    Recombine(a, b, c, m, q, r1, r2);
    RemainderBound(b, c, r1, r2);
    DivUnique(a, b * c, q, b * r2 + r1);
  }

  lemma Recombine(a: int, b: int, c: int, m: int, q: int, r1: int, r2: int)
    requires a == b * m + r1 && m == c * q + r2
    ensures a == (b * c) * q + (b * r2 + r1)
  {
    assert b * m == b * (c * q) + b * r2;
    assert b * (c * q) == (b * c) * q;
  }

  lemma RemainderBound(b: int, c: int, r1: int, r2: int)
    requires 0 <= r1 < b && 0 <= r2 < c
    ensures 0 <= b * r2 + r1 < b * c
  {
    assert b * r2 <= b * (c - 1);
  }

  lemma DivUnique(a: int, d: int, q: int, r: int)
    requires d > 0 && a == d * q + r && 0 <= r < d
    ensures a / d == q
  {
    var q0, r0 := a / d, a % d;
    var e := q0 - q;
    assert d * e == r - r0 by {
      assert d * q0 + r0 == d * q + r;
      assert d * q0 - d * q == d * e;
    }
    if e >= 1 {
      MulAtLeast(d, e);
    } else if e <= -1 {
      MulAtLeast(d, -e);
    }
  }

  lemma MulAtLeast(d: int, e: int)
    requires d > 0 && e >= 1
    ensures d * e >= d && d * -e <= -d
  {
  }

  lemma Floors(ms: int)
    ensures ms / 1000 / 60 == ms / MsPerMinute
    ensures ms / 1000 / 60 / 60 == ms / MsPerHour
    ensures ms / 1000 / 60 / 60 / 24 == ms / MsPerDay
    ensures ms / MsPerDay > 0 <==> ms >= MsPerDay
    ensures ms / MsPerHour > 0 <==> ms >= MsPerHour
    ensures ms / MsPerMinute > 0 <==> ms >= MsPerMinute
  {
    FloorTwice(ms, 1000, 60);
    FloorTwice(ms / 1000, 60, 60);
    FloorTwice(ms, 1000, 3600);
    FloorTwice(ms / MsPerMinute, 60, 24);
    FloorTwice(ms, MsPerHour, 24);
    assert ms / 1000 / 60 / 60 / 24 == ms / MsPerHour / 24;
  }

  /** `formatTime(ms)`, the text. */
  function FormatTime(ms: int): (r: string)
    ensures ms == 0 ==> r == "0s"
  {
    match Breakdown(ms)
    case DaysHours(d, h) => IntToString(d) + "d " + IntToString(h) + "h"
    case HoursMinutes(h, m) => IntToString(h) + "h " + IntToString(m) + "m"
    case MinutesSeconds(m, s) => IntToString(m) + "m " + IntToString(s) + "s"
    case SecondsOnly(s) => IntToString(s) + "s"
  }

  /** The smallest unit shown, in milliseconds. */
  function Resolution(t: TimeShown): nat {
    match t
    case DaysHours(_, _) => MsPerHour
    case HoursMinutes(_, _) => MsPerMinute
    case MinutesSeconds(_, _) => MsPerSecond
    case SecondsOnly(_) => MsPerSecond
  }

  /** The time shown, read back in milliseconds. */
  function ShownMs(t: TimeShown): int {
    match t
    case DaysHours(d, h) => (d * 24 + h) * MsPerHour
    case HoursMinutes(h, m) => (h * 60 + m) * MsPerMinute
    case MinutesSeconds(m, s) => (m * 60 + s) * MsPerSecond
    case SecondsOnly(s) => s * MsPerSecond
  }

  /** The leading unit is non-zero when there is a second unit, the second
      unit is below its modulus, and reading the display back gives the
      time cut down to the smallest unit shown. */
  lemma BreakdownTruncates(ms: int)
    requires ms >= 0
    ensures var t := Breakdown(ms);
      && (t.DaysHours? ==> t.days >= 1 && 0 <= t.hours < 24)
      && (t.HoursMinutes? ==> 1 <= t.hours < 24 && 0 <= t.minutes < 60)
      && (t.MinutesSeconds? ==> 1 <= t.minutes < 60 && 0 <= t.seconds < 60)
      && (t.SecondsOnly? ==> 0 <= t.seconds < 60)
      && ShownMs(t) <= ms < ShownMs(t) + Resolution(t)
  {
    var t := Breakdown(ms);
    Floors(ms);
    match t
    case DaysHours(d, h) =>
      FloorTwice(ms, MsPerHour, 24);
      SplitFloor(ms, MsPerHour, 24);
    case HoursMinutes(h, m) =>
      FloorTwice(ms, MsPerMinute, 60);
      SplitFloor(ms, MsPerMinute, 60);
    case MinutesSeconds(m, s) =>
      FloorTwice(ms, MsPerSecond, 60);
      SplitFloor(ms, MsPerSecond, 60);
    case SecondsOnly(s) =>
      SplitFloor(ms, MsPerSecond, 1);
  }

  /** Writing `a / u` as a whole number of `c`s and a remainder. */
  lemma SplitFloor(a: int, u: int, c: int)
    requires u > 0 && c > 0
    ensures ((a / u / c) * c + (a / u) % c) * u <= a < ((a / u / c) * c + (a / u) % c) * u + u
  {
    assert (a / u / c) * c + (a / u) % c == a / u;
  }

  // ---------------------------------------------------------------- formatBytes

  /** The statistics page offers units up to `TB`. */
  const StatsCap := 4

  /** What `formatBytes` prints, before `toFixed`: a value, its unit, and
      the number of decimals. */
  datatype BytesShown = BytesShown(value: real, unit: Unit, decimals: nat)

  /** `formatBytes(bytes)`: `0 B` for 0; otherwise the loop's value and unit,
      with no decimals for plain bytes and two for any larger unit. */
  method FormatBytes(bytes: int) returns (r: BytesShown)
    ensures bytes == 0 ==> r == BytesShown(0.0, B, 0)
    ensures r.unit == UnitAt(Divisions(bytes, StatsCap))
    ensures r.value == bytes as real / Pow1024(Divisions(bytes, StatsCap)) as real
    ensures r.decimals == 0 <==> r.unit == B
    ensures r.decimals == 0 || r.decimals == 2
  {
    if bytes == 0 {
      DivisionsStart(0, StatsCap);
      return BytesShown(0.0, B, 0);
    }
    var value, i := ScaleDown(bytes, StatsCap);
    r := BytesShown(value, UnitAt(i), if i == 0 then 0 else 2);
  }

  /** A size below 1 TiB gets the same unit and value here as in the
      Soulseek size column, which stops at GB; the two differ only from
      1 TiB on. */
  lemma DivisionsAgreeBelowCap(b: int)
    ensures b < Pow1024(4) ==> Divisions(b, 3) == Divisions(b, 4)
    ensures b >= Pow1024(4) ==> Divisions(b, 3) == 3 && Divisions(b, 4) == 4
  {
    var k3, k4 := Divisions(b, 3), Divisions(b, 4);
    if b < Pow1024(4) {
      assert IsDivisions(b, 4, k3);
      DivisionsUnique(b, 4, k3, k4);
    } else {
      Pow1024Mono(3, 4);
      assert IsDivisions(b, 3, 3);
      assert IsDivisions(b, 4, 4);
      DivisionsUnique(b, 3, 3, k3);
      DivisionsUnique(b, 4, 4, k4);
    }
  }

  // ---------------------------------------------------------------- stored totals

  /** The stored totals; `byType` counts files per type. */
  datatype Stats = Stats(totalFiles: int, totalBytes: int, totalTime: int, byType: map<string, int>)

  const NoStats := Stats(0, 0, 0, map[])

  const StatsKey := "uwt:stats"

  /** What local storage holds under a key: text that does not parse as the
      totals (including the empty string), or totals. */
  datatype Stored = Unparsable | Saved(stats: Stats)

  /** `loadStats`: the saved totals, or zeros when nothing is saved or the
      saved text does not parse. */
  function LoadStats(storage: map<string, Stored>): (r: Stats)
    ensures StatsKey in storage && storage[StatsKey].Saved? ==> r == storage[StatsKey].stats
    ensures StatsKey !in storage || storage[StatsKey].Unparsable? ==> r == NoStats
  {
    if StatsKey in storage && storage[StatsKey].Saved? then storage[StatsKey].stats else NoStats
  }

  /** `clearStats`: once confirmed, the saved totals are removed and zeros
      are shown; otherwise nothing changes. */
  function ClearStats(confirmed: bool, shown: Stats, storage: map<string, Stored>): (r: (Stats, map<string, Stored>))
    ensures !confirmed ==> r == (shown, storage)
    ensures confirmed ==> r.0 == NoStats && StatsKey !in r.1
    ensures forall key :: key in storage && key != StatsKey ==> key in r.1 && r.1[key] == storage[key]
    ensures forall key :: key in r.1 ==> key in storage
  {
    if confirmed then (NoStats, storage - {StatsKey}) else (shown, storage)
  }

  /** After a confirmed clear, opening the page again shows the same zeros
      the clear just displayed. */
  lemma ClearThenLoad(shown: Stats, storage: map<string, Stored>)
    ensures var (now, after) := ClearStats(true, shown, storage);
      LoadStats(after) == now == NoStats
  {
  }
}

=== FILE: status_bar.dfy ===
/** The download status bar: a summary of how many downloads are active,
    completed and failed, and one row per download with a progress bar for
    those still running. */
module StatusBar {
  import opened Opt
  import opened Seqs

  /** One tracked download; `progress` is `None` when unset. */
  datatype Download = Download(name: string, status: string, progress: Option<real>)

  /** An entry of the downloads object, in `Object.entries` order. */
  type Entry = (string, Download)

  predicate IsCompleted(e: Entry) {
    e.1.status == "completed"
  }

  predicate IsFailed(e: Entry) {
    e.1.status == "failed"
  }

  predicate IsActive(e: Entry) {
    e.1.status == "downloading"
  }

  /** Any other status: queued, cancelled, or a value the bar does not
      know. */
  predicate IsOther(e: Entry) {
    !IsCompleted(e) && !IsFailed(e) && !IsActive(e)
  }

  /** One row of the list: the progress bar's width is present only for a
      running download. */
  datatype Row = Row(id: string, name: string, status: string, width: Option<real>)

  /** What the bar shows. */
  datatype Bar = Bar(total: nat, completed: nat, failed: nat, active: nat, showFailed: bool, rows: seq<Row>)

  /** `Math.min(100, download.progress || 0)`: a missing or zero progress
      draws an empty bar. */
  function Width(progress: Option<real>): (w: real)
    ensures w <= 100.0
    ensures progress.None? ==> w == 0.0
    ensures progress.Some? && progress.value <= 100.0 ==> w == progress.value
    ensures progress.Some? && progress.value >= 100.0 ==> w == 100.0
  {
    var p := if progress.Some? && progress.value != 0.0 then progress.value else 0.0;
    if p < 100.0 then p else 100.0
  }

  function RowOf(e: Entry): (r: Row)
    ensures r.id == e.0 && r.name == e.1.name && r.status == e.1.status
    ensures r.width.Some? <==> IsActive(e)
    ensures IsActive(e) ==> r.width == Some(Width(e.1.progress))
  {
    Row(e.0, e.1.name, e.1.status, if IsActive(e) then Some(Width(e.1.progress)) else None)
  }

  /** The component: nothing for a missing or empty downloads object;
      otherwise the counts by status, the failed count only when some
      failed, and a row per entry in order. */
  function StatusBarView(downloads: Option<seq<Entry>>): (r: Option<Bar>)
    ensures r.None? <==> downloads.None? || |downloads.value| == 0
    ensures r.Some? ==> var es := downloads.value;
      && r.value.total == |es|
      && r.value.completed == Count(es, IsCompleted)
      && r.value.failed == Count(es, IsFailed)
      && r.value.active == Count(es, IsActive)
      && (r.value.showFailed <==> r.value.failed > 0)
      && |r.value.rows| == |es|
      && (forall k :: 0 <= k < |es| ==> r.value.rows[k] == RowOf(es[k]))
    ensures r.Some? ==> var es := downloads.value;
      && r.value.completed + r.value.failed + r.value.active <= r.value.total
      && (r.value.showFailed <==> exists k :: 0 <= k < |es| && es[k].1.status == "failed")
      && (r.value.active > 0 <==> exists k :: 0 <= k < |es| && es[k].1.status == "downloading")
      && (forall k :: 0 <= k < |es| ==>
            r.value.rows[k].id == es[k].0 && (r.value.rows[k].width.Some? <==> es[k].1.status == "downloading"))
  {
    match downloads
    case None => None
    case Some(es) =>
      if |es| == 0 then None
      else
        var failed := Count(es, IsFailed);
        StatusCounts(es);
        Some(Bar(|es|, Count(es, IsCompleted), failed, Count(es, IsActive), failed > 0, Map(es, RowOf)))
  }

  /** The counts stay within the total, and the failed and running counts
      are positive exactly when some download has that status. */
  lemma StatusCounts(es: seq<Entry>)
    ensures Count(es, IsCompleted) + Count(es, IsFailed) + Count(es, IsActive) <= |es|
    ensures Count(es, IsFailed) > 0 <==> exists k :: 0 <= k < |es| && es[k].1.status == "failed"
    ensures Count(es, IsActive) > 0 <==> exists k :: 0 <= k < |es| && es[k].1.status == "downloading"
  {
    CountsPartition(es);
    CountPositive(es, IsFailed);
    CountPositive(es, IsActive);
  }

  /** Every entry falls under exactly one of the three counted statuses or
      under none of them, so the counts and the uncounted ones add up to the
      total. */
  lemma {:induction false} CountsPartition(es: seq<Entry>)
    ensures Count(es, IsCompleted) + Count(es, IsFailed) + Count(es, IsActive) + Count(es, IsOther) == |es|
    decreases |es|
  {
    if |es| > 0 {
      CountsPartition(es[1..]);
      assert Filter(es, IsCompleted) == (if IsCompleted(es[0]) then [es[0]] else []) + Filter(es[1..], IsCompleted);
      assert Filter(es, IsFailed) == (if IsFailed(es[0]) then [es[0]] else []) + Filter(es[1..], IsFailed);
      assert Filter(es, IsActive) == (if IsActive(es[0]) then [es[0]] else []) + Filter(es[1..], IsActive);
      assert Filter(es, IsOther) == (if IsOther(es[0]) then [es[0]] else []) + Filter(es[1..], IsOther);
    }
  }

  /** The summary never counts more downloads than there are, and counts
      all of them exactly when no download has any other status. */
  lemma SummaryWithinTotal(downloads: seq<Entry>)
    requires |downloads| > 0
    ensures var b := StatusBarView(Some(downloads)).value;
      && b.completed + b.failed + b.active <= b.total
      && (b.completed + b.failed + b.active == b.total <==> forall k :: 0 <= k < |downloads| ==> !IsOther(downloads[k]))
  {
    CountsPartition(downloads);
    if Count(downloads, IsOther) > 0 {
      var o := Filter(downloads, IsOther)[0];
      assert o in downloads && IsOther(o);
    }
  }
}

=== FILE: strs.dfy ===
/** The JavaScript string operations the application relies on, written out
    over `seq<char>`: prefix/suffix/substring tests, ASCII lower-casing,
    `trim`, `split` and `join`. */
module Strs {

  /** `s.startsWith(p)` */
  predicate StartsWith(s: string, p: string) {
    |p| <= |s| && s[..|p|] == p
  }

  /** `s.endsWith(p)` */
  predicate EndsWith(s: string, p: string) {
    |p| <= |s| && s[|s| - |p|..] == p
  }

  /** `s.includes(sub)` */
  predicate Contains(s: string, sub: string)
    decreases |s|
  {
    StartsWith(s, sub) || (|s| > 0 && Contains(s[1..], sub))
  }

  /** No character of `s` is in `cs`. */
  predicate Avoids(s: string, cs: set<char>) {
    forall i :: 0 <= i < |s| ==> s[i] !in cs
  }

  lemma {:induction false} ContainsInRight(s: string, t: string, sub: string)
    requires Contains(t, sub)
    ensures Contains(s + t, sub)
    decreases |s|
  {
    if |s| > 0 {
      ContainsInRight(s[1..], t, sub);
      assert (s + t)[1..] == s[1..] + t;
    } else {
      assert s + t == t;
    }
  }

  lemma {:induction false} ContainsInLeft(s: string, t: string, sub: string)
    requires Contains(s, sub)
    ensures Contains(s + t, sub)
    decreases |s|
  {
    if StartsWith(s, sub) {
      assert (s + t)[..|sub|] == s[..|sub|];
    } else {
      ContainsInLeft(s[1..], t, sub);
      assert (s + t)[1..] == s[1..] + t;
    }
  }

  /** A substring found at index `i` is contained. */
  lemma {:induction false} ContainsAt(s: string, sub: string, i: nat)
    requires i + |sub| <= |s| && s[i..i + |sub|] == sub
    ensures Contains(s, sub)
    decreases i
  {
    if i > 0 {
      assert s[1..][i - 1..i - 1 + |sub|] == s[i..i + |sub|];
      ContainsAt(s[1..], sub, i - 1);
    }
  }

  /** A string that contains `sub` has some index at which `sub` starts. */
  lemma {:induction false} ContainsIndex(s: string, sub: string) returns (i: nat)
    requires Contains(s, sub)
    ensures i + |sub| <= |s| && s[i..i + |sub|] == sub
    decreases |s|
  {
    if StartsWith(s, sub) {
      i := 0;
    } else {
      var j := ContainsIndex(s[1..], sub);
      i := j + 1;
      assert s[1..][j..j + |sub|] == s[i..i + |sub|];
    }
  }

  /** The longest prefix of `s` whose characters satisfy `ok`. */
  function PrefixWhile(s: string, ok: char -> bool): (r: string)
    ensures StartsWith(s, r)
    ensures forall i :: 0 <= i < |r| ==> ok(r[i])
    ensures |r| < |s| ==> !ok(s[|r|])
    decreases |s|
  {
    if |s| > 0 && ok(s[0]) then [s[0]] + PrefixWhile(s[1..], ok) else ""
  }

  lemma {:induction false} PrefixAll(s: string, ok: char -> bool)
    requires forall i :: 0 <= i < |s| ==> ok(s[i])
    ensures PrefixWhile(s, ok) == s
    decreases |s|
  {
    if |s| > 0 {
      PrefixAll(s[1..], ok);
    }
  }

  /** The prefix stops at the first character that fails `ok`. */
  lemma {:induction false} PrefixWhileStops(a: string, b: string, ok: char -> bool)
    requires forall i :: 0 <= i < |a| ==> ok(a[i])
    requires |b| > 0 && !ok(b[0])
    ensures PrefixWhile(a + b, ok) == a
    decreases |a|
  {
    if |a| > 0 {
      assert (a + b)[1..] == a[1..] + b;
      PrefixWhileStops(a[1..], b, ok);
    } else {
      assert a + b == b;
    }
  }

  // ---------------------------------------------------------------- case

  /** `toLowerCase` restricted to ASCII letters. */
  function LowerChar(c: char): char {
    if 'A' <= c <= 'Z' then (c as int + 32) as char else c
  }

  function ToLower(s: string): (r: string)
    ensures |r| == |s|
    ensures forall i :: 0 <= i < |s| ==> r[i] == LowerChar(s[i])
  {
    seq(|s|, i requires 0 <= i < |s| => LowerChar(s[i]))
  }

  lemma ToLowerAppend(a: string, b: string)
    ensures ToLower(a + b) == ToLower(a) + ToLower(b)
  {
  }

  /** A string without upper-case ASCII letters is its own lower-case form. */
  predicate IsLower(s: string) {
    forall i :: 0 <= i < |s| ==> !('A' <= s[i] <= 'Z')
  }

  lemma LowerOfLower(s: string)
    requires IsLower(s)
    ensures ToLower(s) == s
  {
  }

  /** `s` starts with the lower-case literal `p` when case is ignored: how a
      literal of an ASCII pattern with the `i` flag matches. */
  predicate StartsWithFolded(s: string, p: string) {
    |p| <= |s| && ToLower(s[..|p|]) == p
  }

  lemma FoldedPrefix(p: string, rest: string)
    requires IsLower(p)
    ensures StartsWithFolded(p + rest, p)
  {
    assert (p + rest)[..|p|] == p;
    LowerOfLower(p);
  }

  /** Lower-casing keeps a lower-case prefix. */
  lemma LowerKeepsPrefix(p: string, rest: string)
    requires IsLower(p)
    ensures StartsWith(ToLower(p + rest), p)
  {
    var l := ToLower(p + rest);
    forall k | 0 <= k < |p|
      ensures l[..|p|][k] == p[k]
    {
      assert (p + rest)[k] == p[k];
    }
  }

  /** Lower-casing keeps a lower-case suffix. */
  lemma LowerKeepsSuffix(base: string, e: string)
    requires IsLower(e)
    ensures EndsWith(ToLower(base + e), e)
  {
    var l := ToLower(base + e);
    forall k | 0 <= k < |e|
      ensures l[|l| - |e|..][k] == e[k]
    {
      assert (base + e)[|base| + k] == e[k];
    }
  }

  /** Lower-casing keeps a lower-case infix. */
  lemma LowerKeepsInfix(base: string, e: string, rest: string)
    requires IsLower(e)
    ensures Contains(ToLower(base + e + rest), e)
  {
    var l := ToLower(base + e + rest);
    forall k | 0 <= k < |e|
      ensures l[|base|..|base| + |e|][k] == e[k]
    {
      assert (base + e + rest)[|base| + k] == e[k];
    }
    ContainsAt(l, e, |base|);
  }

  // ---------------------------------------------------------------- trim

  /** The characters JavaScript's `trim` and the regex class `\s` treat as
      white space (WhiteSpace and LineTerminator of ECMA-262). */
  predicate IsSpace(c: char) {
    || c == ' ' || c == '\t' || c == '\n' || c == '\r'
    || c == '\U{000B}' || c == '\U{000C}' || c == '\U{00A0}' || c == '\U{1680}'
    || ('\U{2000}' <= c <= '\U{200A}')
    || c == '\U{2028}' || c == '\U{2029}' || c == '\U{202F}' || c == '\U{205F}'
    || c == '\U{3000}' || c == '\U{FEFF}'
  }

  predicate AllSpace(s: string) {
    forall i :: 0 <= i < |s| ==> IsSpace(s[i])
  }

  /** `trimStart`: the longest suffix of `s` not starting with white space. */
  function TrimStart(s: string): (r: string)
    ensures EndsWith(s, r)
    ensures r == "" || !IsSpace(r[0])
    ensures AllSpace(s[..|s| - |r|])
    decreases |s|
  {
    if |s| > 0 && IsSpace(s[0]) then
      var r := TrimStart(s[1..]);
      assert s[..|s| - |r|] == [s[0]] + s[1..][..|s| - 1 - |r|];
      assert s[|s| - |r|..] == s[1..][|s| - 1 - |r|..];
      r
    else s
  }

  /** `trimEnd`: the longest prefix of `s` not ending with white space. */
  function TrimEnd(s: string): (r: string)
    ensures StartsWith(s, r)
    ensures r == "" || !IsSpace(r[|r| - 1])
    ensures AllSpace(s[|r|..])
    decreases |s|
  {
    if |s| > 0 && IsSpace(s[|s| - 1]) then
      var r := TrimEnd(s[..|s| - 1]);
      assert s[|r|..] == s[..|s| - 1][|r|..] + [s[|s| - 1]];
      r
    else s
  }

  /** `trim` */
  function Trim(s: string): (r: string)
    ensures r == "" || (!IsSpace(r[0]) && !IsSpace(r[|r| - 1]))
    ensures r == "" <==> AllSpace(s)
  {
    var t := TrimStart(s);
    assert AllSpace(t) ==> AllSpace(s) by {
      if AllSpace(t) {
        assert s == s[..|s| - |t|] + t;
      }
    }
    TrimEnd(t)
  }

  /** A white-space character appended to `q` is trimmed away by
      `trimStart` only when all of `q` is white space as well. */
  lemma {:induction false} TrimStartSnoc(q: string, c: char)
    requires IsSpace(c)
    ensures TrimStart(q + [c]) == if AllSpace(q) then [] else TrimStart(q) + [c]
    decreases |q|
  {
    if |q| > 0 {
      assert (q + [c])[1..] == q[1..] + [c];
      if IsSpace(q[0]) {
        TrimStartSnoc(q[1..], c);
        assert AllSpace(q) <==> AllSpace(q[1..]);
      }
    } else {
      assert q + [c] == [c];
      assert [c][1..] == [];
    }
  }

  /** Trailing white space never survives `trim`. */
  lemma TrimSnoc(q: string, c: char)
    requires IsSpace(c)
    ensures Trim(q + [c]) == Trim(q)
  {
    TrimStartSnoc(q, c);
    if !AllSpace(q) {
      var t := TrimStart(q);
      assert (t + [c])[..|t|] == t;
    }
  }

  // ---------------------------------------------------------------- split

  /** `s.split(re)` where `re` matches exactly one character of `seps`. */
  function SplitOn(s: string, seps: set<char>): (r: seq<string>)
    ensures |r| >= 1
    decreases |s|
  {
    if |s| == 0 then [""]
    else
      var rest := SplitOn(s[1..], seps);
      if s[0] in seps then [""] + rest
      else [[s[0]] + rest[0]] + rest[1..]
  }

  /** The parts of a split are separator-free; there is one part exactly when
      `s` has no separator; the last part is the suffix after the last
      separator. */
  ghost predicate SplitFacts(s: string, seps: set<char>) {
    var r := SplitOn(s, seps);
    && (forall k :: 0 <= k < |r| ==> Avoids(r[k], seps))
    && (|r| == 1 <==> Avoids(s, seps))
    && EndsWith(s, r[|r| - 1])
    && (|r[|r| - 1]| < |s| ==> s[|s| - |r[|r| - 1]| - 1] in seps)
  }

  lemma {:induction false} SplitOnFacts(s: string, seps: set<char>)
    ensures SplitFacts(s, seps)
    decreases |s|
  {
    if |s| > 0 {
      SplitOnFacts(s[1..], seps);
      if s[0] in seps {
        SplitFactsSep(s, seps);
      } else {
        SplitFactsPlain(s, seps);
      }
    }
  }

  lemma SplitFactsSep(s: string, seps: set<char>)
    requires |s| > 0 && s[0] in seps
    requires SplitFacts(s[1..], seps)
    ensures SplitFacts(s, seps)
  {
    var rest := SplitOn(s[1..], seps);
    var r := SplitOn(s, seps);
    var last := rest[|rest| - 1];
    assert r == [""] + rest;
    assert r[|r| - 1] == last;
    assert s[1..][|s| - 1 - |last|..] == s[|s| - |last|..];
    assert !Avoids(s, seps);
  }

  lemma SplitFactsPlain(s: string, seps: set<char>)
    requires |s| > 0 && s[0] !in seps
    requires SplitFacts(s[1..], seps)
    ensures SplitFacts(s, seps)
  {
    var rest := SplitOn(s[1..], seps);
    var r := SplitOn(s, seps);
    var last := rest[|rest| - 1];
    assert r == [[s[0]] + rest[0]] + rest[1..];
    assert |r| == |rest|;
    if |rest| == 1 {
      assert last == s[1..];
      assert r[|r| - 1] == s;
    } else {
      assert r[|r| - 1] == last;
      assert s[1..][|s| - 1 - |last|..] == s[|s| - |last|..];
    }
    forall k | 0 <= k < |r|
      ensures Avoids(r[k], seps)
    {
      if k > 0 { assert r[k] == rest[k]; }
    }
    assert Avoids(s, seps) <==> Avoids(s[1..], seps);
  }

  /** `s.split(c)` for one separator character. */
  function Split(s: string, c: char): seq<string> {
    SplitOn(s, {c})
  }

  /** `parts.join(sep)` */
  function Join(parts: seq<string>, sep: string): string {
    if |parts| == 0 then ""
    else if |parts| == 1 then parts[0]
    else parts[0] + sep + Join(parts[1..], sep)
  }

  /** `s.split(...).pop()`: the part after the last separator. */
  function LastPart(s: string, seps: set<char>): (r: string)
    ensures Avoids(r, seps)
    ensures EndsWith(s, r)
    ensures |r| < |s| ==> s[|s| - |r| - 1] in seps
    ensures Avoids(s, seps) ==> r == s
  {
    SplitOnFacts(s, seps);
    var parts := SplitOn(s, seps);
    parts[|parts| - 1]
  }

  /** One step of `SplitOn`, stated for a string written as head and tail. */
  lemma SplitCons(x: char, t: string, seps: set<char>)
    ensures SplitOn([x] + t, seps) ==
      if x in seps then [""] + SplitOn(t, seps)
      else [[x] + SplitOn(t, seps)[0]] + SplitOn(t, seps)[1..]
  {
    assert ([x] + t)[1..] == t;
  }

  /** Splitting around one separator splits each side independently. */
  lemma {:induction false} SplitConcat(a: string, c: char, b: string, seps: set<char>)
    requires c in seps
    ensures SplitOn(a + [c] + b, seps) == SplitOn(a, seps) + SplitOn(b, seps)
    decreases |a|
  {
    if |a| == 0 {
      assert a + [c] + b == [c] + b;
      SplitCons(c, b, seps);
    } else {
      SplitConcat(a[1..], c, b, seps);
      SplitConcatStep(a[0], a[1..], c, b, seps);
      assert a == [a[0]] + a[1..];
    }
  }

  lemma SplitConcatStep(x: char, a: string, c: char, b: string, seps: set<char>)
    requires SplitOn(a + [c] + b, seps) == SplitOn(a, seps) + SplitOn(b, seps)
    ensures SplitOn([x] + a + [c] + b, seps) == SplitOn([x] + a, seps) + SplitOn(b, seps)
  {
    var t := a + [c] + b;
    assert [x] + a + [c] + b == [x] + t;
    if x in seps {
      SplitStepSep(x, a, t, SplitOn(b, seps), seps);
    } else {
      SplitStepPlain(x, a, t, SplitOn(b, seps), seps);
    }
  }

  lemma SplitStepSep(x: char, a: string, t: string, rb: seq<string>, seps: set<char>)
    requires x in seps
    requires SplitOn(t, seps) == SplitOn(a, seps) + rb
    ensures SplitOn([x] + t, seps) == SplitOn([x] + a, seps) + rb
  {
    SplitCons(x, t, seps);
    SplitCons(x, a, seps);
  }

  lemma SplitStepPlain(x: char, a: string, t: string, rb: seq<string>, seps: set<char>)
    requires x !in seps
    requires SplitOn(t, seps) == SplitOn(a, seps) + rb
    ensures SplitOn([x] + t, seps) == SplitOn([x] + a, seps) + rb
  {
    SplitCons(x, t, seps);
    SplitCons(x, a, seps);
    ConsOntoHead([x], SplitOn(a, seps), rb);
  }

  /** Prefixing the first part of `ra + rb` prefixes the first part of `ra`. */
  lemma ConsOntoHead(p: string, ra: seq<string>, rb: seq<string>)
    requires |ra| >= 1
    ensures [p + (ra + rb)[0]] + (ra + rb)[1..] == ([p + ra[0]] + ra[1..]) + rb
  {
    assert (ra + rb)[0] == ra[0];
    assert (ra + rb)[1..] == ra[1..] + rb;
  }

  /** Splitting a separator-free string gives it back whole. */
  lemma SplitNoSep(s: string, seps: set<char>)
    requires Avoids(s, seps)
    ensures SplitOn(s, seps) == [s]
  {
    SplitOnFacts(s, seps);
    var r := SplitOn(s, seps);
    assert |r| == 1;
  }

  /** The part after a separator followed by separator-free text is that
      text. */
  lemma LastPartAfter(pre: string, c: char, name: string, seps: set<char>)
    requires c in seps && Avoids(name, seps)
    ensures LastPart(pre + [c] + name, seps) == name
  {
    SplitConcat(pre, c, name, seps);
    SplitNoSep(name, seps);
  }

  /** `join` undoes `split` for a one-character separator. */
  lemma {:induction false} JoinSplit(s: string, c: char)
    ensures Join(Split(s, c), [c]) == s
    decreases |s|
  {
    if |s| > 0 {
      JoinSplit(s[1..], c);
      var rest := Split(s[1..], c);
      if s[0] == c {
        assert Split(s, c) == [""] + rest;
        assert s == [c] + s[1..];
      } else {
        if |rest| == 1 {
          assert Split(s, c) == [[s[0]] + rest[0]];
        } else {
          var r := Split(s, c);
          assert r[1..] == rest[1..];
          assert Join(rest, [c]) == rest[0] + [c] + Join(rest[1..], [c]);
        }
      }
    }
  }

  /** Joining all parts is joining the first `n`, the separator, then the
      rest. */
  lemma {:induction false} JoinAt(parts: seq<string>, n: nat, sep: string)
    requires 1 <= n < |parts|
    ensures Join(parts, sep) == Join(parts[..n], sep) + sep + Join(parts[n..], sep)
    decreases n
  {
    if n == 1 {
      assert Join(parts[..1], sep) == parts[0];
      assert parts[1..] == parts[n..];
    } else {
      var tail := parts[1..];
      JoinAt(tail, n - 1, sep);
      assert parts[..n][1..] == tail[..n - 1];
      assert tail[n - 1..] == parts[n..];
      var a, b := Join(tail[..n - 1], sep), Join(parts[n..], sep);
      calc {
        Join(parts, sep);
        parts[0] + sep + Join(tail, sep);
        parts[0] + sep + (a + sep + b);
        (parts[0] + sep + a) + sep + b;
        Join(parts[..n], sep) + sep + b;
      }
    }
  }

  /** `split` undoes `join` when the parts are free of the separator. */
  lemma {:induction false} SplitJoin(parts: seq<string>, c: char)
    requires |parts| >= 1
    requires forall k :: 0 <= k < |parts| ==> Avoids(parts[k], {c})
    ensures Split(Join(parts, [c]), c) == parts
    decreases |parts|
  {
    if |parts| == 1 {
      SplitNoSep(parts[0], {c});
    } else {
      SplitJoin(parts[1..], c);
      SplitConcat(parts[0], c, Join(parts[1..], [c]), {c});
      SplitNoSep(parts[0], {c});
      assert parts == [parts[0]] + parts[1..];
    }
  }
}

=== FILE: video_log.dfy ===
/** The video downloader's log panel and progress line: each line the
    download tool prints is kept in a buffer of the last 500 lines, and the
    percentage, speed, time left and total size read from it replace the
    ones shown. */
module VideoLog {
  import opened Opt
  import opened Strs
  import opened Seqs

  const MaxLogLines := 500

  /** The progress line. */
  datatype Progress = Progress(percent: real, speed: string, eta: string, total: string)

  const NoProgress := Progress(0.0, "", "", "")

  datatype VideoState = VideoState(logs: seq<string>, progress: Progress)

  /** What the four patterns found in a line: the number before `%`, the
      text after `at` ending in `/s`, the text after `ETA`, and the size
      after `of`; `None` where a pattern did not match. */
  datatype LineMatches = LineMatches(percent: Option<real>, speed: Option<string>, eta: Option<string>, total: Option<string>)

  /** `prev.concat(line).slice(-500)`: the line is added at the end and only
      the last 500 lines stay. */
  function AppendLog(logs: seq<string>, line: string): (r: seq<string>)
    ensures |r| == if |logs| < MaxLogLines then |logs| + 1 else MaxLogLines
    ensures r[|r| - 1] == line
    ensures EndsWithSeq(logs + [line], r)
    ensures |logs| < MaxLogLines ==> r == logs + [line]
  {
    var all := logs + [line];
    JsSlice(all, -MaxLogLines, |all|)
  }

  predicate EndsWithSeq<T(==)>(xs: seq<T>, suffix: seq<T>) {
    |suffix| <= |xs| && xs[|xs| - |suffix|..] == suffix
  }

  /** The previous values, each replaced where its pattern matched; the
      percentage is cut at 100. */
  function MergeProgress(prev: Progress, m: LineMatches): (r: Progress)
    ensures m.percent.None? ==> r.percent == prev.percent
    ensures m.percent.Some? ==> r.percent <= 100.0 && (m.percent.value <= 100.0 ==> r.percent == m.percent.value)
    ensures m.percent.Some? && m.percent.value >= 100.0 ==> r.percent == 100.0
    ensures r.speed == (if m.speed.Some? then m.speed.value else prev.speed)
    ensures r.eta == (if m.eta.Some? then m.eta.value else prev.eta)
    ensures r.total == (if m.total.Some? then m.total.value else prev.total)
  {
    Progress(
      if m.percent.Some? then (if m.percent.value < 100.0 then m.percent.value else 100.0) else prev.percent,
      m.speed.GetOr(prev.speed),
      m.eta.GetOr(prev.eta),
      m.total.GetOr(prev.total))
  }

  /** A line none of the patterns matched leaves the progress as it was. */
  const NoMatch := LineMatches(None, None, None, None)

  /** Merging changes only the fields whose pattern matched, so a line
      without matches changes nothing, and merging the same matches again
      changes nothing more. */
  lemma MergeFieldwise(prev: Progress, m: LineMatches)
    ensures MergeProgress(prev, NoMatch) == prev
    ensures MergeProgress(MergeProgress(prev, m), m) == MergeProgress(prev, m)
    ensures prev.percent <= 100.0 ==> MergeProgress(prev, m).percent <= 100.0
  {
  }

  /** A later line's matches win over an earlier line's wherever both
      matched. */
  lemma MergeLaterWins(prev: Progress, m1: LineMatches, m2: LineMatches)
    requires m2.percent.Some? && m2.speed.Some? && m2.eta.Some? && m2.total.Some?
    ensures MergeProgress(MergeProgress(prev, m1), m2) == MergeProgress(prev, m2)
  {
  }

  /** The progress listener: a missing or empty line changes nothing;
      otherwise the line becomes the last in the log, the lines before it
      are kept in order up to 500 in all, and the progress is merged. */
  function OnLine(st: VideoState, line: string, m: LineMatches): (r: VideoState)
    ensures line == "" ==> r == st
    ensures line != "" ==> |r.logs| > 0 && r.logs[|r.logs| - 1] == line && EndsWithSeq(st.logs + [line], r.logs)
    ensures line != "" && |st.logs| < MaxLogLines ==> r.logs == st.logs + [line]
    ensures line != "" && m == NoMatch ==> r.progress == st.progress
    ensures line != "" ==> r == VideoState(AppendLog(st.logs, line), MergeProgress(st.progress, m))
  {
    if line == "" then st else VideoState(AppendLog(st.logs, line), MergeProgress(st.progress, m))
  }

  /** `handleDownload` before the folder dialog: a blank address changes
      nothing; otherwise the log and the progress start over. */
  function StartDownload(st: VideoState, url: string): (r: VideoState)
    ensures AllSpace(url) ==> r == st
    ensures !AllSpace(url) ==> r.logs == [] && r.progress == NoProgress
  {
    if Trim(url) == "" then st else VideoState([], NoProgress)
  }

  /** The last `n` elements of `xs`, or all of them when there are fewer. */
  function LastN<T(==)>(xs: seq<T>, n: nat): (r: seq<T>)
    ensures |r| == if |xs| < n then |xs| else n
    ensures EndsWithSeq(xs, r)
  {
    if |xs| < n then xs else xs[|xs| - n..]
  }

  /** The buffer after a run of lines, starting from an empty log. */
  function Replay(lines: seq<string>): seq<string>
    decreases |lines|
  {
    if |lines| == 0 then []
    else
      var prev := Replay(lines[..|lines| - 1]);
      var line := lines[|lines| - 1];
      if line == "" then prev else AppendLog(prev, line)
  }

  /** After any run of lines the buffer holds exactly the last 500 of the
      non-empty lines received, in the order they came. */
  lemma {:induction false} ReplayKeepsLast(lines: seq<string>)
    ensures Replay(lines) == LastN(Filter(lines, NonEmptyLine), MaxLogLines)
    decreases |lines|
  {
    if |lines| > 0 {
      var init, line := lines[..|lines| - 1], lines[|lines| - 1];
      assert lines == init + [line];
      ReplayKeepsLast(init);
      KeptSnoc(init, line);
      if line != "" {
        AppendLogKeepsLast(Filter(init, NonEmptyLine), line);
      }
    }
  }

  /** The state after the listener has received `lines`, the `k`-th one
      with matches `ms[k]`. */
  function Listen(st: VideoState, lines: seq<string>, ms: seq<LineMatches>): VideoState
    requires |ms| == |lines|
    decreases |lines|
  {
    if |lines| == 0 then st
    else OnLine(Listen(st, lines[..|lines| - 1], ms[..|ms| - 1]), lines[|lines| - 1], ms[|ms| - 1])
  }

  /** Whatever the progress, listening from an empty log leaves the buffer
      holding the last 500 non-empty lines received, in order. */
  lemma {:induction false} ListenKeepsLast(p: Progress, lines: seq<string>, ms: seq<LineMatches>)
    requires |ms| == |lines|
    ensures Listen(VideoState([], p), lines, ms).logs == Replay(lines)
    ensures Listen(VideoState([], p), lines, ms).logs == LastN(Filter(lines, NonEmptyLine), MaxLogLines)
    decreases |lines|
  {
    if |lines| > 0 {
      ListenKeepsLast(p, lines[..|lines| - 1], ms[..|ms| - 1]);
    }
    ReplayKeepsLast(lines);
  }

  /** Lines none of the patterns matched never move the progress line. */
  lemma {:induction false} ListenWithoutMatches(st: VideoState, lines: seq<string>, ms: seq<LineMatches>)
    requires |ms| == |lines|
    requires forall k :: 0 <= k < |ms| ==> ms[k] == NoMatch
    ensures Listen(st, lines, ms).progress == st.progress
    decreases |lines|
  {
    if |lines| > 0 {
      ListenWithoutMatches(st, lines[..|lines| - 1], ms[..|ms| - 1]);
    }
  }

  /** The percentage shown never exceeds 100 once it starts at or below. */
  lemma {:induction false} ListenPercentCapped(st: VideoState, lines: seq<string>, ms: seq<LineMatches>)
    requires |ms| == |lines|
    requires st.progress.percent <= 100.0
    ensures Listen(st, lines, ms).progress.percent <= 100.0
    decreases |lines|
  {
    if |lines| > 0 {
      ListenPercentCapped(st, lines[..|lines| - 1], ms[..|ms| - 1]);
    }
  }

  /** The non-empty lines grow by the new line when it is non-empty. */
  lemma KeptSnoc(init: seq<string>, line: string)
    ensures Filter(init + [line], NonEmptyLine)
         == if line == "" then Filter(init, NonEmptyLine) else Filter(init, NonEmptyLine) + [line]
  {
    FilterAppend(init, [line], NonEmptyLine);
    if line != "" {
      assert Filter([line], NonEmptyLine) == [line];
    } else {
      assert Filter([line], NonEmptyLine) == [];
      assert Filter(init, NonEmptyLine) + [] == Filter(init, NonEmptyLine);
    }
  }

  /** Appending to the last 500 lines keeps the last 500 lines. */
  lemma AppendLogKeepsLast(kept: seq<string>, line: string)
    ensures AppendLog(LastN(kept, MaxLogLines), line) == LastN(kept + [line], MaxLogLines)
  {
    LastNSnoc(kept, line, MaxLogLines);
  }

  predicate NonEmptyLine(line: string) {
    line != ""
  }

  lemma LastNSnoc<T>(xs: seq<T>, x: T, n: nat)
    requires n > 0
    ensures LastN(xs + [x], n) == if |LastN(xs, n)| < n then LastN(xs, n) + [x] else (LastN(xs, n) + [x])[1..]
  {
  }
}

=== FILE: wayback_input.dfy ===
/** The two readings of a user-supplied Wayback Machine link: the Electron
    main process splits the path into segments, the extraction script matches
    a regular expression. Both turn `https://web.archive.org/web/<stamp>/<url>`
    into the archived page's original URL and its capture stamp, and both pass
    any other input through untouched. */
module WaybackInput {
  import opened Opt
  import opened Strs
  import opened Seqs

  const ArchiveHost := "web.archive.org"
  const ReplayPrefix := "https://web.archive.org/web/"

  /** The Wayback replay address of `original` as captured at `stamp`. */
  function ReplayUrl(stamp: string, original: string): (r: string)
    ensures Contains(r, ArchiveHost)
  {
    assert ReplayPrefix[8..8 + |ArchiveHost|] == ArchiveHost;
    ContainsAt(ReplayPrefix, ArchiveHost, 8);
    ContainsInLeft(ReplayPrefix, stamp + "/" + original, ArchiveHost);
    assert ReplayPrefix + stamp + "/" + original == ReplayPrefix + (stamp + "/" + original);
    ReplayPrefix + stamp + "/" + original
  }

  /** The two components of a parsed URL the parsers look at. The URL parser
      itself is not part of this model: `None` stands for `new URL` throwing. */
  datatype UrlParts = UrlParts(hostname: string, pathname: string)

  /** A character the URL standard's path state copies into the pathname
      unchanged: printable ASCII other than the ones that end the path (`?`,
      `#`), the one read as a separator (`\`), the ones the path
      percent-encode set escapes (`"`, `<`, `>`, `` ` ``, `{`, `}`), and `%`,
      whose `%2e` spelling of a dot is resolved like a dot. */
  predicate VerbatimPathChar(c: char) {
    '!' <= c <= '~' && c !in {'?', '#', '\\', '"', '<', '>', '`', '{', '}', '%'}
  }

  /** Text that the URL standard keeps verbatim when it appears after
      `https://web.archive.org/web/` and a stamp: every character is copied
      unchanged and no `/`-separated part is a `.` or `..` segment, which
      the parser would resolve away. Under this condition, and only the
      caller can establish it, `new URL` of the replay address has the
      pathname `/web/<stamp>/<original>`; otherwise the pathname differs
      (a query or fragment of the embedded URL, for one, is cut off). */
  predicate VerbatimInPath(s: string) {
    && (forall i :: 0 <= i < |s| ==> VerbatimPathChar(s[i]))
    && (forall k :: 0 <= k < |Split(s, '/')| ==> Split(s, '/')[k] != "." && Split(s, '/')[k] != "..")
  }

  /** The `{ original, stamp }` record; `None` is `null` or `undefined`. */
  datatype Parsed = Parsed(original: Option<string>, stamp: Option<string>)

  /** The result for anything that is not a Wayback capture link. */
  function PassThrough(input: string): Parsed {
    Parsed(Some(input), None)
  }

  predicate IsArchive(url: Option<UrlParts>) {
    url.Some? && Contains(url.value.hostname, ArchiveHost)
  }

  /** `rest.startsWith('http') ? rest : 'http://' + rest` */
  function WithScheme(rest: string): (r: string)
    ensures StartsWith(r, "http")
    ensures StartsWith(rest, "http") ==> r == rest
    ensures !StartsWith(rest, "http") ==> EndsWith(r, rest) && |r| == |rest| + 7
  {
    if StartsWith(rest, "http") then rest else "http://" + rest
  }

  predicate NonEmpty(s: string) {
    s != ""
  }

  /** `path.split('/').filter(Boolean)` */
  function Segments(path: string): (r: seq<string>)
    ensures forall k :: 0 <= k < |r| ==> r[k] != "" && Avoids(r[k], {'/'})
  {
    SplitOnFacts(path, {'/'});
    Filter(Split(path, '/'), NonEmpty)
  }

  /** A path with empty segments squeezed out: `//` becomes `/` and leading
      and trailing slashes go. */
  function Collapse(path: string): string {
    Join(Segments(path), "/")
  }

  // ------------------------------------------------------------ electron

  /** `parseWaybackInput` of the Electron main process. */
  function ParseElectron(input: string, url: Option<UrlParts>): (r: Parsed)
    ensures !IsArchive(url) ==> r == PassThrough(input)
    ensures IsArchive(url) && "web" !in Segments(url.value.pathname) ==> r == PassThrough(input)
    ensures IsArchive(url) && "web" in Segments(url.value.pathname) ==>
      && (r.stamp.Some? ==> r.stamp.value != "" && Avoids(r.stamp.value, {'/'}))
      && (r.original.Some? ==> StartsWith(r.original.value, "http"))
  {
    if !IsArchive(url) then PassThrough(input)
    else
      var parts := Segments(url.value.pathname);
      var w := IndexOf(parts, "web");
      if w < 0 then PassThrough(input)
      else
        var stamp := if w + 1 < |parts| then Some(parts[w + 1]) else None;
        var rest := if w + 2 <= |parts| then Join(parts[w + 2..], "/") else "";
        Parsed(if rest == "" then None else Some(WithScheme(rest)), stamp)
  }

  // ------------------------------------------------------------ script

  const LineTerminators: set<char> := {'\n', '\r', '\U{2028}', '\U{2029}'}

  predicate NotSlash(c: char) {
    c != '/'
  }

  /** The match of `^\/web\/([^/]+)\/(.+)$` against a pathname: the stamp is
      the run of non-`/` characters after `/web/`, the rest is everything after
      the next `/`, which must be non-empty and, since `.` does not match line
      terminators, free of them. */
  function MatchWebPath(p: string): (m: Option<(string, string)>)
    ensures m.Some? ==>
      && p == "/web/" + m.value.0 + "/" + m.value.1
      && m.value.0 != "" && Avoids(m.value.0, {'/'})
      && m.value.1 != "" && Avoids(m.value.1, LineTerminators)
  {
    if !StartsWith(p, "/web/") then None
    else
      var tail := p[5..];
      var st := PrefixWhile(tail, NotSlash);
      if st == "" || |st| == |tail| then None
      else
        var rest := tail[|st| + 1..];
        if rest == "" || !Avoids(rest, LineTerminators) then None
        else
          assert tail == st + "/" + rest;
          assert p == "/web/" + tail;
          Some((st, rest))
  }

  /** Every path of the matched shape is matched, with these groups. */
  lemma MatchWebPathComplete(st: string, rest: string)
    requires st != "" && Avoids(st, {'/'})
    requires rest != "" && Avoids(rest, LineTerminators)
    ensures MatchWebPath("/web/" + st + "/" + rest) == Some((st, rest))
  {
    var p := "/web/" + st + "/" + rest;
    var tail := p[5..];
    assert tail == st + ("/" + rest);
    PrefixWhileStops(st, "/" + rest, NotSlash);
  }

  /** `parseWaybackInput` of the extraction script. */
  function ParseScript(input: string, url: Option<UrlParts>): (r: Parsed)
    ensures r.original.Some?
    ensures !IsArchive(url) ==> r == PassThrough(input)
    ensures IsArchive(url) && MatchWebPath(url.value.pathname).None? ==> r == PassThrough(input)
    ensures r.stamp.Some? ==> r.stamp.value != "*" && r.stamp.value != ""
  {
    if !IsArchive(url) then PassThrough(input)
    else
      match MatchWebPath(url.value.pathname)
      case None => PassThrough(input)
      case Some((st, rest)) =>
        Parsed(Some(WithScheme(rest)), if st == "*" then None else Some(st))
  }

  // ------------------------------------------------------------ lemmas

  /** Segments on either side of a `/` are segmented independently. */
  lemma SegmentsSlash(a: string, b: string)
    ensures Segments(a + "/" + b) == Segments(a) + Segments(b)
  {
    SplitConcat(a, '/', b, {'/'});
    FilterAppend(Split(a, '/'), Split(b, '/'), NonEmpty);
  }

  lemma SegmentsPlain(a: string)
    requires a != "" && Avoids(a, {'/'})
    ensures Segments(a) == [a]
  {
    SplitNoSep(a, {'/'});
    assert Split(a, '/') == [a];
    assert Filter([a], NonEmpty) == [a] + Filter([a][1..], NonEmpty);
  }

  lemma SegmentsEmpty()
    ensures Segments("") == []
  {
    assert Split("", '/') == [""];
  }

  /** The path of a capture link splits into `web`, the stamp, and the
      segments of the embedded URL, after whatever segments precede it. */
  lemma SegmentsOfWebPath(pre: string, st: string, rest: string)
    requires st != "" && Avoids(st, {'/'})
    ensures Segments(pre + "/web/" + st + "/" + rest) == Segments(pre) + ["web", st] + Segments(rest)
  {
    var tail := st + "/" + rest;
    assert pre + "/web/" + st + "/" + rest == pre + "/" + ("web" + "/" + tail);
    calc {
      Segments(pre + "/" + ("web" + "/" + tail));
      { SegmentsSlash(pre, "web" + "/" + tail); }
      Segments(pre) + Segments("web" + "/" + tail);
      { SegmentsSlash("web", tail); SegmentsPlain("web"); }
      Segments(pre) + (["web"] + Segments(tail));
      { SegmentsSlash(st, rest); SegmentsPlain(st); }
      Segments(pre) + (["web"] + ([st] + Segments(rest)));
      Segments(pre) + ["web", st] + Segments(rest);
    }
  }

  /** What the Electron parser makes of a capture link: the stamp verbatim
      and the embedded URL with its empty segments squeezed out. */
  lemma ElectronOnWebPath(input: string, host: string, st: string, rest: string)
    requires Contains(host, ArchiveHost)
    requires st != "" && Avoids(st, {'/'})
    ensures ParseElectron(input, Some(UrlParts(host, "/web/" + st + "/" + rest))) ==
      Parsed(if Collapse(rest) == "" then None else Some(WithScheme(Collapse(rest))), Some(st))
  {
    var parts := Segments("/web/" + st + "/" + rest);
    assert "" + "/web/" + st + "/" + rest == "/web/" + st + "/" + rest;
    SegmentsOfWebPath("", st, rest);
    SegmentsEmpty();
    assert IndexOf(parts, "web") == 0;
    assert parts[2..] == Segments(rest);
  }

  /** What the script parser makes of a capture link: the embedded URL
      verbatim, and the stamp unless it is the wildcard `*`. */
  lemma ScriptOnWebPath(input: string, host: string, st: string, rest: string)
    requires Contains(host, ArchiveHost)
    requires st != "" && Avoids(st, {'/'})
    requires rest != "" && Avoids(rest, LineTerminators)
    ensures ParseScript(input, Some(UrlParts(host, "/web/" + st + "/" + rest))) ==
      Parsed(Some(WithScheme(rest)), if st == "*" then None else Some(st))
  {
    MatchWebPathComplete(st, rest);
  }

  /** The replay address of a capture leads back to it: read by the
      extraction script's parser it yields the original URL and the stamp,
      provided both are kept verbatim in the pathname `new URL` reports. */
  lemma ReplayUrlRoundTrip(timestamp: string, original: string)
    requires timestamp != "" && Avoids(timestamp, {'/'}) && timestamp != "*"
    requires StartsWith(original, "http") && Avoids(original, LineTerminators)
    requires VerbatimInPath(timestamp) && VerbatimInPath(original)
    ensures ParseScript(ReplayUrl(timestamp, original),
                        Some(UrlParts(ArchiveHost, "/web/" + timestamp + "/" + original)))
         == Parsed(Some(original), Some(timestamp))
  {
    assert Contains(ArchiveHost, ArchiveHost);
    ScriptOnWebPath(ReplayUrl(timestamp, original), ArchiveHost, timestamp, original);
  }

  /** Both parsers leave a link alone when the host is not the archive. */
  lemma ParsersAgreeOffArchive(input: string, url: Option<UrlParts>)
    requires !IsArchive(url)
    ensures ParseElectron(input, url) == ParseScript(input, url) == PassThrough(input)
  {
  }

  /** No two consecutive slashes. */
  predicate NoDoubleSlash(s: string) {
    forall i :: 0 <= i < |s| - 1 ==> s[i] != '/' || s[i + 1] != '/'
  }

  /** Joining non-empty, slash-free parts with `/` yields no `//`. */
  lemma {:induction false} JoinNoDoubleSlash(parts: seq<string>)
    requires forall k :: 0 <= k < |parts| ==> parts[k] != "" && Avoids(parts[k], {'/'})
    ensures NoDoubleSlash(Join(parts, "/"))
    ensures |parts| > 0 ==> StartsWith(Join(parts, "/"), parts[0])
    decreases |parts|
  {
    if |parts| > 1 {
      JoinNoDoubleSlash(parts[1..]);
      var p := parts[0];
      var tail := Join(parts[1..], "/");
      var j := Join(parts, "/");
      assert j == p + "/" + tail;
      assert tail[0] != '/' by {
        assert parts[1..][0] == parts[1];
      }
      forall i | 0 <= i < |j| - 1
        ensures j[i] != '/' || j[i + 1] != '/'
      {
        if i < |p| {
          assert j[i] == p[i];
        } else if i == |p| {
          assert j[i + 1] == tail[0];
        } else {
          assert j[i] == tail[i - |p| - 1];
        }
      }
    }
  }

  lemma CollapseNoDoubleSlash(path: string)
    ensures NoDoubleSlash(Collapse(path))
  {
    JoinNoDoubleSlash(Segments(path));
  }

  /** A `/`-free prefix stays the first segment. */
  lemma SegmentsOfPlainPrefix(a: string, b: string)
    requires a != "" && Avoids(a, {'/'})
    ensures |Segments(a + b)| >= 1 && StartsWith(Segments(a + b)[0], a)
  {
    var s := a + b;
    var i := IndexOf(b, '/');
    if i < 0 {
      assert Avoids(s, {'/'});
      SplitNoSep(s, {'/'});
      assert Segments(s) == Filter([s], NonEmpty);
    } else {
      assert '/' !in b[..i];
      var head := a + b[..i];
      assert Avoids(head, {'/'});
      assert s == head + ['/'] + b[i + 1..];
      SplitConcat(head, '/', b[i + 1..], {'/'});
      SplitNoSep(head, {'/'});
      FilterAppend([head], Split(b[i + 1..], '/'), NonEmpty);
    }
  }

  /** Collapsing keeps a leading `http` in place. */
  lemma CollapseKeepsScheme(path: string)
    requires StartsWith(path, "http")
    ensures StartsWith(Collapse(path), "http")
  {
    assert path == "http" + path[4..];
    SegmentsOfPlainPrefix("http", path[4..]);
    JoinNoDoubleSlash(Segments(path));
  }

  /** Collapsing changes nothing exactly when no segment is empty. */
  predicate NoEmptySegment(path: string) {
    forall k :: 0 <= k < |Split(path, '/')| ==> Split(path, '/')[k] != ""
  }

  lemma CollapseClean(path: string)
    requires NoEmptySegment(path)
    ensures Collapse(path) == path
  {
    FilterAll(Split(path, '/'), NonEmpty);
    JoinSplit(path, '/');
  }

  /** Where the two parsers part ways on an archive capture link: they agree
      exactly when the stamp is not the wildcard and the embedded URL has no
      empty segment (no `//`, no leading or trailing `/`). */
  lemma ParsersAgreeOnWebPath(input: string, host: string, st: string, rest: string)
    requires Contains(host, ArchiveHost)
    requires st != "" && Avoids(st, {'/'})
    requires rest != "" && Avoids(rest, LineTerminators)
    ensures ParseElectron(input, Some(UrlParts(host, "/web/" + st + "/" + rest))) ==
            ParseScript(input, Some(UrlParts(host, "/web/" + st + "/" + rest)))
        <==> st != "*" && Collapse(rest) == rest
  {
    ElectronOnWebPath(input, host, st, rest);
    ScriptOnWebPath(input, host, st, rest);
    var c := Collapse(rest);
    if c != rest && c != "" {
      SchemeSeparates(c, rest);
    }
  }

  /** Prefixing a scheme cannot make a collapsed path equal to an uncollapsed
      one. */
  lemma SchemeSeparates(c: string, rest: string)
    requires c == Collapse(rest) && c != rest
    ensures WithScheme(c) != WithScheme(rest)
  {
    CollapseNoDoubleSlash(rest);
    var sc := StartsWith(c, "http");
    var sr := StartsWith(rest, "http");
    if sc && !sr {
      assert WithScheme(rest)[5] == '/' && WithScheme(rest)[6] == '/';
    } else if !sc && sr {
      CollapseKeepsScheme(rest);
    } else if !sc && !sr {
      assert WithScheme(c)[7..] == c;
      assert WithScheme(rest)[7..] == rest;
    }
  }

  /** The wildcard stamp is one divergence: Electron keeps `*`, the script
      drops it. */
  lemma WildcardStampDiffers(input: string, host: string, rest: string)
    requires Contains(host, ArchiveHost)
    requires rest != "" && Avoids(rest, LineTerminators)
    ensures ParseElectron(input, Some(UrlParts(host, "/web/*/" + rest))).stamp == Some("*")
    ensures ParseScript(input, Some(UrlParts(host, "/web/*/" + rest))).stamp == None
  {
    assert "/web/*/" + rest == "/web/" + "*" + "/" + rest;
    ElectronOnWebPath(input, host, "*", rest);
    ScriptOnWebPath(input, host, "*", rest);
  }

  /** Electron finds the `web` segment after any other leading segment. */
  lemma ElectronFindsWebLater(input: string, host: string, x: string, st: string, rest: string)
    requires Contains(host, ArchiveHost)
    requires x != "" && Avoids(x, {'/'}) && x != "web"
    requires st != "" && Avoids(st, {'/'})
    ensures ParseElectron(input, Some(UrlParts(host, "/" + x + "/web/" + st + "/" + rest))) ==
      Parsed(if Collapse(rest) == "" then None else Some(WithScheme(Collapse(rest))), Some(st))
  {
    var pre := "/" + x;
    var p := pre + "/web/" + st + "/" + rest;
    assert "/" + x + "/web/" + st + "/" + rest == p;
    SegmentsOfWebPath(pre, st, rest);
    SegmentsOfLeading(x);
    var parts := Segments(p);
    assert parts == [x, "web", st] + Segments(rest);
    assert IndexOf(parts, "web") == 1;
    assert parts[3..] == Segments(rest);
  }

  lemma SegmentsOfLeading(x: string)
    requires x != "" && Avoids(x, {'/'})
    ensures Segments("/" + x) == [x]
  {
    assert "/" + x == "" + "/" + x;
    SegmentsSlash("", x);
    SegmentsEmpty();
    SegmentsPlain(x);
  }

  /** The script insists on `web` being the first segment. */
  lemma ScriptNeedsWebFirst(input: string, host: string, x: string, st: string, rest: string)
    requires Contains(host, ArchiveHost)
    requires x != "" && Avoids(x, {'/'}) && x != "web"
    ensures ParseScript(input, Some(UrlParts(host, "/" + x + "/web/" + st + "/" + rest))) == PassThrough(input)
  {
    var tail := "/web/" + st + "/" + rest;
    assert "/" + x + "/web/" + st + "/" + rest == "/" + x + tail;
    NotWebFirst(x, tail);
  }

  /** A first segment other than `web` keeps a path from starting with
      `/web/`. */
  lemma NotWebFirst(x: string, tail: string)
    requires x != "" && Avoids(x, {'/'}) && x != "web"
    requires |tail| > 0 && tail[0] == '/'
    ensures !StartsWith("/" + x + tail, "/web/")
  {
    var p := "/" + x + tail;
    if |x| > 3 {
      assert p[4] == x[3] && x[3] != '/';
    } else if |x| == 3 {
      assert p[1..4] == x;
    } else {
      assert p[|x| + 1] == '/';
    }
  }
}
